=== FILE: README.md ===
# Theater actor runtime: a Dafny model

Theater is a Swift actor library. This project models its sequential core and proves
properties of that model:

- **Actor cell dispatch** (`ActorCells`, `ActorCellFacts`). `ActorCell.systemReceive`
  becomes a pure step from a cell and one message to the next cell and its effects, in
  order. Effects are sends, detaching a child, `willStop`, the supervisor hook, running an
  answer callback, and running the user handler. A force-unwrap of a nil sender is a
  `Trap`. The step covers PoisonPill, Terminated, ErrorMessage, AskMessage, AnswerMessage,
  ActorSelect and application messages. It also covers `actorOf`, `stop` and
  `getChildrenActors`.
- **References, paths and messages** (`ActorRefs`, `Paths`, `Messages`, `Delivery`).
  - A reference is a path plus an optional cell.
  - `tell` and `stop` act on per-cell FIFO mailboxes.
  - Path strings are split on "/".
  - The message class tree is a closed datatype built by its initialisers.
- **Behaviour stack and mailbox flag of the older `Actor` class** (`Stacks`,
  `Behaviours`). This covers `become`, `unbecome`, `currentState`, `popToState`,
  `popToRoot`, routing of non-system messages, and `tell`/`processMessage` with
  `inTaskQueue`.
- **Work-list drain** (`Worklists`). Both `putAndRun` and `processMessage` run a queue
  until it is empty, and the items they process may add more. A complete run of such a
  loop is characterised independently of the loop, and that run is unique.
- **Executor** (`Executors`): the run-to-completion trampoline `putAndRun`.
- **Hash table** (`ProbeMath`, `Hashtables`, `HashtableInvariants`, `HashtableRefinement`,
  `HashtableNoHoles`, `HashtableScenarios`). This is open addressing with triangular probing over a
  power-of-two table, per-home relocation lists, hole-filling remove and rehash on
  enlarge.
  - Every operation is related to a `map<K, V>` through an abstraction function `Abs`
    under a representation invariant `Valid`. `set` and the subscript setter are related in their corrected forms.
  - `set` as written is related too, on tables that no `remove` has touched. There it
    equals the corrected form, and a history of `set` calls leaves each key with the
    value of its last `set`.
  - Triangular offsets modulo a power of two visit every slot, so the probe of `enlarge`
    never runs out and `set`'s "table full" branch is unreachable.
  - `smallTest` is proved for every hash function.
- **Chameneos benchmark** (`Chameneos`, `ChameneosLedger`).
  - Covers the colour rule `complement`, the mall's Meet and MeetingCount handlers, and
    the chameneo's handler.
  - A world of one mall, its chameneos and the messages in flight is advanced by
    delivering any one message. Every delivery order keeps an invariant that rules out
    force-unwrap traps. The invariant also gives "meetings counted + meetings owed = twice
    the meetings arranged".
  - A second invariant accounts for the mall's own counters. Each live chameneo has
    exactly one pending move. Every report in flight is owed to `numFaded` and
    `sumMeetings`. So once the system shuts down, the mall's `sumMeetings` is twice its
    starting `n`, whatever the delivery order.

Modelling choices:

- Every stateful operation returns its new state instead of mutating an object. Arrays
  are sequences, and integers are unbounded.
- The hash function is a parameter `K -> int`. `hashValue & (size - 1)` is the
  non-negative remainder `hash % size`, which equals the masked value for a power-of-two
  size in two's complement.
- `children.forEach` visits keys in an unspecified order. `KeyOrder` is an arbitrary but
  fixed enumeration that lists every key once, so the cell step is a ghost function.

## Model

| member | source | states |
|---|---|---|
| ActorRefs.NewRef | Sources/ActorRef.swift:22-33 | a path's `asString` and `description` both equal the constructor string; a fresh ref has no cell |
| ActorRefs.ChildPath | Sources/ActorCell.swift:79 | the child path is the parent path, then "/", then the name, position by position |
| ActorRefs.ActorFor | Sources/ActorRef.swift:60-66 | both `actorFor` overloads (path string or path sections): a ref with no cell yields nil; a bound ref returns exactly what its cell resolves |
| Messages.NewMessage | Sources/Message.swift:16-23 | a plain message keeps its sender and is not a system message |
| Messages.NewPoisonPill | Sources/Message.swift:33 | a PoisonPill is a system message with the given sender |
| Messages.NewTerminated | Sources/Message.swift:37 | a Terminated is a system message with the given sender |
| Messages.NewMessageWithOperationId | Sources/Message.swift:41-50 | keeps the sender and the operation id; is a system message |
| Messages.NewErrorMessage | Sources/Message.swift:53-59 | an ErrorMessage always has a sender and carries its error |
| Messages.NewDeadLetter | Sources/Message.swift:65-73 | a DeadLetter wraps the original message unchanged |
| Messages.NewAskMessage | Sources/Message.swift:77-87 | an AskMessage takes its sender from the wrapped message and keeps the callback |
| Messages.NewAnswerMessage | Sources/Message.swift:91-100 | an AnswerMessage carries its answer and callback unchanged and has a sender |
| Messages.NewActorSelect | Sources/Message.swift:106-117 | an ActorSelect always has a sender and keeps its path and callback |
| Delivery.CellTell | Sources/ActorCell.swift:163-167 | the cell's queue gains the message at its end; other queues are unchanged |
| Delivery.Tell | Sources/ActorRef.swift:73-80 | an unbound ref delivers nothing; a bound ref enqueues on its own cell |
| Delivery.Stop | Sources/ActorRef.swift:83-90 | stopping an unbound ref does nothing |
| Delivery.TellDeliversOnce | Sources/ActorRef.swift:73-80 | a bound tell adds exactly that message, last, to that cell's mailbox and changes no other mailbox |
| Delivery.StopSendsOnePoisonPill | Sources/ActorRef.swift:83-90 | stopping a bound ref posts exactly one sender-less PoisonPill to the ref's own cell (ActorCell.stop) |
| Stacks.New | Sources/Stack.swift:29-31 | a new stack is empty and has no head |
| Stacks.Push | Sources/Stack.swift:39-41 | push grows the stack by one, keeps the old elements below, and the head is the pushed element |
| Stacks.Pop | Sources/Stack.swift:47-49 | pop of an empty stack is nil and changes nothing; otherwise it returns the head and pushing it back gives the old stack |
| Stacks.Head | Sources/Stack.swift:55-57 | head is nil exactly for the empty stack, else the last element |
| Stacks.IsEmpty | Sources/Stack.swift:65-67 | isEmpty holds exactly when there are no elements |
| Stacks.ReplaceHead | Sources/Actor.swift:154 | assumed contract: the new head is the element; it replaces the top of a non-empty stack and pushes onto an empty one |
| Stacks.PushPop | Sources/Stack.swift:39-49 | pop right after push returns the element and the previous stack |
| Stacks.PopEmpty | Sources/Stack.swift:47-49 | pop of a new stack returns nil and leaves it empty |
| Behaviours.Become | Sources/Actor.swift:140-142 | become without the flag pushes: one more state, the new pair on top, the rest kept |
| Behaviours.BecomeDiscarding | Sources/Actor.swift:152-158 | with discardOld the top is replaced (pushed on an empty stack); otherwise it is a push; the head is the new pair either way |
| Behaviours.Unbecome | Sources/Actor.swift:164 | unbecome drops exactly the top state, and does nothing on an empty stack |
| Behaviours.CurrentState | Sources/Actor.swift:171-173 | the current state is the top of the stack, nil exactly when empty |
| Behaviours.PopToState | Sources/Actor.swift:180-191 | ends with an empty stack or a top named `name`; keeps a bottom part; everything removed is not named `name` |
| Behaviours.PopToStateKeepsThroughTopmost | Sources/Actor.swift:180-191 | popToState keeps exactly the states up to and including the topmost one named `name` |
| Behaviours.PopToStateIdempotent | Sources/Actor.swift:180-191 | a second popToState with the same name changes nothing |
| Behaviours.PopToRoot | Sources/Actor.swift:196-200 | popToRoot always leaves the stack empty |
| Behaviours.Dispatch | Sources/Actor.swift:207-232 | a PoisonPill takes the stop branch; any other message goes to the top state, or to `receive` on an empty stack |
| Behaviours.PopToRootRestoresReceive | Sources/Actor.swift:196-200 | after popToRoot every non-PoisonPill message goes to `receive` |
| Behaviours.BecomeThenUnbecome | Sources/Actor.swift:140-164 | a pushed state handles the next message; unbecome restores the previous stack and handler |
| Behaviours.Tell | Sources/Actor.swift:254-260 | tell appends the message, and schedules a drain exactly when none was pending, then marks one pending |
| Behaviours.Drain | Sources/Actor.swift:44-47 | the loop leaves the mailbox empty after handling a complete run: the queued messages, then every message told to the actor while it drains, in FIFO order; the tells during it schedule at most one more drain, and none while one is pending |
| Behaviours.ProcessMessage | Sources/Actor.swift:44-52 | processMessage handles a complete run of the mailbox, ends with an empty mailbox and inTaskQueue cleared, and a pending flag keeps the tells during it from scheduling anything |
| Behaviours.DrainRunsQueue | Sources/Actor.swift:44-47 | the mailbox loop is the work-list drain: it finishes exactly when the work-list run does, with the same messages |
| Behaviours.TellThenProcessOnce | Sources/Actor.swift:254-260 | a tell to an idle actor schedules processMessage, which handles the one complete run of the mailbox plus everything told meanwhile, schedules nothing more and leaves the actor idle |
| Behaviours.TellAllSchedulesOnce | Sources/Actor.swift:254-260 | telling several messages appends them all in order and schedules exactly one drain if none was pending and at least one message was told, and none otherwise |
| Behaviours.TellAllThenProcess | Sources/Actor.swift:254-260 | the drain after a batch of tells handles the messages already queued and then the batch, in order, before anything told during it |
| Worklists.RunQueue | Sources/Executor.swift:13-15 | the items processed form a complete run: the queue, then everything the processed items added, in FIFO order, each added by an item processed before it |
| Worklists.RunLogUnique | Sources/Executor.swift:13-15 | the queue and what each item adds fix the complete run: two complete runs are equal |
| Worklists.RunQueueComplete | Sources/Executor.swift:13-15 | whenever a complete run exists within the fuel, the loop produces exactly that run |
| Executors.PutAndRun | Sources/Executor.swift:9-18 | a reentrant call only enqueues; the outermost call runs a complete run of the queue plus the new task and ends not running with an empty queue |
| Executors.PutAndRunComplete | Sources/Executor.swift:9-18 | the outermost call runs the one complete run of its queue whenever the fuel allows it |
| Executors.EachTaskRunsOnce | Sources/Executor.swift:10-15 | as multisets, the tasks run are exactly the queued tasks, the new task and every task submitted during the run |
| Executors.QueuedTasksRunFirst | Sources/Executor.swift:10-15 | the tasks already queued run first, in order, then the new one |
| Executors.NoSubmissionsRunsQueue | Sources/Executor.swift:13-15 | when no task submits, the drain runs exactly the queue |
| Paths.Split | Sources/ActorCell.swift:117 | `components(separatedBy: "/")` yields at least one piece, none containing "/" |
| Paths.JoinSplit | Sources/ActorCell.swift:117 | joining the pieces with "/" gives the string back |
| Paths.SplitJoin | Sources/ActorCell.swift:117 | splitting a "/"-join of separator-free pieces gives the pieces back |
| Paths.SplitNoSeparator | Sources/ActorCell.swift:117 | a string without "/" is a single piece |
| ActorCells.KeyOrder | Sources/ActorCell.swift:154 | the iteration order of `forEach` lists every key of the dictionary exactly once |
| ActorCells.GetChildrenActors | Sources/ActorCell.swift:151-157 | one reference per child entry; every reference is a child and every child appears |
| ActorCells.PoisonAll | Sources/ActorCell.swift:194-196 | one PoisonPill with the cell as sender per child reference, in order |
| ActorCells.ActorOf | Sources/ActorCell.swift:74-99 | as written: the child path is path + "/" + name; the child is entered under `name`; the new ref is bound to a fresh cell whose parent is this cell |
| ActorCells.ActorOfKeyedByPath | Sources/ActorCell.swift:74-99 | corrected: the same child cell and ref, entered under the child's full path |
| ActorCells.Stop | Sources/ActorCell.swift:102-104 | stop sends one sender-less PoisonPill to the cell itself |
| ActorCells.Reply | Sources/ActorCell.swift:132-135 | the selection reply traps exactly when there is no sender, else sends one AnswerMessage with the answer |
| ActorCells.ReceiveActorSelect | Sources/ActorCell.swift:107-137 | no contract of its own; its meaning is in `ActorCellFacts.SelectSelf`, `SelectChild`, `SelectForwards`, `SelectMisses` and `SelectWithoutSenderTraps` |
| ActorCells.ReceiveUser | Sources/ActorCell.swift:235-259 | no contract of its own; its meaning is in `ActorCellFacts.ApplicationMessage` |
| ActorCells.SystemReceive | Sources/ActorCell.swift:175-261 | no contract of its own; its meaning is in the `ActorCellFacts` rows, one per message kind |
| ActorCellFacts.PoisonPillWhileDying | Sources/ActorCell.swift:182-185 | a PoisonPill to a dying cell changes nothing and sends nothing |
| ActorCellFacts.FirstPoisonPill | Sources/ActorCell.swift:186-198 | the first PoisonPill sets dying and calls willStop; a leaf with a parent sends one Terminated(self) upward; otherwise every child gets a PoisonPill from self; a root leaf sends nothing |
| ActorCellFacts.ChildrenAllPoisoned | Sources/ActorCell.swift:194-196 | the poison sends go only to children, and reach every child |
| ActorCellFacts.EachChildPoisonedOnce | Sources/ActorCell.swift:194-196 | with distinct child refs, every child gets exactly one PoisonPill |
| ActorCellFacts.TerminatedRemovesByPath | Sources/ActorCell.swift:199-221 | Terminated removes the entry keyed by the child's full path and detaches the child; Terminated(self) goes up exactly when dying, now childless and with a parent; no sender traps |
| ActorCellFacts.ErrorAlwaysSupervised | Sources/ActorCell.swift:178-180 | an ErrorMessage goes to the supervisor strategy whether or not the cell is dying, and nothing else happens |
| ActorCellFacts.AnswerRunsAction | Sources/ActorCell.swift:230-232 | an AnswerMessage only runs its callback on its answer |
| ActorCellFacts.ApplicationMessage | Sources/ActorCell.swift:235-259 | dropped while dying; else handled by the top state or `receive`; a throw sends exactly one ErrorMessage(error, self) to the parent, or nothing without a parent |
| ActorCellFacts.ReplySlotOnlyCleared | Sources/ActorCell.swift:222-229 | a step leaves askResult alone except that an ask clears it |
| ActorCellFacts.AskAnswersOnce | Sources/ActorCell.swift:222-229 | an ask clears askResult, processes the wrapped message, then sends exactly one AnswerMessage with the slot and the same callback to the asker; a sender-less ask traps |
| ActorCellFacts.SelectSelf | Sources/ActorCell.swift:111-112 | selecting the cell's own path answers with the cell |
| ActorCellFacts.SelectChild | Sources/ActorCell.swift:113-122 | a one-segment path below the cell, found by full child path, answers with that child |
| ActorCellFacts.SelectForwards | Sources/ActorCell.swift:113-127 | a deeper path whose first segment is a child forwards the ActorSelect unchanged and sends no answer |
| ActorCellFacts.SelectMisses | Sources/ActorCell.swift:107-135 | any other path answers nil |
| ActorCellFacts.SelectWithoutSenderTraps | Sources/ActorCell.swift:132-135 | an answered selection without sender traps |
| ActorCellFacts.ActorOfThenSelectMisses | Sources/ActorCell.swift:82 | as written, selecting the path of a child created by actorOf answers nil |
| ActorCellFacts.ActorOfThenTerminatedKeepsEntry | Sources/ActorCell.swift:203-208 | as written, the Terminated of a child created by actorOf leaves its entry, so a dying parent never reports upward |
| ActorCellFacts.ActorOfKeyedByPathThenSelectFinds | Sources/ActorCell.swift:119-122 | keyed by full path, selection finds the new child |
| ActorCellFacts.ActorOfKeyedByPathThenTerminatedRemoves | Sources/ActorCell.swift:203-214 | keyed by full path, the child's Terminated removes it and the dying parent reports Terminated(self) upward |
| ProbeMath.ProbeStep | Sources/Hashtable.swift:109-110 | `index = (index + probe) & (size-1)` lands on the next triangular position |
| ProbeMath.ProbeZero | Sources/Hashtable.swift:81-83 | the first probe is the home slot |
| ProbeMath.ProbeInjective | Sources/Hashtable.swift:255-262 | in a power-of-two table, the first `size` probe positions from a home are pairwise distinct |
| ProbeMath.ProbeCovers | Sources/Hashtable.swift:255-263 | in a power-of-two table, every slot is reached within `size` probes from any home |
| ProbeMath.ProbeCount | Sources/Hashtable.swift:255-263 | the number of probes from a home to a slot: fewer than `size`, and the probe with that number lands on the slot |
| ProbeMath.ProbeCountUnique | Sources/Hashtable.swift:255-263 | that number is the only one below `size` whose probe lands on the slot |
| Hashtables.Home | Sources/Hashtable.swift:81 | the home slot lies inside the table |
| Hashtables.GrowTo | Sources/Hashtable.swift:39 | the size after doubling is at least the target, stays a power of two, and is the first doubling to reach it |
| Hashtables.Blank | Sources/Hashtable.swift:45-50 | fresh arrays of the given power-of-two size with no slot in use and empty relocation lists |
| Hashtables.Init | Sources/Hashtable.swift:35-51 | the size is the smallest 8·2^k at least `count`; the table is empty and well shaped |
| Hashtables.IsEmpty | Sources/Hashtable.swift:208-210 | isEmpty holds exactly when the count is zero |
| Hashtables.Count | Sources/Hashtable.swift:67-69 | no contract of its own; its meaning is `HashtableRefinement.CountRefines` |
| Hashtables.ProbeSet | Sources/Hashtable.swift:85-117 | set's probe stops at the first free slot or slot holding the key, every slot before it being in use by another key; otherwise all probes were such slots |
| Hashtables.ProbeFree | Sources/Hashtable.swift:251-262 | enlarge's probe stops at the first free slot, every slot probed before it being in use |
| Hashtables.FreeSlotReached | Sources/Hashtable.swift:255-263 | if any slot is free, enlarge's probe stops inside the table |
| Hashtables.FreeProbeFinds | Sources/Hashtable.swift:263 | with fewer pairs than slots, the assertion after enlarge's probe holds |
| Hashtables.SetProbeNeverFull | Sources/Hashtable.swift:111-115 | with fewer pairs than slots, set's probe never runs out |
| Hashtables.Place | Sources/Hashtable.swift:87-94 | storing at a free slot: the pair lands there, the slot becomes used, the home's list gains the slot exactly when probe != 0, the count grows by one |
| Hashtables.FreeInsert | Sources/Hashtable.swift:251-271 | enlarge stores each pair at the first free slot of its probe sequence, inside the table |
| Hashtables.Rehash | Sources/Hashtable.swift:243-273 | re-inserting all pairs keeps the shape and the count |
| Hashtables.EnlargeTo | Sources/Hashtable.swift:220-289 | enlarge(toSize:) grows to the first doubling at least toSize and keeps the count |
| Hashtables.Enlarge | Sources/Hashtable.swift:215 | enlarge() quadruples the size and keeps the count |
| Hashtables.GrowIfFull | Sources/Hashtable.swift:96-99 | the table grows exactly when the count reaches size - 1, keeping a free slot |
| Hashtables.SetAsWritten | Sources/Hashtable.swift:78-120 | as written: emptyKey is refused; else the probe stops at a free slot (pair stored, true, count + 1) or at the key (value overwritten, false) and never runs out |
| Hashtables.FindIn | Sources/Hashtable.swift:144-152 | the scan of a relocation list returns the first position holding the key, or -1 when none does |
| Hashtables.FindIndex | Sources/Hashtable.swift:129-156 | an empty home means -1; a home holding the key is the answer; any answer holds the key; only a removing hit changes the table |
| Hashtables.Get | Sources/Hashtable.swift:164-168 | get is the value at the index findIndex returns, nil exactly when it returns -1 |
| Hashtables.FillHole | Sources/Hashtable.swift:183-194 | the hole-filling loop terminates and keeps the shape and the count |
| Hashtables.Remove | Sources/Hashtable.swift:177-200 | remove reports whether findIndex found the key; absent leaves the table unchanged; present lowers the count by one |
| Hashtables.Set | Sources/Hashtable.swift:78-120 | corrected: a key findIndex finds has its value overwritten in place (false); otherwise the code as written runs |
| Hashtables.SubscriptSet | Sources/Hashtable.swift:335-341 | as written, through `set` as written: a value for emptyKey is refused; for another key the count stays the same or grows by one; nil changes the table exactly when findIndex finds the key, and then the count drops by one (the map meaning is `HashtableRefinement.SubscriptRefines`) |
| Hashtables.SubscriptSetCorrected | Sources/Hashtable.swift:335-341 | corrected, through the corrected `set`: a value for a key findIndex finds is overwritten in place and read back by get; nil is the same as written |
| Hashtables.CollisionRate | Sources/Hashtable.swift:316-326 | the rate is relocation entries × 100 / count, truncated; it needs a non-empty table |
| HashtableRefinement.StoreNew | Sources/Hashtable.swift:87-100 | storing a new key at the first free slot of its probe keeps the invariant and adds the pair to the map |
| HashtableRefinement.BlankConsistent | Sources/Hashtable.swift:45-50 | a table with no slot in use keeps the invariant and is the empty map |
| HashtableRefinement.InitValid | Sources/Hashtable.swift:35-51 | init yields a valid table for the empty map |
| HashtableRefinement.RehashRefines | Sources/Hashtable.swift:243-273 | re-inserting every pair yields a consistent table for the same map |
| HashtableRefinement.EnlargeToRefines | Sources/Hashtable.swift:220-289 | enlarge(toSize:) keeps the invariant and the map |
| HashtableRefinement.EnlargeRefines | Sources/Hashtable.swift:215 | enlarge() keeps the invariant and the map |
| HashtableRefinement.GrowIfFullRefines | Sources/Hashtable.swift:96-99 | growing after an insertion keeps the invariant and the map |
| HashtableRefinement.EmptyKeyAbsent | Sources/Hashtable.swift:79 | emptyKey is never a key of the map |
| HashtableRefinement.FindIndexSpec | Sources/Hashtable.swift:129-156 | findIndex succeeds exactly for keys of the map, at the live slot holding the key and its value |
| HashtableRefinement.GetRefines | Sources/Hashtable.swift:164-168 | get returns the map's value for the key, nil exactly for absent keys |
| HashtableRefinement.OverwriteRefines | Sources/Hashtable.swift:103-106 | overwriting the value of a live slot keeps the invariant and updates the map at that key |
| HashtableRefinement.SetAsWrittenNewKey | Sources/Hashtable.swift:78-120 | set as written, for a key not in the map, returns true, keeps the invariant and adds the pair |
| HashtableRefinement.SetAsWrittenAgreesOnNewKey | Sources/Hashtable.swift:78-120 | for a key not in the map, set as written and the corrected set coincide |
| HashtableRefinement.SetRefines | Sources/Hashtable.swift:78-120 | corrected: set keeps the invariant, updates the map at the key (emptyKey refused), and returns true exactly for a new key |
| HashtableRefinement.CloseHole | Sources/Hashtable.swift:193-194 | freeing the final hole restores the invariant |
| HashtableRefinement.FillHoleRefines | Sources/Hashtable.swift:183-194 | the loop of remove ends with a consistent table holding every pair except the one in the first hole |
| HashtableRefinement.RemoveStart | Sources/Hashtable.swift:178-180 | findIndex with remove, then the decrement, leave the found slot as the loop's first hole |
| HashtableRefinement.RemovePresent | Sources/Hashtable.swift:177-200 | remove of a key in the map keeps the invariant, deletes the key and returns true |
| HashtableRefinement.RemoveRefines | Sources/Hashtable.swift:177-200 | remove keeps the invariant, deletes the key from the map, and returns true exactly when it was present |
| HashtableRefinement.CountRefines | Sources/Hashtable.swift:67-69 | count is the number of pairs in the map |
| HashtableRefinement.IsEmptyRefines | Sources/Hashtable.swift:208-210 | isEmpty holds exactly for the empty map |
| HashtableRefinement.SubscriptRefines | Sources/Hashtable.swift:335-341 | as written: nil keeps the invariant and removes the key from the map; a value for a key not in the map keeps the invariant and adds the pair (emptyKey refused) |
| HashtableRefinement.SubscriptCorrectedRefines | Sources/Hashtable.swift:335-341 | corrected: subscript assignment updates the map for every key (emptyKey refused), nil removes the key, and the invariant is kept |
| HashtableNoHoles.InitNoHoles | Sources/Hashtable.swift:35-51 | a new table has no slot that a stored key's probe passes while it is free |
| HashtableNoHoles.StoredAtNoHoles | Sources/Hashtable.swift:87-94 | storing at the first free position of the key's probe leaves no such hole |
| HashtableNoHoles.RehashNoHoles | Sources/Hashtable.swift:243-273 | re-inserting pairs at their first free probe positions leaves no hole |
| HashtableNoHoles.EnlargeToNoHoles | Sources/Hashtable.swift:220-289 | the table built by enlarge(toSize:) has no hole, whatever the table it starts from |
| HashtableNoHoles.GrowIfFullNoHoles | Sources/Hashtable.swift:96-99 | the growth step after a store keeps a table without holes |
| HashtableNoHoles.SetAsWrittenNoHoles | Sources/Hashtable.swift:78-120 | set as written keeps a table without holes, for present and new keys alike |
| HashtableNoHoles.ProbeFindsStored | Sources/Hashtable.swift:85-106 | without holes, the probe of set for a stored key stops at that key's own slot |
| HashtableNoHoles.SetAsWrittenIsSet | Sources/Hashtable.swift:78-120 | without holes, set as written returns the same table and result as the corrected set, for every key |
| HashtableNoHoles.SetAsWrittenRefines | Sources/Hashtable.swift:78-120 | without holes, set as written keeps the invariant and leaves no hole, updates the map at the key (emptyKey refused), and returns true exactly for a new key |
| HashtableNoHoles.SubscriptNoHolesRefines | Sources/Hashtable.swift:335-341 | without holes, subscript assignment as written updates the map for every key (emptyKey refused) or removes it with nil, keeps the invariant, and a value leaves no hole |
| HashtableScenarios.SetRun | Sources/Hashtable.swift:78-120 | a history of set-as-written calls on a table without holes keeps the invariant, leaves no hole and agrees with the same history on a map |
| HashtableScenarios.SetOnlyTable | Sources/Hashtable.swift:35-120 | init followed by set-as-written calls yields a valid table without holes for the map those calls build |
| HashtableScenarios.MapRunLastSet | Sources/Hashtable.swift:78-120 | after a history of sets, a key holds the value of its last set, and a key never set keeps its old entry or stays absent |
| HashtableScenarios.SetOnlyGetsLast | Sources/Hashtable.swift:164-168 | after init and set-as-written calls only, get of any key returns the value of its last set, and nil for a key never set |
| HashtableScenarios.Run | Sources/Hashtable.swift:386-395 | a history of sets of new keys and removes keeps the invariant and agrees with the same history on a map |
| HashtableScenarios.StoresRun | Sources/Hashtable.swift:386-390 | storing distinct fresh keys in turn builds the map of those pairs |
| HashtableScenarios.SmallTest | Sources/Hashtable.swift:383-418 | for every hash function, the assertions of smallTest hold: Five is 5 and Eight absent, then Four is 4 and Ten absent |
| HashtableScenarios.SetAsWrittenStoresTwice | Sources/Hashtable.swift:87-106 | three keys with one home, set then the second removed: set as written of the third stores it twice, breaks the invariant and get returns the old value; the corrected set returns the new value |
| HashtableScenarios.SubscriptStoresTwice | Sources/Hashtable.swift:335-341 | after `ht[2] = nil` in the same table, `ht[3] = 40` as written breaks the invariant and `ht[3]` still reads 30; with the corrected set it reads 40 |
| Chameneos.FromRaw | Tests/TheaterTests/Chamenos.swift:4-9 | `Color(rawValue:)` succeeds exactly for 0 .. 3, with that raw value |
| Chameneos.InitialColor | Tests/TheaterTests/Chamenos.swift:122 | chameneo i starts with the live colour of raw value i % 3 |
| Chameneos.ComplementSame | Tests/TheaterTests/Chamenos.swift:76-97 | two chameneos of the same live colour keep it |
| Chameneos.ComplementThird | Tests/TheaterTests/Chamenos.swift:76-97 | two different live colours give the third colour |
| Chameneos.ComplementSymmetric | Tests/TheaterTests/Chamenos.swift:75-101 | both partners compute the same colour |
| Chameneos.ComplementFaded | Tests/TheaterTests/Chamenos.swift:75-101 | the result is Faded exactly when either colour is Faded |
| Chameneos.MallMeet | Tests/TheaterTests/Chamenos.swift:139-153 | with meetings left, a waiting chameneo gets the Meet, n drops by one and nobody waits; with nobody waiting the sender waits; with none left, Stop goes to the waiting one and the sender; a nil sender traps |
| Chameneos.MallCount | Tests/TheaterTests/Chamenos.swift:125-138 | one more faded, its meetings added, shutdown exactly when the last chameneo reports |
| Chameneos.MallReceive | Tests/TheaterTests/Chamenos.swift:116-157 | no contract of its own; Meet is `Chameneos.MallMeet`, MeetingCount is `Chameneos.MallCount`, other messages change nothing; its meaning is in `Chameneos.DeliverToMall` |
| Chameneos.Spawn | Tests/TheaterTests/Chamenos.swift:121-124 | chameneo i has colour i % 3, no meetings and number i |
| Chameneos.StartAll | Tests/TheaterTests/Chamenos.swift:121-124 | each chameneo is sent one Start |
| Chameneos.ChameneoReceive | Tests/TheaterTests/Chamenos.swift:54-73 | Start, Meet and Change each send a Meet to the mall; Meet and Change count a meeting; Meet answers the partner with Change; Stop fades and reports the count; a nil Stop sender traps |
| Chameneos.Initial | Tests/TheaterTests/Chamenos.swift:118-124 | after the mall's Start, one chameneo and one Start per number, nobody waiting |
| Chameneos.InitialInv | Tests/TheaterTests/Chamenos.swift:118-124 | a run with n ≥ 0 meetings starts in the invariant |
| Chameneos.DeliverToMall | Tests/TheaterTests/Chamenos.swift:116-157 | any message delivered to the mall keeps the invariant and never traps |
| Chameneos.DeliverToChameneo | Tests/TheaterTests/Chamenos.swift:54-73 | any message delivered to a chameneo keeps the invariant and never traps |
| Chameneos.DeliverKeepsInv | Tests/TheaterTests/Chamenos.swift:54-153 | delivering any in-flight message keeps the invariant and never force-unwraps nil |
| Chameneos.RunKeepsInv | Tests/TheaterTests/Chamenos.swift:140-142 | in every delivery order, n stays between 0 and its start value and the meeting ledger balances |
| Chameneos.SettledMeetings | Tests/TheaterTests/Chamenos.swift:139-153 | about the chameneos' own counters: with nothing owed in flight they counted two meetings per arranged meeting, so 2·n once all are arranged (the mall's `sumMeetings` is `ChameneosLedger.StoppedMeetings`) |
| ChameneosLedger.TotalStep | Tests/TheaterTests/Chamenos.swift:54-153 | delivering one message and sending new ones changes any count over the messages in flight by exactly what was sent minus what was delivered |
| ChameneosLedger.FadedUpdate | Tests/TheaterTests/Chamenos.swift:67-69 | changing one chameneo changes the number of faded ones and their meetings by that chameneo's own change |
| ChameneosLedger.InitialLedger | Tests/TheaterTests/Chamenos.swift:118-124 | after the mall's Start, each chameneo has exactly one pending move (its Start), nothing is faded or reported, and the mall knows the number of chameneos |
| ChameneosLedger.MeetPairsLedger | Tests/TheaterTests/Chamenos.swift:140-144 | pairing a Meet with the waiting chameneo keeps every live chameneo at one pending move and keeps the report ledger |
| ChameneosLedger.MeetWaitsLedger | Tests/TheaterTests/Chamenos.swift:145-147 | parking the sender as the waiting chameneo turns its Meet into its pending move and keeps the ledger |
| ChameneosLedger.MeetStopsLedger | Tests/TheaterTests/Chamenos.swift:148-153 | with no meetings left, the Stops sent to the waiting chameneo and the sender become their pending moves and the ledger holds |
| ChameneosLedger.CountToMallLedger | Tests/TheaterTests/Chamenos.swift:125-138 | a MeetingCount moves one faded chameneo and its count from in flight to `numFaded` and `sumMeetings`; shutdown only when all have reported |
| ChameneosLedger.MeetToChameneoLedger | Tests/TheaterTests/Chamenos.swift:58-62 | a chameneo answering a Meet hands the partner a Change and itself a Meet to the mall, one pending move each |
| ChameneosLedger.MoveOnLedger | Tests/TheaterTests/Chamenos.swift:56-66 | a Start or Change is replaced by a Meet to the mall as the chameneo's pending move |
| ChameneosLedger.StopLedger | Tests/TheaterTests/Chamenos.swift:67-69 | a Stop fades the chameneo and puts its MeetingCount in flight as a report owed to the mall |
| ChameneosLedger.DeliverKeepsLedger | Tests/TheaterTests/Chamenos.swift:54-153 | delivering any in-flight message keeps both the meeting invariant and the ledger |
| ChameneosLedger.RunKeepsLedger | Tests/TheaterTests/Chamenos.swift:54-153 | every delivery order keeps both invariants |
| ChameneosLedger.HeldInFlight | Tests/TheaterTests/Chamenos.swift:54-153 | a message in flight implies a live chameneo or a report still owed to the mall |
| ChameneosLedger.StoppedMeetings | Tests/TheaterTests/Chamenos.swift:125-138 | once the mall shuts down nothing is in flight, every meeting was arranged, and `sumMeetings` equals the chameneos' total, twice the starting n (comment at line 132) |
| ChameneosLedger.RunSumMeetings | Tests/TheaterTests/Chamenos.swift:118-138 | from the start, every delivery order that reaches shutdown has the mall print `sumMeetings` = 2·n |

## Left out

- Concurrency is abstracted away: the dispatch queues, the lock `sync`, and `scheduleOnce`. Every step is atomic, and `ActorCell.tell` appends to a per-cell FIFO mailbox.
- The user handler, `willStop`, `supervisorStrategy` and answer callbacks are opaque. They appear as effects, and a handler's throw is an input.
- ActorCells.ActorOf: the user's `actorConstructor(childContext)`, the assignment of `childContext.actor` and the call to `childActor.preStart()` (Sources/ActorCell.swift:93-96) are not modelled. They run user code, and the model only records the new cell, its parent and the children entry.
- `actor!` is assumed non-nil, because a cell always has its actor once created. The cast `as! (Any?)->Void` in `receiveActorSelect` is assumed to succeed.
- `askResult` is modelled as written. Nothing in the cell writes it, so the answer to an ask is always nil. Actors that would store a result go through code that is not part of this model.
- ActorCells.SystemReceive: references are values, not shared objects. The `t.sender!.actorCell = nil` of the Terminated branch (Sources/ActorCell.swift:209) is the effect `Detach(child)`, and it changes no other copy of the reference. In Swift every holder of that `ActorRef` sees the cell go. That includes an entry `actorOf` left in `children` under the bare name (see Findings), so later tells through it are dropped (Sources/ActorRef.swift:74-78). The model does not follow the effect into other copies.
- ActorCells.SystemReceive: Swift compares `String`s by Unicode canonical equivalence. That covers `==` on paths (Sources/ActorCell.swift:111), `hasPrefix` (Sources/ActorCell.swift:113) and the `children` dictionary keys (Sources/ActorCell.swift:120). The model compares them as sequences of characters, so two canonically equivalent but differently encoded paths differ here, while Swift treats them as equal.
- `ActorCell.actorFor` is not part of this model. It is the `resolve` parameter of `ActorRefs.ActorFor`.
- `actorOf(_:)` with a random UUID name: the name is a parameter of `ActorCells.ActorOf`.
- `selectActor`, `description` and `deinit`: they delegate to the system or only print.
- Actor.swift:
  - The PoisonPill/Harakiri branch and `stop(_:)` use `context.allActors`, which is not part of this model; `Behaviours.Dispatch` only routes to that branch.
  - Also left out: `actorOf`, `createSupervisorActor`, `selectActor`, `this` (which exits on nil) and `latencyFrom`, which uses the clock and floating point.
- Stacks.ReplaceHead: `Stack.replaceHead` is not part of this model. Its contract (replace the top, or push onto an empty stack) is an assumption.
- `FastQueue` is not part of this model. It is taken to be a FIFO queue over a sequence.
- Worklists.RunQueue: a `fuel` bound stands in for the source's unbounded loop. An exhausted bound yields `None`. `Worklists.RunQueueComplete` shows that this happens only when the complete run is longer than the fuel. A loop that never ends (a task that always submits another) has no complete run, and the model says nothing about it.
- Behaviours.Drain: it uses the same `fuel` bound as `Worklists.RunQueue`, and `Behaviours.DrainRunsQueue` shows that the two run out together.
- Hash table:
  - The pointer allocation and deallocation, `description`, and the random and clock-driven benchmarks are left out.
  - Swift's `Int` overflow of `elementNum`, `tableSize << 1` and `hashValue` is not modelled. Integers are unbounded.
- Hashtables.SetAsWritten: its refinement to a map is proved for keys not already in the map (`SetAsWrittenNewKey`), and for every key on tables without holes, which covers every table built by `init`, `set` and `enlarge` (`HashtableNoHoles.SetAsWrittenRefines`). After a `remove`, a present key can be stored twice (see Findings), so the map properties of histories with `remove` use the corrected `Hashtables.Set`.
- HashtableRefinement.SubscriptRefines: the subscript calls `set` as written (Sources/Hashtable.swift:337). So a value assigned to a key the map already holds is proved to update the map only on tables without holes (`HashtableNoHoles.SubscriptNoHolesRefines`). After a `remove` it can store the key twice and `get` then returns the old value (`HashtableScenarios.SubscriptStoresTwice`). The update for every key is proved for the corrected subscript (`HashtableRefinement.SubscriptCorrectedRefines`).
- HashtableScenarios.Run: a history that mixes `set` and `remove` is run with `set` as written only when each `set` is given a new key (`SetsFresh`). Without that, the duplicate of the Findings row can arise. Histories of `set` alone need no such condition (`HashtableScenarios.SetRun`).
- Hashtables.CollisionRate: only its arithmetic is stated. There is no bound on the rate.
- Hashtables.Count: it returns the stored counter. Its meaning is `HashtableRefinement.CountRefines`.
- Chameneos:
  - Left out: the timestamps, printing, and `context.system.shutdown()`, which is reported as a flag only.
  - The mall's Start branch is the initial world `Chameneos.Initial`. Chameneo creation through `actorOf` is not repeated here.
  - The "Unexpected message" defaults are modelled as doing nothing.
  - `chameneos(nChameneos:nHost:)` and `waitFor` only set up and wait.
- Chameneos.RunKeepsInv: it states the ledger (meetings counted plus meetings owed equal twice the meetings arranged). It does not show that every run reaches the final state, because that needs a fairness assumption on delivery.
- ChameneosLedger.RunSumMeetings: it requires `n >= 0`, as does `Chameneos.InitialInv`. `Mall.init(n:)` and `chameneos(nChameneos:nHost:)` accept any `Int`, but for a negative `n` the mall answers every Meet with Stop (Tests/TheaterTests/Chamenos.swift:148-152), so `sumMeetings`, a sum of non-negative counts, cannot be 2·n. The model proves nothing about that case.
- ChameneosLedger.RunSumMeetings: it speaks of runs that reach shutdown. Whether a run gets there depends on fair delivery, which is not modelled. With no chameneos the mall never shuts down.

## Findings

| source | as written | input that shows it | evidently intended | confidence | as-written member | corrected member |
|---|---|---|---|---|---|---|
| Sources/Hashtable.swift:87-106 | `set` probes for the first free slot or the key, so a hole left by `remove` earlier on the key's probe path makes it store the key a second time; `get` then scans the relocation list in append order and returns the old value | an 8-slot table, keys 1, 2, 3 with the same home slot: set 1, 2, 3, remove 2, then set 3 to a new value; `get(3)` still returns the old value; the same holds for `ht[2] = nil` then `ht[3] = 40` through the subscript | `set` of a key already present overwrites its value and returns false (comment at line 102) | not executed | HashtableScenarios.SetAsWrittenStoresTwice, HashtableScenarios.SubscriptStoresTwice | Hashtables.Set, Hashtables.SubscriptSetCorrected |
| Sources/ActorCell.swift:82 | `actorOf` enters the child under its bare name, while `Terminated` (line 208) and `ActorSelect` (line 120) look children up by full path | a cell creates child "c" with `actorOf`, then is stopped: the child's `Terminated` does not remove the entry, so the parent never reports upward; selecting the child's path answers nil | children are keyed by full path (comment at line 28) | not executed | ActorCellFacts.ActorOfThenTerminatedKeepsEntry | ActorCells.ActorOfKeyedByPath |

=== FILE: actor_cell_facts.dfy ===
/** What one `systemReceive` step promises, message kind by message kind
    (Sources/ActorCell.swift), and what `actorOf` means for the later steps. */
module ActorCellFacts {
  import opened Wrappers
  import opened ActorRefs
  import opened Messages
  import opened Stacks
  import opened Behaviours
  import opened Paths
  import opened ActorCells

  // ---------------------------------------------------------------------------
  // PoisonPill

  /** A second PoisonPill changes nothing and has no effect. */
  lemma PoisonPillWhileDying(c: Cell, sender: Option<Ref>, run: Handler)
    requires c.dying
    ensures SystemReceive(c, PoisonPill(sender), run) == Next(c, [])
  {
  }

  /** The first PoisonPill to a cell with children, or to a root, poisons the children
      listed by `getChildrenActors`. */
  lemma PoisonStep(c: Cell, sender: Option<Ref>, run: Handler)
    requires !c.dying && (|c.children| > 0 || c.parent.None?)
    ensures SystemReceive(c, PoisonPill(sender), run)
         == Next(c.(dying := true), [WillStop] + PoisonAll(c.self, GetChildrenActors(c)))
  {
  }

  /** The first PoisonPill marks the cell as dying and calls `willStop`. A leaf with a
      parent reports one `Terminated(self)` to the parent. Otherwise the cell sends one
      PoisonPill, with itself as sender, to every child and to nothing else. A root
      leaf does nothing more. */
  lemma FirstPoisonPill(c: Cell, sender: Option<Ref>, run: Handler)
    requires !c.dying
    ensures var s := SystemReceive(c, PoisonPill(sender), run);
      && s.Next? && s.cell == c.(dying := true)
      && |s.out| >= 1 && s.out[0] == WillStop
      && (|c.children| == 0 && c.parent.Some? ==>
            s.out[1..] == [Send(c.parent.value, NewTerminated(Some(c.self)))])
      && (|c.children| == 0 && c.parent.None? ==> s.out == [WillStop])
      && (|c.children| > 0 ==>
            && |s.out| == 1 + |c.children|
            && (forall i :: 1 <= i < |s.out| ==>
                  s.out[i].Send? && s.out[i].to in c.children.Values
                  && s.out[i].msg == NewPoisonPill(Some(c.self)))
            && (forall k :: k in c.children ==>
                  Send(c.children[k], NewPoisonPill(Some(c.self))) in s.out))
  {
    if |c.children| == 0 && c.parent.Some? {
      assert SystemReceive(c, PoisonPill(sender), run)
          == Next(c.(dying := true), [WillStop, Send(c.parent.value, Terminated(Some(c.self)))]);
    } else {
      PoisonStep(c, sender, run);
      var refs := GetChildrenActors(c);
      if |c.children| > 0 {
        ChildrenAllPoisoned(c.self, c.children, refs, [WillStop] + PoisonAll(c.self, refs));
      } else {
        assert refs == [];
      }
    }
  }

  /** The poison sends reach only children, and every child. */
  lemma ChildrenAllPoisoned(self: Ref, m: map<string, Ref>, refs: seq<Ref>, out: seq<Effect>)
    requires |refs| == |m|
    requires forall i :: 0 <= i < |refs| ==> refs[i] in m.Values
    requires forall k :: k in m ==> m[k] in refs
    requires out == [WillStop] + PoisonAll(self, refs)
    ensures |out| == 1 + |m|
    ensures forall i :: 1 <= i < |out| ==>
      out[i].Send? && out[i].to in m.Values && out[i].msg == NewPoisonPill(Some(self))
    ensures forall k :: k in m ==> Send(m[k], NewPoisonPill(Some(self))) in out
  {
    var sends := PoisonAll(self, refs);
    forall i | 1 <= i < |out|
      ensures out[i].Send? && out[i].to in m.Values && out[i].msg == NewPoisonPill(Some(self))
    {
      assert out[i] == sends[i - 1];
    }
    forall k | k in m
      ensures Send(m[k], NewPoisonPill(Some(self))) in out
    {
      var i :| 0 <= i < |refs| && refs[i] == m[k];
      assert out[i + 1] == sends[i];
    }
  }

  /** The number of times `x` occurs in a sequence without repeats that contains it. */
  lemma {:induction false} OccursOnce<T>(s: seq<T>, x: T)
    requires forall i, j :: 0 <= i < j < |s| ==> s[i] != s[j]
    requires x in s
    ensures multiset(s)[x] == 1
  {
    if s[0] == x {
      assert x !in s[1..];
      assert s == [s[0]] + s[1..];
    } else {
      OccursOnce(s[1..], x);
      assert s == [s[0]] + s[1..];
    }
  }

  /** Poisoning the values of distinct keys that hold distinct references sends one
      PoisonPill to each of them. */
  lemma PoisonOnce(self: Ref, m: map<string, Ref>, ks: seq<string>, k: string)
    requires forall i :: 0 <= i < |ks| ==> ks[i] in m
    requires forall i, j :: 0 <= i < j < |ks| ==> ks[i] != ks[j]
    requires k in ks
    requires forall a, b :: a in m && b in m && a != b ==> m[a] != m[b]
    ensures multiset([WillStop] + PoisonAll(self, ValuesAt(m, ks)))[Send(m[k], NewPoisonPill(Some(self)))] == 1
  {
    var refs := ValuesAt(m, ks);
    var sends := PoisonAll(self, refs);
    forall i, j | 0 <= i < j < |sends|
      ensures sends[i] != sends[j]
    {
      assert refs[i] == m[ks[i]] && refs[j] == m[ks[j]];
    }
    var i :| 0 <= i < |ks| && ks[i] == k;
    assert sends[i] == Send(m[k], PoisonPill(Some(self)));
    OccursOnce(sends, Send(m[k], PoisonPill(Some(self))));
    assert multiset([WillStop] + sends) == multiset{WillStop} + multiset(sends);
  }

  /** When different keys hold different references, every child receives exactly one
      PoisonPill. */
  lemma EachChildPoisonedOnce(c: Cell, sender: Option<Ref>, run: Handler, k: string)
    requires !c.dying && k in c.children && |c.children| > 0
    requires forall a, b :: a in c.children && b in c.children && a != b ==> c.children[a] != c.children[b]
    ensures var s := SystemReceive(c, PoisonPill(sender), run);
      s.Next? && multiset(s.out)[Send(c.children[k], NewPoisonPill(Some(c.self)))] == 1
  {
    PoisonStep(c, sender, run);
    var ks := KeyOrder(c.children);
    assert GetChildrenActors(c) == ValuesAt(c.children, ks);
    PoisonOnce(c.self, c.children, ks, k);
  }

  // ---------------------------------------------------------------------------
  // Terminated

  /** `Terminated(child)` removes the entry keyed by the child's full path and clears
      the child's link; `Terminated(self)` goes upward exactly when the cell is dying,
      now has no children and has a parent. Nothing else changes. A Terminated without
      sender traps. */
  lemma TerminatedRemovesByPath(c: Cell, child: Ref, run: Handler)
    ensures SystemReceive(c, Terminated(None), run) == Trap
    ensures var s := SystemReceive(c, Terminated(Some(child)), run);
      && s.Next?
      && s.cell == c.(children := c.children - {child.path.asString})
      && child.path.asString !in s.cell.children
      && |s.out| >= 1 && s.out[0] == Detach(child)
      && (|s.out| > 1 <==> c.dying && |s.cell.children| == 0 && c.parent.Some?)
      && (|s.out| > 1 ==> s.out[1..] == [Send(c.parent.value, NewTerminated(Some(c.self)))])
  {
  }

  // ---------------------------------------------------------------------------
  // ErrorMessage, AnswerMessage and application messages

  /** An ErrorMessage goes to the supervisor strategy whether or not the cell is
      dying, and nothing else happens. */
  lemma ErrorAlwaysSupervised(c: Cell, sender: Option<Ref>, e: ErrorId, run: Handler)
    ensures SystemReceive(c, ErrorMessage(sender, e), run) == Next(c, [Supervise(ErrorMessage(sender, e))])
    ensures SystemReceive(c.(dying := true), ErrorMessage(sender, e), run)
         == Next(c.(dying := true), [Supervise(ErrorMessage(sender, e))])
  {
  }

  /** An AnswerMessage only runs its callback on its answer. */
  lemma AnswerRunsAction(c: Cell, sender: Option<Ref>, answer: Option<Value>, action: ActionId, run: Handler)
    ensures SystemReceive(c, AnswerMessage(sender, answer, action), run) == Next(c, [RunAnswer(action, answer)])
  {
  }

  /** The messages of the default branch. */
  predicate IsApplication(m: Message)
  {
    m.UserMessage? || m.MessageWithOperationId? || m.DeadLetter?
  }

  /** A dying cell drops application messages. A live cell hands the message to the
      top state, or to `receive` when the stack is empty; if the handler throws and
      there is a parent, exactly one ErrorMessage with the cell as sender goes to the
      parent; otherwise nothing else is sent. The cell itself does not change. */
  lemma ApplicationMessage(c: Cell, m: Message, run: Handler)
    requires IsApplication(m)
    ensures var s := SystemReceive(c, m, run);
      && s.Next? && s.cell == c
      && (c.dying ==> s.out == [])
      && (!c.dying ==>
            && |s.out| >= 1
            && s.out[0] == Invoke(CurrentState(c.stack), m)
            && (CurrentState(c.stack).None? ==> s.out[0].state.None?)
            && (run(CurrentState(c.stack), m).Threw? && c.parent.Some? ==>
                  s.out[1..] == [Send(c.parent.value, NewErrorMessage(run(CurrentState(c.stack), m).error, c.self))])
            && (run(CurrentState(c.stack), m).Returned? || c.parent.None? ==> |s.out| == 1))
  {
  }

  // ---------------------------------------------------------------------------
  // AskMessage

  /** A step leaves the reply slot alone, except that an ask (at any depth of
      wrapping) clears it. */
  lemma {:induction false} ReplySlotOnlyCleared(c: Cell, m: Message, run: Handler)
    ensures var s := SystemReceive(c, m, run);
      s.Next? ==> s.cell.askResult == (if m.AskMessage? then None else c.askResult)
    decreases m
  {
    if m.AskMessage? {
      ReplySlotOnlyCleared(c.(askResult := None), m.msg, run);
    }
  }

  /** An ask clears the reply slot, processes the wrapped message on the cleared cell,
      then sends exactly one AnswerMessage to the asker carrying the slot and the ask's
      callback. Since nothing in the cell writes the slot, the answer is always nil. An
      ask without sender traps. */
  lemma AskAnswersOnce(c: Cell, asker: Ref, inner: Message, action: ActionId, run: Handler)
    ensures SystemReceive(c, AskMessage(None, inner, action), run) == Trap
    ensures var r := SystemReceive(c.(askResult := None), inner, run);
      var s := SystemReceive(c, AskMessage(Some(asker), inner, action), run);
      && (r.Trap? <==> s.Trap?)
      && (s.Next? ==>
            && s.cell == r.cell
            && s.out == r.out + [Send(asker, NewAnswerMessage(c.self, r.cell.askResult, action))]
            && s.cell.askResult == None)
  {
    ReplySlotOnlyCleared(c.(askResult := None), inner, run);
  }

  // ---------------------------------------------------------------------------
  // ActorSelect

  /** Asking a cell for its own path answers with the cell itself. */
  lemma SelectSelf(c: Cell, asker: Ref, action: ActionId, run: Handler)
    ensures SystemReceive(c, ActorSelect(Some(asker), c.self.path.asString, action), run)
         == Next(c, [Send(asker, NewAnswerMessage(c.self, Some(RefValue(c.self)), action))])
  {
  }

  /** The path of a direct child, found under that full path, answers with the child. */
  lemma SelectChild(c: Cell, seg: string, asker: Ref, action: ActionId, run: Handler)
    requires '/' !in seg
    requires ChildPath(c.self.path, seg) in c.children
    ensures SystemReceive(c, ActorSelect(Some(asker), ChildPath(c.self.path, seg), action), run)
         == Next(c, [Send(asker, NewAnswerMessage(c.self, Some(RefValue(c.children[ChildPath(c.self.path, seg)])), action))])
  {
    var path := c.self.path.asString;
    var q := ChildPath(c.self.path, seg);
    assert HasPrefix(q, path + "/");
    assert q[|path| + 1..] == seg;
    SplitNoSeparator(seg);
  }

  /** A deeper path whose first segment names a child found under its full path is
      forwarded, unchanged, to that child, and no answer is sent. */
  lemma SelectForwards(c: Cell, seg: string, rest: string, asker: Ref, action: ActionId, run: Handler)
    requires '/' !in seg
    requires ChildPath(c.self.path, seg) in c.children
    ensures var q := ChildPath(c.self.path, seg) + "/" + rest;
      SystemReceive(c, ActorSelect(Some(asker), q, action), run)
      == Next(c, [Send(c.children[ChildPath(c.self.path, seg)], ActorSelect(Some(asker), q, action))])
  {
    var path := c.self.path.asString;
    var q := ChildPath(c.self.path, seg) + "/" + rest;
    assert HasPrefix(q, path + "/") by {
      assert q[..|path| + 1] == path + "/";
    }
    assert q[|path| + 1..] == seg + "/" + rest;
    JoinSplit(rest);
    SplitJoin([seg] + Split(rest));
    assert Join([seg] + Split(rest)) == seg + "/" + rest by {
      assert ([seg] + Split(rest))[1..] == Split(rest);
    }
  }

  /** Every other path answers nil: a path that is neither this one nor below it, or
      one whose first segment names no entry. */
  lemma SelectMisses(c: Cell, q: string, asker: Ref, action: ActionId, run: Handler)
    requires q != c.self.path.asString
    requires !HasPrefix(q, c.self.path.asString + "/")
          || c.self.path.asString + "/" + Split(q[|c.self.path.asString| + 1..])[0] !in c.children
    ensures SystemReceive(c, ActorSelect(Some(asker), q, action), run)
         == Next(c, [Send(asker, NewAnswerMessage(c.self, None, action))])
  {
  }

  /** A selection with no sender to answer traps unless it is forwarded. */
  lemma SelectWithoutSenderTraps(c: Cell, q: string, action: ActionId, run: Handler)
    requires q == c.self.path.asString || !HasPrefix(q, c.self.path.asString + "/")
    ensures SystemReceive(c, ActorSelect(None, q, action), run) == Trap
  {
  }

  // ---------------------------------------------------------------------------
  // actorOf followed by the child's lifecycle

  /** Keys that are bare names, as `actorOf` enters them. */
  predicate NameKeyed(c: Cell)
  {
    forall k :: k in c.children ==> '/' !in k
  }

  /** As written, a child created by `actorOf` is entered under its name, but selection
      looks it up under its full path: selecting the child's path answers nil. */
  lemma ActorOfThenSelectMisses(c: Cell, name: string, id: CellId, asker: Ref, action: ActionId, run: Handler)
    requires NameKeyed(c) && '/' !in name
    ensures var (p, _, r) := ActorOf(c, name, id);
      SystemReceive(p, ActorSelect(Some(asker), r.path.asString, action), run)
      == Next(p, [Send(asker, NewAnswerMessage(p.self, None, action))])
  {
    var (p, _, r) := ActorOf(c, name, id);
    var path := c.self.path.asString;
    var q := r.path.asString;
    assert '/' in q by {
      assert q[|path|] == '/';
    }
    assert q !in p.children;
    assert q[|path| + 1..] == name;
    SplitNoSeparator(name);
    SelectMisses(p, q, asker, action, run);
  }

  /** As written, the child's `Terminated` leaves its entry in place: a stopping parent
      whose only child has stopped never reports upward. */
  lemma ActorOfThenTerminatedKeepsEntry(c: Cell, name: string, id: CellId, run: Handler)
    requires c.children == map[] && c.dying && c.parent.Some?
    ensures var (p, _, r) := ActorOf(c, name, id);
      var s := SystemReceive(p, Terminated(Some(r)), run);
      && s.Next? && s.cell.children == map[name := r]
      && s.out == [Detach(r)]
  {
    var (p, _, r) := ActorOf(c, name, id);
    assert |r.path.asString| > |name|;
    assert p.children == map[name := r];
    assert p.children - {r.path.asString} == p.children;
  }

  /** Keyed by full path, selection finds the new child. */
  lemma ActorOfKeyedByPathThenSelectFinds(c: Cell, name: string, id: CellId, asker: Ref, action: ActionId, run: Handler)
    requires '/' !in name
    ensures var (p, _, r) := ActorOfKeyedByPath(c, name, id);
      SystemReceive(p, ActorSelect(Some(asker), r.path.asString, action), run)
      == Next(p, [Send(asker, NewAnswerMessage(p.self, Some(RefValue(r)), action))])
  {
    var (p, _, r) := ActorOfKeyedByPath(c, name, id);
    SelectChild(p, name, asker, action, run);
  }

  /** Keyed by full path, the child's `Terminated` removes its entry, and a stopping
      parent whose only child has stopped reports `Terminated(self)` upward. */
  lemma ActorOfKeyedByPathThenTerminatedRemoves(c: Cell, name: string, id: CellId, run: Handler)
    requires c.children == map[] && c.dying && c.parent.Some?
    ensures var (p, _, r) := ActorOfKeyedByPath(c, name, id);
      var s := SystemReceive(p, Terminated(Some(r)), run);
      && s.Next? && s.cell.children == map[]
      && s.out == [Detach(r), Send(c.parent.value, NewTerminated(Some(c.self)))]
  {
    var (p, _, r) := ActorOfKeyedByPath(c, name, id);
    assert p.children - {r.path.asString} == map[];
  }
}

=== FILE: actor_cells.dfy ===
/** The per-cell control logic of the actor runtime (Sources/ActorCell.swift).

    `systemReceive` is a pure transition: from the cell's state and one message it
    yields the next state and the effects, in order. A send `ref ! msg` is an effect
    here, and `Delivery.Tell` gives its meaning. The lock and the dispatch queue are
    abstracted away, so every step is atomic. User code runs as an opaque handler that
    returns normally or throws. A forced unwrap of a nil sender (`sender!`) is a trap. */
module ActorCells {
  import opened Wrappers
  import opened ActorRefs
  import opened Messages
  import opened Stacks
  import opened Behaviours
  import opened Paths

  /** One cell: its own reference, its parent (nil for the root), whether it is stopping,
      its children by key, the reply slot used by `AskMessage`, and the behaviour stack
      of its actor. */
  datatype Cell = Cell(
    self: Ref,
    parent: Option<Ref>,
    dying: bool,
    children: map<string, Ref>,
    askResult: Option<Value>,
    stack: StateStack)

  /** What a handler call does to the cell: it returns or it throws. */
  datatype Outcome = Returned | Threw(error: ErrorId)

  /** The user handler: the top state of the stack (or `receive` when there is none)
      applied to a message. */
  type Handler = (Option<Named>, Message) -> Outcome

  /** Observable effects of one step. */
  datatype Effect =
    | Send(to: Ref, msg: Message)                          // `to ! msg`
    | Detach(child: Ref)                                   // `child.actorCell = nil`
    | WillStop                                             // `actor.willStop()`
    | Supervise(msg: Message)                              // `actor.supervisorStrategy(errorMsg:)`
    | RunAnswer(action: ActionId, answer: Option<Value>)   // `answerAction(answer)`
    | Invoke(state: Option<Named>, msg: Message)           // the handler runs on `msg`

  /** The result of a step: the next cell and its effects, or a trap. */
  datatype Step = Next(cell: Cell, out: seq<Effect>) | Trap

  /** The reply slot's initial value `false`. */
  const InitialAskResult: Option<Value> := Some(BoolValue(false))

  // ---------------------------------------------------------------------------
  // Children

  /** The order in which `children.forEach` visits the keys. Swift leaves it unspecified,
      so it is an arbitrary enumeration that lists every key exactly once. */
  ghost function KeyOrder(m: map<string, Ref>): (ks: seq<string>)
    ensures |ks| == |m|
    ensures forall i :: 0 <= i < |ks| ==> ks[i] in m
    ensures forall k :: k in m ==> k in ks
    ensures forall i, j :: 0 <= i < j < |ks| ==> ks[i] != ks[j]
    decreases |m|
  {
    if |m| == 0 then []
    else
      assert m.Keys != {};
      var k :| k in m;
      var rest := m - {k};
      assert |rest| == |m| - 1 by {
        assert rest.Keys == m.Keys - {k};
      }
      var tail := KeyOrder(rest);
      KeyOrderCons(m, k, tail);
      [k] + tail
  }

  /** Putting a key in front of an enumeration of the other keys enumerates them all. */
  lemma KeyOrderCons(m: map<string, Ref>, k: string, tail: seq<string>)
    requires k in m && |tail| == |m - {k}|
    requires forall i :: 0 <= i < |tail| ==> tail[i] in m - {k}
    requires forall x :: x in m - {k} ==> x in tail
    requires forall i, j :: 0 <= i < j < |tail| ==> tail[i] != tail[j]
    ensures forall i :: 0 <= i < |[k] + tail| ==> ([k] + tail)[i] in m
    ensures forall x :: x in m ==> x in [k] + tail
    ensures forall i, j :: 0 <= i < j < |[k] + tail| ==> ([k] + tail)[i] != ([k] + tail)[j]
  {
    var ks := [k] + tail;
    forall i | 0 <= i < |ks|
      ensures ks[i] in m
    {
      if i > 0 {
        assert ks[i] == tail[i - 1];
      }
    }
    forall i, j | 0 <= i < j < |ks|
      ensures ks[i] != ks[j]
    {
      assert ks[j] == tail[j - 1];
      if i > 0 {
        assert ks[i] == tail[i - 1];
      }
    }
    forall x | x in m
      ensures x in ks
    {
      if x != k {
        assert x in m - {k};
      }
    }
  }

  function ValuesAt(m: map<string, Ref>, ks: seq<string>): (vs: seq<Ref>)
    requires forall i :: 0 <= i < |ks| ==> ks[i] in m
    ensures |vs| == |ks|
    ensures forall i :: 0 <= i < |ks| ==> vs[i] == m[ks[i]]
  {
    if |ks| == 0 then [] else [m[ks[0]]] + ValuesAt(m, ks[1..])
  }

  /** Listing every key of `m` lists every value of `m`. */
  lemma ValuesAtCovers(m: map<string, Ref>, ks: seq<string>)
    requires forall i :: 0 <= i < |ks| ==> ks[i] in m
    requires forall k :: k in m ==> k in ks
    ensures forall i :: 0 <= i < |ks| ==> ValuesAt(m, ks)[i] in m.Values
    ensures forall k :: k in m ==> m[k] in ValuesAt(m, ks)
  {
    var refs := ValuesAt(m, ks);
    forall k | k in m
      ensures m[k] in refs
    {
      var i :| 0 <= i < |ks| && ks[i] == k;
      assert refs[i] == m[k];
    }
  }

  /** `getChildrenActors()`: one reference per child entry, in `forEach` order. */
  ghost function GetChildrenActors(c: Cell): (refs: seq<Ref>)
    ensures |refs| == |c.children|
    ensures forall i :: 0 <= i < |refs| ==> refs[i] in c.children.Values
    ensures forall k :: k in c.children ==> c.children[k] in refs
  {
    var ks := KeyOrder(c.children);
    ValuesAtCovers(c.children, ks);
    ValuesAt(c.children, ks)
  }

  /** One `PoisonPill(sender: self)` per reference, in order. */
  function PoisonAll(self: Ref, refs: seq<Ref>): (out: seq<Effect>)
    ensures |out| == |refs|
    ensures forall i :: 0 <= i < |refs| ==> out[i] == Send(refs[i], PoisonPill(Some(self)))
  {
    if |refs| == 0 then [] else [Send(refs[0], PoisonPill(Some(self)))] + PoisonAll(self, refs[1..])
  }

  // ---------------------------------------------------------------------------
  // Creating and stopping

  /** `actorOf(_:name:)` as written: the child's path is this path, "/", name; the
      child is entered under `name`; a fresh cell `newId` with this cell as parent is
      bound to the child's reference. Returns the parent, the child cell and the ref. */
  function ActorOf(c: Cell, name: string, newId: CellId): (res: (Cell, Cell, Ref))
    ensures res.2.path.asString == ChildPath(c.self.path, name)
    ensures res.2.cell == Some(newId)
    ensures res.0 == c.(children := c.children[name := res.2])
    ensures res.1.self == res.2 && res.1.parent == Some(c.self)
    ensures !res.1.dying && res.1.children == map[] && IsEmpty(res.1.stack)
    ensures res.1.askResult == InitialAskResult
  {
    var childRef := Ref(ActorPath(ChildPath(c.self.path, name)), Some(newId));
    var child := Cell(childRef, Some(c.self), false, map[], InitialAskResult, New());
    (c.(children := c.children[name := childRef]), child, childRef)
  }

  /** The same creation with the child entered under its full path, the key the rest of
      the cell uses. */
  function ActorOfKeyedByPath(c: Cell, name: string, newId: CellId): (res: (Cell, Cell, Ref))
    ensures res.2 == ActorOf(c, name, newId).2 && res.1 == ActorOf(c, name, newId).1
    ensures res.0 == c.(children := c.children[res.2.path.asString := res.2])
  {
    var childRef := Ref(ActorPath(ChildPath(c.self.path, name)), Some(newId));
    var child := Cell(childRef, Some(c.self), false, map[], InitialAskResult, New());
    (c.(children := c.children[childRef.path.asString := childRef]), child, childRef)
  }

  /** `stop()`: a PoisonPill with no sender to the cell itself. */
  function Stop(c: Cell): (out: seq<Effect>)
    ensures |out| == 1 && out[0].Send? && out[0].to == c.self
    ensures out[0].msg == NewPoisonPill(None)
  {
    [Send(c.self, PoisonPill(None))]
  }

  // ---------------------------------------------------------------------------
  // systemReceive

  /** The reply to a selection: trap when there is no sender to answer. */
  function Reply(c: Cell, sender: Option<Ref>, answer: Option<Value>, action: ActionId): (s: Step)
    ensures sender.None? <==> s.Trap?
    ensures s.Next? ==> s.cell == c && s.out == [Send(sender.value, NewAnswerMessage(c.self, answer, action))]
  {
    match sender
    case None => Trap
    case Some(to) => Next(c, [Send(to, AnswerMessage(Some(c.self), answer, action))])
  }

  /** `receiveActorSelect(msg:)`. */
  function ReceiveActorSelect(c: Cell, msg: Message): (s: Step)
    requires msg.ActorSelect?
  {
    var qPath := msg.path;
    var path := c.self.path.asString;
    if path == qPath then
      Reply(c, msg.sender, Some(RefValue(c.self)), msg.answerAction)
    else if HasPrefix(qPath, path + "/") then
      var secs := Split(qPath[|path| + 1..]);
      var childPath := path + "/" + secs[0];
      if childPath in c.children then
        if |secs| == 1 then
          Reply(c, msg.sender, Some(RefValue(c.children[childPath])), msg.answerAction)
        else
          Next(c, [Send(c.children[childPath], msg)])
      else
        Reply(c, msg.sender, None, msg.answerAction)
    else
      Reply(c, msg.sender, None, msg.answerAction)
  }

  /** The default branch: application messages. */
  function ReceiveUser(c: Cell, m: Message, run: Handler): (s: Step)
  {
    if c.dying then Next(c, [])
    else
      var state := Head(c.stack);
      var report := match run(state, m)
        case Threw(e) => if c.parent.Some? then [Send(c.parent.value, ErrorMessage(Some(c.self), e))] else []
        case Returned => [];
      Next(c, [Invoke(state, m)] + report)
  }

  /** `systemReceive(_:)`. */
  ghost function SystemReceive(c: Cell, m: Message, run: Handler): (s: Step)
    decreases m
  {
    match m
    case ErrorMessage(_, _) =>
      Next(c, [Supervise(m)])
    case PoisonPill(_) =>
      if c.dying then Next(c, [])
      else
        var c' := c.(dying := true);
        if |c.children| == 0 && c.parent.Some? then
          Next(c', [WillStop, Send(c.parent.value, Terminated(Some(c.self)))])
        else
          Next(c', [WillStop] + PoisonAll(c.self, GetChildrenActors(c)))
    case Terminated(sender) =>
      if sender.None? then Trap
      else
        var child := sender.value;
        var c' := c.(children := c.children - {child.path.asString});
        var up := if c.dying && |c'.children| == 0 && c.parent.Some?
          then [Send(c.parent.value, Terminated(Some(c.self)))] else [];
        Next(c', [Detach(child)] + up)
    case AskMessage(sender, inner, action) =>
      var r := SystemReceive(c.(askResult := None), inner, run);
      if r.Trap? || sender.None? then Trap
      else Next(r.cell, r.out + [Send(sender.value, AnswerMessage(Some(c.self), r.cell.askResult, action))])
    case AnswerMessage(_, answer, action) =>
      Next(c, [RunAnswer(action, answer)])
    case ActorSelect(_, _, _) =>
      ReceiveActorSelect(c, m)
    case _ =>
      ReceiveUser(c, m, run)
  }
}

=== FILE: actor_refs.dfy ===
/** Addresses and handles of actors (Sources/ActorRef.swift).

    A path is an immutable string; a reference is a path plus an optional link to the
    cell that runs the actor. A reference whose link is absent is "dead": messages sent
    through it are dropped. Cells are named by abstract identities. */
module ActorRefs {
  import opened Wrappers

  /** Identity of a running cell (the object an `ActorRef` points to). */
  type CellId = nat

  /** `ActorPath`: a plain string address such as "/user/ping". */
  datatype ActorPath = ActorPath(asString: string) {

    /** `description` prints the path string itself. */
    function Description(): string
    {
      asString
    }
  }

  /** `ActorRef`: the path and, while the actor is alive, its cell. */
  datatype Ref = Ref(path: ActorPath, cell: Option<CellId>) {
    predicate IsBound() { cell.Some? }
  }

  /** A fresh reference built by `actorOf` before the cell is attached. */
  function NewRef(path: string): (r: Ref)
    ensures r.path.asString == path && r.path.Description() == path
    ensures !r.IsBound()
  {
    Ref(ActorPath(path), None)
  }

  /** The path of the child called `name` under `parent`: parent path, "/", name. */
  function ChildPath(parent: ActorPath, name: string): (p: string)
    ensures |p| == |parent.asString| + 1 + |name|
    ensures p[..|parent.asString|] == parent.asString
    ensures p[|parent.asString|] == '/'
    ensures p[|parent.asString| + 1..] == name
  {
    parent.asString + "/" + name
  }

  /** Both `actorFor` overloads: a ref with no cell resolves nothing; a bound ref asks
      its cell. The argument is either a path string or a path already split into
      segments; `ActorCell.actorFor` is not part of this model, so the cell-side
      resolution is the `resolve` parameter. */
  function ActorFor<A>(r: Ref, arg: A, resolve: (CellId, A) -> Option<Ref>): (found: Option<Ref>)
    ensures !r.IsBound() ==> found == None
    ensures r.IsBound() ==> found == resolve(r.cell.value, arg)
  {
    match r.cell
    case None => None
    case Some(c) => resolve(c, arg)
  }
}

=== FILE: behaviours.dfy ===
/** The actor's behaviour stack and mailbox flag (Sources/Actor.swift, the older actor
    API that owns its own mailbox and executor).

    An actor keeps a stack of named handlers; an empty stack means `receive` handles
    messages. `tell` enqueues into the actor's own mailbox and schedules one drain of
    that mailbox on the executor unless a drain is already pending. */
module Behaviours {
  import opened Wrappers
  import opened Stacks
  import opened Messages
  import opened Worklists

  /** A handler closure `Receive`, by identity. */
  type HandlerId = nat

  /** One entry of `statesStack`: the state's name and its handler. */
  datatype Named = Named(name: string, handler: HandlerId)

  type StateStack = Stack<Named>

  // ---------------------------------------------------------------------------
  // become / unbecome

  /** `become(_:state:)`: push without discarding. */
  function Become(s: StateStack, name: string, h: HandlerId): (s': StateStack)
    ensures |s'.elems| == |s.elems| + 1
    ensures Head(s') == Some(Named(name, h))
    ensures s'.elems[..|s.elems|] == s.elems
  {
    BecomeDiscarding(s, name, h, false)
  }

  /** `become(_:state:discardOld:)`: replace the current state when `discardOld`,
      otherwise push. */
  function BecomeDiscarding(s: StateStack, name: string, h: HandlerId, discardOld: bool): (s': StateStack)
    ensures Head(s') == Some(Named(name, h))
    ensures !discardOld ==> s' == Push(s, Named(name, h))
    ensures discardOld && !IsEmpty(s) ==> |s'.elems| == |s.elems| && s'.elems[..|s.elems| - 1] == s.elems[..|s.elems| - 1]
    ensures discardOld && IsEmpty(s) ==> s'.elems == [Named(name, h)]
  {
    if discardOld then ReplaceHead(s, Named(name, h)) else Push(s, Named(name, h))
  }

  /** `unbecome()`: drop the current state, if any. */
  function Unbecome(s: StateStack): (s': StateStack)
    ensures IsEmpty(s) ==> s' == s
    ensures !IsEmpty(s) ==> s'.elems == s.elems[..|s.elems| - 1]
  {
    Pop(s).1
  }

  /** `currentState()`: the top of the stack; the stack itself is not touched (the
      function returns only the state). */
  function CurrentState(s: StateStack): (c: Option<Named>)
    ensures c.None? <==> IsEmpty(s)
    ensures c.Some? ==> c.value == s.elems[|s.elems| - 1]
  {
    Head(s)
  }

  /** `popToState(name:)`: unbecome until the current state is called `name` or the
      stack is empty. What is left is a bottom part of the stack; everything removed sat
      above the topmost state called `name`. */
  function PopToState(s: StateStack, name: string): (s': StateStack)
    ensures |s'.elems| <= |s.elems| && s'.elems == s.elems[..|s'.elems|]
    ensures IsEmpty(s') || CurrentState(s').value.name == name
    ensures forall i :: |s'.elems| <= i < |s.elems| ==> s.elems[i].name != name
    decreases |s.elems|
  {
    match CurrentState(s)
    case Some(top) => if top.name != name then PopToState(Unbecome(s), name) else s
    case None => s
  }

  /** `popToRoot()`: unbecome while the stack is not empty. */
  function PopToRoot(s: StateStack): (s': StateStack)
    ensures IsEmpty(s')
    decreases |s.elems|
  {
    if IsEmpty(s) then s else PopToRoot(Unbecome(s))
  }

  /** The number of states `popToState(name)` keeps: everything up to and including the
      topmost state called `name`, or nothing when there is none. */
  ghost function KeepThrough(elems: seq<Named>, name: string): (k: nat)
    ensures k <= |elems|
  {
    if |elems| == 0 then 0
    else if elems[|elems| - 1].name == name then |elems|
    else KeepThrough(elems[..|elems| - 1], name)
  }

  /** `popToState` keeps exactly the states up to the topmost one called `name`. */
  lemma {:induction false} PopToStateKeepsThroughTopmost(s: StateStack, name: string)
    ensures PopToState(s, name).elems == s.elems[..KeepThrough(s.elems, name)]
    decreases |s.elems|
  {
    if |s.elems| > 0 && s.elems[|s.elems| - 1].name != name {
      PopToStateKeepsThroughTopmost(Unbecome(s), name);
      var k := KeepThrough(s.elems, name);
      assert s.elems[..|s.elems| - 1][..k] == s.elems[..k];
    }
  }

  /** A second `popToState` with the same name changes nothing. */
  lemma PopToStateIdempotent(s: StateStack, name: string)
    ensures PopToState(PopToState(s, name), name) == PopToState(s, name)
  {
    var s' := PopToState(s, name);
    if !IsEmpty(s') {
      assert CurrentState(s').value.name == name;
    }
  }

  // ---------------------------------------------------------------------------
  // Dispatch of a message that reaches the actor

  /** Where `systemReceive` sends a message. */
  datatype Route =
    | ToState(state: Named)   // the handler at the top of the stack
    | ToReceive               // the default `receive`
    | StopBranch              // the PoisonPill branch (not part of this model)

  /** `systemReceive`: a PoisonPill takes the stop branch; any other message goes to the
      top state's handler, or to `receive` when the stack is empty. */
  function Dispatch(s: StateStack, m: Message): (r: Route)
    ensures m.PoisonPill? <==> r == StopBranch
    ensures !m.PoisonPill? && !IsEmpty(s) ==> r == ToState(s.elems[|s.elems| - 1])
    ensures !m.PoisonPill? && IsEmpty(s) ==> r == ToReceive
  {
    if m.PoisonPill? then StopBranch
    else match CurrentState(s)
      case Some(st) => ToState(st)
      case None => ToReceive
  }

  /** After `popToRoot`, every message other than a PoisonPill goes to `receive`. */
  lemma PopToRootRestoresReceive(s: StateStack, m: Message)
    requires !m.PoisonPill?
    ensures Dispatch(PopToRoot(s), m) == ToReceive
  {
  }

  /** A pushed state handles the next message; `unbecome` hands it back to whatever
      handled messages before the push. */
  lemma BecomeThenUnbecome(s: StateStack, name: string, h: HandlerId, m: Message)
    requires !m.PoisonPill?
    ensures Dispatch(Become(s, name, h), m) == ToState(Named(name, h))
    ensures Unbecome(Become(s, name, h)) == s
    ensures Dispatch(Unbecome(Become(s, name, h)), m) == Dispatch(s, m)
  {
    PushPop(s, Named(name, h));
  }

  // ---------------------------------------------------------------------------
  // Mailbox and scheduling flag

  /** The actor's mailbox (a FIFO queue) and whether a drain is already scheduled. */
  datatype Mailbox = Mailbox(queue: seq<Message>, inTaskQueue: bool)

  /** `tell`: enqueue; schedule `processMessage` on the executor only when no drain is
      pending, and mark one as pending. The boolean says whether `putAndRun` was
      called. */
  function Tell(a: Mailbox, m: Message): (res: (Mailbox, bool))
    ensures res.0.queue == a.queue + [m]
    ensures res.0.inTaskQueue
    ensures res.1 <==> !a.inTaskQueue
  {
    (Mailbox(a.queue + [m], true), !a.inTaskQueue)
  }

  /** The loop of `processMessage`: dequeue a message and hand it to `systemReceive`
      until the mailbox is empty. Handling `m` tells this actor `tells(m)`, in order,
      each through `Tell`, so those messages join the same mailbox and are handled by
      the same loop. Returns the mailbox afterwards, the messages handled in order, and
      how many of those tells scheduled another drain; `None` when `fuel` runs out
      before the mailbox empties. */
  function Drain(a: Mailbox, tells: Message -> seq<Message>, fuel: nat): (res: Option<(Mailbox, seq<Message>, nat)>)
    ensures res.Some? ==> res.value.0.queue == [] && IsRunLog(a.queue, tells, res.value.1)
    ensures res.Some? ==> res.value.2 <= (if a.inTaskQueue then 0 else 1)
    ensures res.Some? ==> (res.value.0.inTaskQueue <==> a.inTaskQueue || res.value.2 == 1)
    decreases fuel
  {
    if |a.queue| == 0 then Some((a, [], 0))
    else if fuel == 0 then None
    else
      var m := a.queue[0];
      var a0 := Mailbox(a.queue[1..], a.inTaskQueue);
      var (a1, k) := TellAll(a0, tells(m));
      TellAllSchedulesOnce(a0, tells(m));
      match Drain(a1, tells, fuel - 1)
      case None => None
      case Some((a2, rest, k2)) =>
        RunLogCons(a.queue, tells, rest);
        Some((a2, [m] + rest, k + k2))
  }

  /** `processMessage`: drain the mailbox, then clear the scheduling flag. Returns the
      mailbox afterwards, the messages handled, and how many drains the tells during
      the loop scheduled. */
  function ProcessMessage(a: Mailbox, tells: Message -> seq<Message>, fuel: nat): (res: Option<(Mailbox, seq<Message>, nat)>)
    ensures res.Some? ==> res.value.0 == Mailbox([], false)
    ensures res.Some? ==> IsRunLog(a.queue, tells, res.value.1)
    ensures res.Some? && a.inTaskQueue ==> res.value.2 == 0
  {
    match Drain(a, tells, fuel)
    case None => None
    case Some((a2, handled, k)) => Some((Mailbox([], false), handled, k))
  }

  /** The drain hands over the messages of the work-list run of its mailbox: it runs
      out of fuel exactly when `RunQueue` does, and otherwise handles the same
      messages. */
  lemma {:induction false} DrainRunsQueue(a: Mailbox, tells: Message -> seq<Message>, fuel: nat)
    ensures Drain(a, tells, fuel).Some? <==> RunQueue(a.queue, tells, fuel).Some?
    ensures Drain(a, tells, fuel).Some? ==> Drain(a, tells, fuel).value.1 == RunQueue(a.queue, tells, fuel).value
    decreases fuel
  {
    if |a.queue| > 0 && fuel > 0 {
      var m := a.queue[0];
      var a0 := Mailbox(a.queue[1..], a.inTaskQueue);
      TellAllSchedulesOnce(a0, tells(m));
      DrainRunsQueue(TellAll(a0, tells(m)).0, tells, fuel - 1);
    }
  }

  /** A message told to an idle actor schedules exactly one drain. That drain handles
      the mailbox and then every message told during it, in FIFO order (the one
      complete run), schedules nothing more, and leaves the actor idle with an empty
      mailbox. */
  lemma TellThenProcessOnce(a: Mailbox, m: Message, tells: Message -> seq<Message>, fuel: nat, log: seq<Message>)
    requires !a.inTaskQueue && IsRunLog(a.queue + [m], tells, log) && fuel >= |log|
    ensures Tell(a, m).1
    ensures ProcessMessage(Tell(a, m).0, tells, fuel) == Some((Mailbox([], false), log, 0))
  {
    var a1 := Tell(a, m).0;
    DrainRunsQueue(a1, tells, fuel);
    RunQueueComplete(a1.queue, tells, fuel, log);
  }

  /** Telling a sequence of messages to an idle actor schedules exactly one drain, and
      that drain hands over every message in the order told. */
  function TellAll(a: Mailbox, ms: seq<Message>): (res: (Mailbox, nat))
    decreases |ms|
  {
    if |ms| == 0 then (a, 0)
    else
      var (a1, scheduled) := Tell(a, ms[0]);
      var (a2, k) := TellAll(a1, ms[1..]);
      (a2, k + if scheduled then 1 else 0)
  }

  lemma {:induction false} TellAllSchedulesOnce(a: Mailbox, ms: seq<Message>)
    ensures TellAll(a, ms).0.queue == a.queue + ms
    ensures TellAll(a, ms).0.inTaskQueue <==> a.inTaskQueue || |ms| > 0
    ensures TellAll(a, ms).1 == (if a.inTaskQueue || |ms| == 0 then 0 else 1)
    decreases |ms|
  {
    if |ms| > 0 {
      var (a1, _) := Tell(a, ms[0]);
      TellAllSchedulesOnce(a1, ms[1..]);
      assert a1.queue + ms[1..] == a.queue + ms;
    } else {
      assert a.queue + ms == a.queue;
    }
  }

  /** The drain scheduled by a batch of tells first hands over, in order, the messages
      already queued and every message of the batch. */
  lemma TellAllThenProcess(a: Mailbox, ms: seq<Message>, tells: Message -> seq<Message>, fuel: nat)
    ensures var r := ProcessMessage(TellAll(a, ms).0, tells, fuel);
      r.Some? ==> |r.value.1| >= |a.queue| + |ms| && r.value.1[..|a.queue| + |ms|] == a.queue + ms
  {
    TellAllSchedulesOnce(a, ms);
  }
}

=== FILE: chameneos.dfy ===
/** The Chameneos benchmark (Tests/TheaterTests/Chamenos.swift): chameneos of three
    colours meet in a mall; a pair that meets both change to the complement colour.

    The colour rule is a pure function. The mall and each chameneo are actors whose
    `receive` is modelled as a step from a state and a message to a new state and the
    messages it sends. A world of one mall, its chameneos and the messages in flight
    is stepped by delivering any one in-flight message, so the proofs hold for every
    delivery order the actor runtime might choose. */
module Chameneos {
  import opened Wrappers

  // ---------------------------------------------------------------------------
  // Colours

  /** `Color`, with raw values 0 .. 3. */
  datatype Color = Blue | Red | Yellow | Faded

  function Raw(c: Color): nat
  {
    match c
    case Blue => 0
    case Red => 1
    case Yellow => 2
    case Faded => 3
  }

  /** `Color(rawValue:)`: nil for a raw value out of range. */
  function FromRaw(r: int): (c: Option<Color>)
    ensures c.Some? <==> 0 <= r <= 3
    ensures c.Some? ==> Raw(c.value) == r
  {
    if r == 0 then Some(Blue)
    else if r == 1 then Some(Red)
    else if r == 2 then Some(Yellow)
    else if r == 3 then Some(Faded)
    else None
  }

  /** The colour the Mall gives chameneo `i`: `Color(rawValue: i % 3)!`. */
  function InitialColor(i: nat): (c: Color)
    ensures c != Faded && Raw(c) == i % 3
  {
    FromRaw(i % 3).value
  }

  /** `complement(_:)` of a chameneo of colour `mine` meeting one of colour `other`. */
  function Complement(mine: Color, other: Color): Color
  {
    match mine
    case Red =>
      (match other
       case Red => Red
       case Yellow => Blue
       case Blue => Yellow
       case Faded => Faded)
    case Yellow =>
      (match other
       case Red => Blue
       case Yellow => Yellow
       case Blue => Red
       case Faded => Faded)
    case Blue =>
      (match other
       case Red => Yellow
       case Yellow => Red
       case Blue => Blue
       case Faded => Faded)
    case Faded => Faded
  }

  /** Two chameneos of the same live colour keep it. */
  lemma ComplementSame(c: Color)
    requires c != Faded
    ensures Complement(c, c) == c
  {
  }

  /** Two chameneos of different live colours both turn into the third colour: the
      one whose raw value completes 0 + 1 + 2. */
  lemma ComplementThird(a: Color, b: Color)
    requires a != Faded && b != Faded && a != b
    ensures Complement(a, b) != a && Complement(a, b) != b && Complement(a, b) != Faded
    ensures Raw(Complement(a, b)) == 3 - Raw(a) - Raw(b)
  {
  }

  /** Both partners of a meeting compute the same colour. */
  lemma ComplementSymmetric(a: Color, b: Color)
    ensures Complement(a, b) == Complement(b, a)
  {
  }

  /** A faded partner fades the result. */
  lemma ComplementFaded(a: Color, b: Color)
    ensures Complement(a, b) == Faded <==> a == Faded || b == Faded
  {
  }

  // ---------------------------------------------------------------------------
  // Messages

  /** The mall or chameneo `id`. */
  datatype Addr = MallAddr | ChameneoAddr(id: nat)

  datatype Msg =
    | Start
    | Meet(from: Addr, color: Color, sender: Option<Addr>)
    | Change(color: Color)
    | MeetingCount(count: int, sender: Option<Addr>)
    | Stop(sender: Option<Addr>)

  /** A message on its way to `to`. */
  datatype Envelope = Envelope(to: Addr, msg: Msg)

  // ---------------------------------------------------------------------------
  // The mall

  /** `Mall`: meetings left `n`, the number of chameneos, the chameneo waiting for a
      partner, the meetings reported so far and the number of chameneos that faded. */
  datatype Mall = Mall(n: int, numChameneos: int, waiting: Option<Addr>, sumMeetings: int, numFaded: int)

  /** One `receive` of the mall: the new state, what it sends, and whether it shuts the
      system down; `MallTrap` when it force-unwraps a nil sender. */
  datatype MallStep = MallNext(mall: Mall, out: seq<Envelope>, shutdown: bool) | MallTrap

  /** The Meet branch (lines 139-153): with meetings left, a waiting chameneo is sent
      the Meet and one meeting is used up; otherwise the sender waits. With none left,
      the waiting chameneo (if any) and the sender are told to stop. */
  function MallMeet(m: Mall, msg: Msg): (r: MallStep)
    requires msg.Meet?
    ensures r.MallNext? ==> !r.shutdown && r.mall.numFaded == m.numFaded && r.mall.sumMeetings == m.sumMeetings
    ensures m.n > 0 && m.waiting.Some? ==>
      r == MallNext(m.(n := m.n - 1, waiting := None), [Envelope(m.waiting.value, msg)], false)
    ensures m.n > 0 && m.waiting.None? ==>
      (r.MallTrap? <==> msg.sender.None?) && (r.MallNext? ==> r.mall == m.(waiting := msg.sender) && r.out == [])
    ensures m.n <= 0 ==> (r.MallTrap? <==> msg.sender.None?)
    ensures m.n <= 0 && r.MallNext? ==> r.mall == m
    ensures m.n <= 0 && r.MallNext? && m.waiting.None? ==>
      r.out == [Envelope(msg.sender.value, Stop(Some(MallAddr)))]
    ensures m.n <= 0 && r.MallNext? && m.waiting.Some? ==>
      r.out == [Envelope(m.waiting.value, Stop(Some(MallAddr))), Envelope(msg.sender.value, Stop(Some(MallAddr)))]
  {
    if m.n > 0 then
      match m.waiting
      case Some(w) => MallNext(m.(n := m.n - 1, waiting := None), [Envelope(w, msg)], false)
      case None =>
        if msg.sender.None? then MallTrap
        else MallNext(m.(waiting := msg.sender), [], false)
    else
      var toWaiting := if m.waiting.Some? then [Envelope(m.waiting.value, Stop(Some(MallAddr)))] else [];
      if msg.sender.None? then MallTrap
      else MallNext(m, toWaiting + [Envelope(msg.sender.value, Stop(Some(MallAddr)))], false)
  }

  /** The MeetingCount branch (lines 125-138): one more chameneo faded, its meetings
      are added, and the system shuts down when the last one reports. */
  function MallCount(m: Mall, count: int): (r: MallStep)
    ensures r.MallNext? && r.out == []
    ensures r.mall.numFaded == m.numFaded + 1 && r.mall.sumMeetings == m.sumMeetings + count
    ensures r.mall.n == m.n && r.mall.waiting == m.waiting && r.mall.numChameneos == m.numChameneos
    ensures r.shutdown <==> m.numFaded + 1 == m.numChameneos
  {
    var m' := m.(numFaded := m.numFaded + 1, sumMeetings := m.sumMeetings + count);
    MallNext(m', [], m'.numFaded == m'.numChameneos)
  }

  /** The Start branch (lines 118-124): chameneo `i` of `numChameneos` gets colour
      `i % 3` and a Start message. */
  function Spawn(numChameneos: nat): (cs: seq<Chameneo>)
    ensures |cs| == numChameneos
    ensures forall i :: 0 <= i < |cs| ==> cs[i] == Chameneo(InitialColor(i), 0, i)
  {
    seq(numChameneos, i requires 0 <= i => Chameneo(InitialColor(i), 0, i))
  }

  function StartAll(numChameneos: nat): (out: seq<Envelope>)
    ensures |out| == numChameneos
    ensures forall i :: 0 <= i < |out| ==> out[i] == Envelope(ChameneoAddr(i), Start)
  {
    seq(numChameneos, i requires 0 <= i => Envelope(ChameneoAddr(i), Start))
  }

  /** The mall's `receive` for the messages that reach it after start-up; any other
      message is printed and ignored. */
  function MallReceive(m: Mall, msg: Msg): MallStep
  {
    match msg
    case Meet(_, _, _) => MallMeet(m, msg)
    case MeetingCount(count, _) => MallCount(m, count)
    case _ => MallNext(m, [], false)
  }

  // ---------------------------------------------------------------------------
  // A chameneo

  /** `Chameneo`: its colour, its meeting count and its number `cid`. */
  datatype Chameneo = Chameneo(color: Color, meetings: int, cid: nat)

  datatype ChameneoStep = ChameneoNext(c: Chameneo, out: seq<Envelope>) | ChameneoTrap

  /** `Chameneo.receive` (lines 54-73). */
  function ChameneoReceive(c: Chameneo, msg: Msg): (r: ChameneoStep)
    ensures r.ChameneoTrap? <==> msg.Stop? && msg.sender.None?
    ensures r.ChameneoNext? ==> r.c.cid == c.cid
    ensures msg.Meet? ==>
      var col := Complement(c.color, msg.color);
      r == ChameneoNext(c.(color := col, meetings := c.meetings + 1),
             [Envelope(msg.from, Change(col)), Envelope(MallAddr, Meet(ChameneoAddr(c.cid), col, Some(ChameneoAddr(c.cid))))])
    ensures msg.Change? ==>
      r == ChameneoNext(c.(color := msg.color, meetings := c.meetings + 1),
             [Envelope(MallAddr, Meet(ChameneoAddr(c.cid), msg.color, Some(ChameneoAddr(c.cid))))])
    ensures msg.Stop? && msg.sender.Some? ==>
      r == ChameneoNext(c.(color := Faded), [Envelope(msg.sender.value, MeetingCount(c.meetings, Some(ChameneoAddr(c.cid))))])
    ensures msg.Start? ==>
      r == ChameneoNext(c, [Envelope(MallAddr, Meet(ChameneoAddr(c.cid), c.color, Some(ChameneoAddr(c.cid))))])
    ensures msg.MeetingCount? ==> r == ChameneoNext(c, [])
  {
    var self := ChameneoAddr(c.cid);
    match msg
    case Start => ChameneoNext(c, [Envelope(MallAddr, Meet(self, c.color, Some(self)))])
    case Meet(from, color, _) =>
      var c' := c.(color := Complement(c.color, color), meetings := c.meetings + 1);
      ChameneoNext(c', [Envelope(from, Change(c'.color)), Envelope(MallAddr, Meet(self, c'.color, Some(self)))])
    case Change(color) =>
      var c' := c.(color := color, meetings := c.meetings + 1);
      ChameneoNext(c', [Envelope(MallAddr, Meet(self, c'.color, Some(self)))])
    case Stop(sender) =>
      if sender.None? then ChameneoTrap
      else ChameneoNext(c.(color := Faded), [Envelope(sender.value, MeetingCount(c.meetings, Some(self)))])
    case MeetingCount(_, _) => ChameneoNext(c, [])
  }

  // ---------------------------------------------------------------------------
  // The world: the mall, the chameneos and the messages in flight

  datatype World = World(mall: Mall, chams: seq<Chameneo>, inflight: seq<Envelope>, stopped: bool)

  /** The world right after the mall handled Start, with `n` meetings to arrange. */
  function Initial(n: int, numChameneos: nat): (w: World)
    ensures |w.chams| == |w.inflight| == numChameneos && w.mall.n == n && w.mall.waiting.None?
  {
    World(Mall(n, numChameneos, None, 0, 0), Spawn(numChameneos), StartAll(numChameneos), false)
  }

  /** Deliver in-flight message `i`: its receiver handles it and what it sends joins
      the messages in flight. `None` when the receiver traps or does not exist. */
  function Deliver(w: World, i: int): Option<World>
    requires 0 <= i < |w.inflight|
  {
    var e := w.inflight[i];
    var rest := w.inflight[..i] + w.inflight[i + 1..];
    match e.to
    case MallAddr =>
      (match MallReceive(w.mall, e.msg)
       case MallTrap => None
       case MallNext(m, out, shutdown) => Some(World(m, w.chams, rest + out, w.stopped || shutdown)))
    case ChameneoAddr(j) =>
      if j >= |w.chams| then None
      else
        match ChameneoReceive(w.chams[j], e.msg)
        case ChameneoTrap => None
        case ChameneoNext(c, out) => Some(World(w.mall, w.chams[j := c], rest + out, w.stopped))
  }

  /** The meetings the chameneos have counted. */
  function SumMeetings(cs: seq<Chameneo>): int
  {
    if |cs| == 0 then 0 else SumMeetings(cs[..|cs| - 1]) + cs[|cs| - 1].meetings
  }

  /** Meetings arranged but not yet counted: a Meet forwarded to a chameneo owes two
      (its receiver's and, through Change, its sender's), a Change owes one. */
  function Owed(e: Envelope): nat
  {
    if e.to.ChameneoAddr? && e.msg.Meet? then 2
    else if e.to.ChameneoAddr? && e.msg.Change? then 1
    else 0
  }

  function OwedAll(s: seq<Envelope>): nat
  {
    if |s| == 0 then 0 else OwedAll(s[..|s| - 1]) + Owed(s[|s| - 1])
  }

  /** An address the world knows. */
  predicate Known(w: World, a: Addr)
  {
    a.MallAddr? || a.id < |w.chams|
  }

  /** What every message in flight looks like: it goes to a known actor; a Meet names
      a known chameneo as both `from` and sender; a Stop comes from the mall; no Start
      goes to the mall, which handled its own at start-up. */
  predicate WellFormed(w: World, e: Envelope)
  {
    && Known(w, e.to)
    && (e.msg.Meet? ==> e.msg.from.ChameneoAddr? && Known(w, e.msg.from) && e.msg.sender == Some(e.msg.from))
    && (e.msg.Stop? ==> e.msg.sender == Some(MallAddr))
    && (e.msg.Start? ==> e.to.ChameneoAddr?)
  }

  /** The invariant of a run that started with `n0` meetings to arrange: the meetings
      left never go below zero, nobody waits once none are left, each chameneo knows its
      number, every message in flight is well formed, and the meetings counted plus the
      meetings owed are twice the meetings arranged. */
  ghost predicate Inv(w: World, n0: int)
  {
    && 0 <= w.mall.n <= n0
    && (w.mall.n == 0 ==> w.mall.waiting.None?)
    && (w.mall.waiting.Some? ==> w.mall.waiting.value.ChameneoAddr? && Known(w, w.mall.waiting.value))
    && (forall j :: 0 <= j < |w.chams| ==> w.chams[j].cid == j)
    && (forall k :: 0 <= k < |w.inflight| ==> WellFormed(w, w.inflight[k]))
    && SumMeetings(w.chams) + OwedAll(w.inflight) == 2 * (n0 - w.mall.n)
  }

  lemma {:induction false} OwedAllAppend(a: seq<Envelope>, b: seq<Envelope>)
    ensures OwedAll(a + b) == OwedAll(a) + OwedAll(b)
    decreases |b|
  {
    if |b| == 0 {
      assert a + b == a;
    } else {
      assert (a + b)[..|a + b| - 1] == a + b[..|b| - 1];
      OwedAllAppend(a, b[..|b| - 1]);
    }
  }

  /** Taking message `i` out of flight removes what it owes. */
  lemma OwedAllRemove(s: seq<Envelope>, i: int)
    requires 0 <= i < |s|
    ensures OwedAll(s) == OwedAll(s[..i] + s[i + 1..]) + Owed(s[i])
  {
    assert s == s[..i] + [s[i]] + s[i + 1..];
    OwedAllAppend(s[..i] + [s[i]], s[i + 1..]);
    OwedAllAppend(s[..i], [s[i]]);
    OwedAllAppend(s[..i], s[i + 1..]);
    assert OwedAll([s[i]]) == Owed(s[i]) by {
      assert [s[i]][..0] == [];
    }
  }

  lemma {:induction false} SumMeetingsUpdate(cs: seq<Chameneo>, j: int, c: Chameneo)
    requires 0 <= j < |cs|
    ensures SumMeetings(cs[j := c]) == SumMeetings(cs) - cs[j].meetings + c.meetings
  {
    var n := |cs|;
    if j < n - 1 {
      assert cs[j := c][..n - 1] == cs[..n - 1][j := c];
      SumMeetingsUpdate(cs[..n - 1], j, c);
    } else {
      assert cs[j := c][..n - 1] == cs[..n - 1];
    }
  }

  lemma {:induction false} SumMeetingsZero(cs: seq<Chameneo>)
    requires forall j :: 0 <= j < |cs| ==> cs[j].meetings == 0
    ensures SumMeetings(cs) == 0
  {
    if |cs| > 0 {
      SumMeetingsZero(cs[..|cs| - 1]);
    }
  }

  lemma {:induction false} OwedAllStarts(s: seq<Envelope>)
    requires forall k :: 0 <= k < |s| ==> s[k].msg.Start?
    ensures OwedAll(s) == 0
  {
    if |s| > 0 {
      OwedAllStarts(s[..|s| - 1]);
    }
  }

  /** A run starts in the invariant. */
  lemma InitialInv(n: int, numChameneos: nat)
    requires n >= 0
    ensures Inv(Initial(n, numChameneos), n)
  {
    var w := Initial(n, numChameneos);
    SumMeetingsZero(w.chams);
    OwedAllStarts(w.inflight);
  }

  /** The messages left in flight after one is delivered stay well formed when the
      chameneos stay the same in number and what was sent is well formed. */
  lemma AllWellFormed(w: World, w': World, i: int, out: seq<Envelope>)
    requires 0 <= i < |w.inflight| && |w'.chams| == |w.chams|
    requires forall k :: 0 <= k < |w.inflight| ==> WellFormed(w, w.inflight[k])
    requires w'.inflight == w.inflight[..i] + w.inflight[i + 1..] + out
    requires forall k :: 0 <= k < |out| ==> WellFormed(w', out[k])
    ensures forall k :: 0 <= k < |w'.inflight| ==> WellFormed(w', w'.inflight[k])
  {
    forall k | 0 <= k < |w'.inflight|
      ensures WellFormed(w', w'.inflight[k])
    {
      if k < i {
        assert w'.inflight[k] == w.inflight[k];
      } else if k < |w.inflight| - 1 {
        assert w'.inflight[k] == w.inflight[k + 1];
      } else {
        assert w'.inflight[k] == out[k - (|w.inflight| - 1)];
      }
    }
  }

  lemma OwedOne(a: Envelope)
    ensures OwedAll([a]) == Owed(a)
  {
    assert [a][..0] == [];
  }

  lemma OwedTwo(a: Envelope, b: Envelope)
    ensures OwedAll([a, b]) == Owed(a) + Owed(b)
  {
    assert [a, b][..1] == [a];
    OwedOne(a);
  }

  /** The mall's part of the invariant carries over a step of the mall that keeps its
      own conditions and sends only well-formed messages owing what it used up. */
  lemma MallStepInv(w: World, n0: int, i: int, m: Mall, out: seq<Envelope>, shutdown: bool)
    requires Inv(w, n0) && 0 <= i < |w.inflight|
    requires 0 <= m.n <= n0 && (m.n == 0 ==> m.waiting.None?)
    requires m.waiting.Some? ==> m.waiting.value.ChameneoAddr? && m.waiting.value.id < |w.chams|
    requires forall k :: 0 <= k < |out| ==> WellFormed(w, out[k])
    requires OwedAll(out) == Owed(w.inflight[i]) + 2 * (w.mall.n - m.n)
    ensures Inv(World(m, w.chams, w.inflight[..i] + w.inflight[i + 1..] + out, w.stopped || shutdown), n0)
  {
    var rest := w.inflight[..i] + w.inflight[i + 1..];
    var w' := World(m, w.chams, rest + out, w.stopped || shutdown);
    OwedAllRemove(w.inflight, i);
    OwedAllAppend(rest, out);
    AllWellFormed(w, w', i, out);
  }

  /** A Meet reaching the mall while a chameneo waits and meetings are left: the
      waiting chameneo is sent the Meet, which owes the two meetings used up. */
  lemma MeetPairs(w: World, n0: int, i: int)
    requires Inv(w, n0) && 0 <= i < |w.inflight| && w.inflight[i].to.MallAddr? && w.inflight[i].msg.Meet?
    requires w.mall.n > 0 && w.mall.waiting.Some?
    ensures Deliver(w, i).Some? && Inv(Deliver(w, i).value, n0)
  {
    var e := w.inflight[i];
    var m := w.mall;
    var rest := w.inflight[..i] + w.inflight[i + 1..];
    var out := [Envelope(m.waiting.value, e.msg)];
    var m' := m.(n := m.n - 1, waiting := None);
    assert WellFormed(w, e);
    assert Deliver(w, i) == Some(World(m', w.chams, rest + out, w.stopped || false));
    OwedOne(out[0]);
    MallStepInv(w, n0, i, m', out, false);
  }

  /** A Meet reaching the mall while nobody waits and meetings are left: its sender
      waits. */
  lemma MeetWaits(w: World, n0: int, i: int)
    requires Inv(w, n0) && 0 <= i < |w.inflight| && w.inflight[i].to.MallAddr? && w.inflight[i].msg.Meet?
    requires w.mall.n > 0 && w.mall.waiting.None?
    ensures Deliver(w, i).Some? && Inv(Deliver(w, i).value, n0)
  {
    var e := w.inflight[i];
    var rest := w.inflight[..i] + w.inflight[i + 1..];
    var m' := w.mall.(waiting := e.msg.sender);
    assert WellFormed(w, e);
    assert Deliver(w, i) == Some(World(m', w.chams, rest + [], w.stopped || false));
    MallStepInv(w, n0, i, m', [], false);
  }

  /** A Meet reaching the mall with no meetings left: nobody waits, and its sender is
      told to stop. */
  lemma MeetStops(w: World, n0: int, i: int)
    requires Inv(w, n0) && 0 <= i < |w.inflight| && w.inflight[i].to.MallAddr? && w.inflight[i].msg.Meet?
    requires w.mall.n <= 0
    ensures Deliver(w, i).Some? && Inv(Deliver(w, i).value, n0)
  {
    var e := w.inflight[i];
    var rest := w.inflight[..i] + w.inflight[i + 1..];
    assert WellFormed(w, e);
    var out := [Envelope(e.msg.sender.value, Stop(Some(MallAddr)))];
    assert Deliver(w, i) == Some(World(w.mall, w.chams, rest + out, w.stopped || false));
    OwedOne(out[0]);
    MallStepInv(w, n0, i, w.mall, out, false);
  }

  /** A Meet reaching the mall: it pairs, waits, or tells the chameneos to stop. */
  lemma DeliverMeetToMall(w: World, n0: int, i: int)
    requires Inv(w, n0) && 0 <= i < |w.inflight| && w.inflight[i].to.MallAddr? && w.inflight[i].msg.Meet?
    ensures Deliver(w, i).Some? && Inv(Deliver(w, i).value, n0)
  {
    if w.mall.n > 0 && w.mall.waiting.Some? {
      MeetPairs(w, n0, i);
    } else if w.mall.n > 0 {
      MeetWaits(w, n0, i);
    } else {
      MeetStops(w, n0, i);
    }
  }

  /** A message to the mall keeps the invariant and never traps. */
  lemma DeliverToMall(w: World, n0: int, i: int)
    requires Inv(w, n0) && 0 <= i < |w.inflight| && w.inflight[i].to.MallAddr?
    ensures Deliver(w, i).Some? && Inv(Deliver(w, i).value, n0)
  {
    var e := w.inflight[i];
    if e.msg.Meet? {
      DeliverMeetToMall(w, n0, i);
    } else {
      var r := MallReceive(w.mall, e.msg);
      MallStepInv(w, n0, i, r.mall, r.out, r.shutdown);
    }
  }

  /** The parts of the invariant a chameneo's step touches still hold after it when
      the chameneo keeps its number, sends only well-formed messages, and what it sends
      owes what was owed by the message it handled less the meetings it counted. */
  lemma ChameneoStepInv(w: World, n0: int, i: int, j: int, c: Chameneo, out: seq<Envelope>)
    requires Inv(w, n0) && 0 <= i < |w.inflight| && 0 <= j < |w.chams| && c.cid == j
    requires forall k :: 0 <= k < |out| ==> WellFormed(w, out[k])
    requires OwedAll(out) + c.meetings == Owed(w.inflight[i]) + w.chams[j].meetings
    ensures var w' := World(w.mall, w.chams[j := c], w.inflight[..i] + w.inflight[i + 1..] + out, w.stopped);
      && (forall j' :: 0 <= j' < |w'.chams| ==> w'.chams[j'].cid == j')
      && (forall k :: 0 <= k < |w'.inflight| ==> WellFormed(w', w'.inflight[k]))
      && SumMeetings(w'.chams) + OwedAll(w'.inflight) == 2 * (n0 - w'.mall.n)
  {
    var rest := w.inflight[..i] + w.inflight[i + 1..];
    var w' := World(w.mall, w.chams[j := c], rest + out, w.stopped);
    OwedAllRemove(w.inflight, i);
    OwedAllAppend(rest, out);
    SumMeetingsUpdate(w.chams, j, c);
    AllWellFormed(w, w', i, out);
  }

  /** A message to a chameneo keeps the invariant and never traps. */
  lemma DeliverToChameneo(w: World, n0: int, i: int)
    requires Inv(w, n0) && 0 <= i < |w.inflight| && w.inflight[i].to.ChameneoAddr?
    ensures Deliver(w, i).Some? && Inv(Deliver(w, i).value, n0)
  {
    var e := w.inflight[i];
    assert WellFormed(w, e);
    var j := e.to.id;
    var r := ChameneoReceive(w.chams[j], e.msg);
    assert r.ChameneoNext?;
    assert Deliver(w, i) == Some(World(w.mall, w.chams[j := r.c], w.inflight[..i] + w.inflight[i + 1..] + r.out, w.stopped));
    if e.msg.Meet? {
      OwedTwo(r.out[0], r.out[1]);
    } else if |r.out| == 1 {
      OwedOne(r.out[0]);
    }
    ChameneoStepInv(w, n0, i, j, r.c, r.out);
  }

  /** Delivering any message in flight keeps the invariant and never traps: every
      force-unwrapped sender is present. */
  lemma DeliverKeepsInv(w: World, n0: int, i: int)
    requires Inv(w, n0) && 0 <= i < |w.inflight|
    ensures Deliver(w, i).Some? && Inv(Deliver(w, i).value, n0)
  {
    if w.inflight[i].to.MallAddr? {
      DeliverToMall(w, n0, i);
    } else {
      DeliverToChameneo(w, n0, i);
    }
  }

  /** A sequence of deliveries, each picking a message in flight by position. */
  function Run(w: World, picks: seq<nat>): Option<World>
    decreases |picks|
  {
    if |picks| == 0 then Some(w)
    else if picks[0] >= |w.inflight| then None
    else match Deliver(w, picks[0])
      case None => None
      case Some(w') => Run(w', picks[1..])
  }

  /** Every run from the start keeps the invariant: whatever the delivery order, the
      meetings left stay between 0 and `n0`, and the meetings counted plus those still
      owed are twice the meetings arranged. */
  lemma {:induction false} RunKeepsInv(w: World, n0: int, picks: seq<nat>)
    requires Inv(w, n0)
    ensures Run(w, picks).Some? ==> Inv(Run(w, picks).value, n0)
    decreases |picks|
  {
    if |picks| > 0 && picks[0] < |w.inflight| {
      DeliverKeepsInv(w, n0, picks[0]);
      RunKeepsInv(Deliver(w, picks[0]).value, n0, picks[1..]);
    }
  }

  /** Once nothing owed is in flight, the chameneos together counted exactly two
      meetings per meeting the mall arranged; when all `n0` were arranged, that is
      `2 * n0` (the comment at line 132). */
  lemma SettledMeetings(w: World, n0: int)
    requires Inv(w, n0) && OwedAll(w.inflight) == 0
    ensures SumMeetings(w.chams) == 2 * (n0 - w.mall.n)
    ensures w.mall.n == 0 ==> SumMeetings(w.chams) == 2 * n0
  {
  }
}

=== FILE: chameneos_ledger.dfy ===
/** What the mall adds up (Tests/TheaterTests/Chamenos.swift:125-138): each chameneo
    fades once and reports once, so when the last report arrives the mall's
    `sumMeetings` is the meetings of all chameneos, twice the meetings arranged.

    Each live chameneo has exactly one move pending: its Start, its Meet on the way to
    the mall, its place as the chameneo the mall keeps waiting, a Meet it sent that the
    mall passed on, a Meet or Change on its way to it, or the Stop it is sent. A faded
    chameneo has none, so its count no longer changes. The mall's `numFaded` and
    `sumMeetings`, together with the MeetingCount messages still in flight, account
    for the faded chameneos and their counts. */
module ChameneosLedger {
  import opened Wrappers
  import opened Chameneos

  // ---------------------------------------------------------------------------
  // Sums over the messages in flight

  /** What a message is worth in one of the sums: `Holding(j)` counts the pending moves
      of chameneo `j` it carries (one as its receiver, one as the chameneo a Meet is
      from); `Reporting` counts MeetingCount messages to the mall and `Reported` the
      meetings they carry. */
  datatype Measure = Holding(j: nat) | Reporting | Reported

  function Weight(e: Envelope, m: Measure): int
  {
    match m
    case Holding(j) =>
      (if e.to == ChameneoAddr(j) then 1 else 0) + (if e.msg.Meet? && e.msg.from == ChameneoAddr(j) then 1 else 0)
    case Reporting => if e.to.MallAddr? && e.msg.MeetingCount? then 1 else 0
    case Reported => if e.to.MallAddr? && e.msg.MeetingCount? then e.msg.count else 0
  }

  function Total(s: seq<Envelope>, m: Measure): int
  {
    if |s| == 0 then 0 else Total(s[..|s| - 1], m) + Weight(s[|s| - 1], m)
  }

  lemma {:induction false} TotalAppend(a: seq<Envelope>, b: seq<Envelope>, m: Measure)
    ensures Total(a + b, m) == Total(a, m) + Total(b, m)
    decreases |b|
  {
    if |b| == 0 {
      assert a + b == a;
    } else {
      assert (a + b)[..|a + b| - 1] == a + b[..|b| - 1];
      TotalAppend(a, b[..|b| - 1], m);
    }
  }

  lemma TotalOne(a: Envelope, m: Measure)
    ensures Total([a], m) == Weight(a, m)
  {
    assert [a][..0] == [];
  }

  lemma TotalTwo(a: Envelope, b: Envelope, m: Measure)
    ensures Total([a, b], m) == Weight(a, m) + Weight(b, m)
  {
    assert [a, b][..1] == [a];
    TotalOne(a, m);
  }

  /** Delivering message `i` takes its worth out of every sum and adds what the
      receiver sent. */
  lemma TotalStep(s: seq<Envelope>, i: int, out: seq<Envelope>, m: Measure)
    requires 0 <= i < |s|
    ensures Total(s[..i] + s[i + 1..] + out, m) == Total(s, m) - Weight(s[i], m) + Total(out, m)
  {
    assert s == s[..i] + [s[i]] + s[i + 1..];
    TotalAppend(s[..i] + [s[i]], s[i + 1..], m);
    TotalAppend(s[..i], [s[i]], m);
    TotalAppend(s[..i], s[i + 1..], m);
    TotalAppend(s[..i] + s[i + 1..], out, m);
    TotalOne(s[i], m);
  }

  /** Counting sums are at least the worth of any one message. */
  lemma {:induction false} TotalAtLeast(s: seq<Envelope>, m: Measure, k: int)
    requires m.Holding? || m.Reporting?
    requires 0 <= k < |s|
    ensures Total(s, m) >= Weight(s[k], m) >= 0
    decreases |s|
  {
    TotalNonneg(s[..|s| - 1], m);
    if k < |s| - 1 {
      TotalAtLeast(s[..|s| - 1], m, k);
    }
  }

  lemma {:induction false} TotalNonneg(s: seq<Envelope>, m: Measure)
    requires m.Holding? || m.Reporting?
    ensures Total(s, m) >= 0
    decreases |s|
  {
    if |s| > 0 {
      TotalNonneg(s[..|s| - 1], m);
    }
  }

  /** The Start messages of a new run carry one pending move per chameneo and no
      reports. */
  lemma {:induction false} TotalStarts(k: nat, m: Measure)
    ensures Total(StartAll(k), m) == (if m.Holding? && m.j < k then 1 else 0)
    decreases k
  {
    if k > 0 {
      assert StartAll(k)[..k - 1] == StartAll(k - 1);
      TotalStarts(k - 1, m);
    }
  }

  // ---------------------------------------------------------------------------
  // Sums over the chameneos

  function Live(c: Chameneo): int
  {
    if c.color == Faded then 0 else 1
  }

  function FadedMeetings(c: Chameneo): int
  {
    if c.color == Faded then c.meetings else 0
  }

  /** The number of faded chameneos. */
  function FadedNum(cs: seq<Chameneo>): int
  {
    if |cs| == 0 then 0 else FadedNum(cs[..|cs| - 1]) + 1 - Live(cs[|cs| - 1])
  }

  /** The meetings of the faded chameneos. */
  function FadedSum(cs: seq<Chameneo>): int
  {
    if |cs| == 0 then 0 else FadedSum(cs[..|cs| - 1]) + FadedMeetings(cs[|cs| - 1])
  }

  lemma {:induction false} FadedUpdate(cs: seq<Chameneo>, j: int, c: Chameneo)
    requires 0 <= j < |cs|
    ensures FadedNum(cs[j := c]) == FadedNum(cs) + Live(cs[j]) - Live(c)
    ensures FadedSum(cs[j := c]) == FadedSum(cs) - FadedMeetings(cs[j]) + FadedMeetings(c)
  {
    var n := |cs|;
    if j < n - 1 {
      assert cs[j := c][..n - 1] == cs[..n - 1][j := c];
      FadedUpdate(cs[..n - 1], j, c);
    } else {
      assert cs[j := c][..n - 1] == cs[..n - 1];
    }
  }

  /** At most every chameneo is faded; when every one is, the faded ones' meetings are
      all the meetings. */
  lemma {:induction false} FadedBound(cs: seq<Chameneo>)
    ensures 0 <= FadedNum(cs) <= |cs|
    ensures FadedNum(cs) == |cs| ==>
      (forall j :: 0 <= j < |cs| ==> cs[j].color == Faded) && FadedSum(cs) == SumMeetings(cs)
  {
    if |cs| > 0 {
      var p := cs[..|cs| - 1];
      FadedBound(p);
      assert forall j :: 0 <= j < |p| ==> p[j] == cs[j];
    }
  }

  /** Nobody has faded at the start. */
  lemma {:induction false} FadedNone(cs: seq<Chameneo>)
    requires forall j :: 0 <= j < |cs| ==> cs[j].color != Faded
    ensures FadedNum(cs) == 0 && FadedSum(cs) == 0
  {
    if |cs| > 0 {
      FadedNone(cs[..|cs| - 1]);
    }
  }

  // ---------------------------------------------------------------------------
  // The ledger

  /** 1 when the mall keeps chameneo `j` waiting. */
  function Waits(w: World, j: nat): int
  {
    if w.mall.waiting == Some(ChameneoAddr(j)) then 1 else 0
  }

  /** The pending moves of chameneo `j`. */
  function Moves(w: World, j: nat): int
  {
    Total(w.inflight, Holding(j)) + Waits(w, j)
  }

  /** The messages a run sends: the mall gets only Meet and MeetingCount, a chameneo
      never gets a MeetingCount, and Meet and Change carry a live colour. */
  predicate Shape(e: Envelope)
  {
    && (e.to.MallAddr? ==> e.msg.Meet? || e.msg.MeetingCount?)
    && (e.to.ChameneoAddr? ==> !e.msg.MeetingCount?)
    && (e.msg.Meet? ==> e.msg.color != Faded)
    && (e.msg.Change? ==> e.msg.color != Faded)
  }

  /** While meetings are left, nobody has faded and no Stop is on its way. */
  ghost predicate Quiet(w: World)
  {
    w.mall.n > 0 ==>
      && (forall j :: 0 <= j < |w.chams| ==> w.chams[j].color != Faded)
      && (forall k :: 0 <= k < |w.inflight| ==> !w.inflight[k].msg.Stop?)
  }

  /** Every message in flight is shaped. */
  ghost predicate AllShaped(w: World)
  {
    forall k :: 0 <= k < |w.inflight| ==> Shape(w.inflight[k])
  }

  /** A live chameneo has one move pending and a faded one none. */
  ghost predicate Holders(w: World)
  {
    forall j :: 0 <= j < |w.chams| ==> Moves(w, j) == Live(w.chams[j])
  }

  /** The ledger of a run: messages are shaped, a live chameneo has one move pending and
      a faded one none, the faded chameneos are those the mall counted plus those whose
      report is in flight (and likewise their meetings), and the system stops only
      once every chameneo reported. */
  ghost predicate Ledger(w: World)
  {
    && w.mall.numChameneos == |w.chams| && 0 <= w.mall.numFaded
    && AllShaped(w)
    && Quiet(w)
    && Holders(w)
    && w.mall.numFaded + Total(w.inflight, Reporting) == FadedNum(w.chams)
    && w.mall.sumMeetings + Total(w.inflight, Reported) == FadedSum(w.chams)
    && (w.stopped ==> 0 < w.mall.numFaded == |w.chams|)
  }

  /** A run starts in the ledger. */
  lemma InitialLedger(n: int, numChameneos: nat)
    ensures Ledger(Initial(n, numChameneos))
  {
    var w := Initial(n, numChameneos);
    FadedNone(w.chams);
    TotalStarts(numChameneos, Reporting);
    TotalStarts(numChameneos, Reported);
    forall j | 0 <= j < |w.chams|
      ensures Moves(w, j) == Live(w.chams[j])
    {
      TotalStarts(numChameneos, Holding(j));
    }
  }

  /** The pending moves stay one per live chameneo when each chameneo's share of what
      was delivered and sent matches its change of colour. */
  lemma HoldersStep(w: World, i: int, w': World, out: seq<Envelope>)
    requires Holders(w) && 0 <= i < |w.inflight|
    requires |w'.chams| == |w.chams| && w'.inflight == w.inflight[..i] + w.inflight[i + 1..] + out
    requires forall j :: 0 <= j < |w.chams| ==>
      Waits(w', j) - Waits(w, j) + Total(out, Holding(j)) - Weight(w.inflight[i], Holding(j))
        == Live(w'.chams[j]) - Live(w.chams[j])
    ensures Holders(w')
  {
    forall j | 0 <= j < |w'.chams|
      ensures Moves(w', j) == Live(w'.chams[j])
    {
      TotalStep(w.inflight, i, out, Holding(j));
    }
  }

  /** The messages left in flight keep their shape, and a step that leaves meetings
      over sends no Stop. */
  lemma ShapedStep(w: World, i: int, w': World, out: seq<Envelope>)
    requires AllShaped(w) && Quiet(w) && 0 <= i < |w.inflight|
    requires w'.inflight == w.inflight[..i] + w.inflight[i + 1..] + out
    requires forall k :: 0 <= k < |out| ==> Shape(out[k])
    requires w'.mall.n > 0 ==> w.mall.n > 0 && forall k :: 0 <= k < |out| ==> !out[k].msg.Stop?
    ensures AllShaped(w')
    ensures w'.mall.n > 0 ==> forall k :: 0 <= k < |w'.inflight| ==> !w'.inflight[k].msg.Stop?
  {
    var s := w.inflight;
    forall k | 0 <= k < |w'.inflight|
      ensures Shape(w'.inflight[k]) && (w'.mall.n > 0 ==> !w'.inflight[k].msg.Stop?)
    {
      if k < i {
        assert w'.inflight[k] == s[k];
      } else if k < |s| - 1 {
        assert w'.inflight[k] == s[k + 1];
      } else {
        assert w'.inflight[k] == out[k - (|s| - 1)];
      }
    }
  }

  /** The ledger carries over a delivery whose effect on each sum matches the change it
      makes to the mall and the chameneos. */
  lemma LedgerStep(w: World, i: int, w': World, out: seq<Envelope>)
    requires Ledger(w) && 0 <= i < |w.inflight|
    requires |w'.chams| == |w.chams| && w'.inflight == w.inflight[..i] + w.inflight[i + 1..] + out
    requires w'.mall.numChameneos == w.mall.numChameneos && w.mall.numFaded <= w'.mall.numFaded
    requires forall k :: 0 <= k < |out| ==> Shape(out[k])
    requires w'.mall.n > 0 ==>
      && w.mall.n > 0 && (forall k :: 0 <= k < |out| ==> !out[k].msg.Stop?)
      && (forall j :: 0 <= j < |w.chams| ==> Live(w'.chams[j]) >= Live(w.chams[j]))
    requires forall j :: 0 <= j < |w.chams| ==>
      Waits(w', j) - Waits(w, j) + Total(out, Holding(j)) - Weight(w.inflight[i], Holding(j))
        == Live(w'.chams[j]) - Live(w.chams[j])
    requires w'.mall.numFaded - w.mall.numFaded + Total(out, Reporting) - Weight(w.inflight[i], Reporting)
      == FadedNum(w'.chams) - FadedNum(w.chams)
    requires w'.mall.sumMeetings - w.mall.sumMeetings + Total(out, Reported) - Weight(w.inflight[i], Reported)
      == FadedSum(w'.chams) - FadedSum(w.chams)
    requires w'.stopped ==> 0 < w'.mall.numFaded == |w.chams|
    ensures Ledger(w')
  {
    TotalStep(w.inflight, i, out, Reporting);
    TotalStep(w.inflight, i, out, Reported);
    HoldersStep(w, i, w', out);
    ShapedStep(w, i, w', out);
  }

  /** The receiver of a message in flight is live, and so is the chameneo a Meet is
      from. */
  lemma HolderLive(w: World, i: int)
    requires Ledger(w) && 0 <= i < |w.inflight| && WellFormed(w, w.inflight[i])
    ensures var e := w.inflight[i];
      && (e.to.ChameneoAddr? ==> w.chams[e.to.id].color != Faded)
      && (e.msg.Meet? ==> w.chams[e.msg.from.id].color != Faded)
  {
    var e := w.inflight[i];
    if e.to.ChameneoAddr? {
      TotalAtLeast(w.inflight, Holding(e.to.id), i);
    }
    if e.msg.Meet? {
      TotalAtLeast(w.inflight, Holding(e.msg.from.id), i);
    }
  }

  /** A Meet reaching the mall while a chameneo waits and meetings are left: the
      waiting chameneo's move and the sender's move both ride on the Meet passed on. */
  lemma MeetPairsLedger(w: World, n0: int, i: int)
    requires Inv(w, n0) && Ledger(w) && 0 <= i < |w.inflight|
    requires w.inflight[i].to.MallAddr? && w.inflight[i].msg.Meet?
    requires w.mall.n > 0 && w.mall.waiting.Some?
    ensures Deliver(w, i).Some? && Ledger(Deliver(w, i).value)
  {
    var e := w.inflight[i];
    assert WellFormed(w, e) && Shape(e);
    var m := w.mall;
    var out := [Envelope(m.waiting.value, e.msg)];
    var w' := World(m.(n := m.n - 1, waiting := None), w.chams, w.inflight[..i] + w.inflight[i + 1..] + out, w.stopped);
    assert Deliver(w, i) == Some(w');
    forall j | 0 <= j < |w.chams|
      ensures Waits(w', j) - Waits(w, j) + Total(out, Holding(j)) - Weight(e, Holding(j)) == 0
    {
      TotalOne(out[0], Holding(j));
    }
    TotalOne(out[0], Reporting);
    TotalOne(out[0], Reported);
    LedgerStep(w, i, w', out);
  }

  /** A Meet reaching the mall while nobody waits and meetings are left: the sender's
      move becomes its place as the waiting chameneo. */
  lemma MeetWaitsLedger(w: World, n0: int, i: int)
    requires Inv(w, n0) && Ledger(w) && 0 <= i < |w.inflight|
    requires w.inflight[i].to.MallAddr? && w.inflight[i].msg.Meet?
    requires w.mall.n > 0 && w.mall.waiting.None?
    ensures Deliver(w, i).Some? && Ledger(Deliver(w, i).value)
  {
    var e := w.inflight[i];
    assert WellFormed(w, e);
    var w' := World(w.mall.(waiting := e.msg.sender), w.chams, w.inflight[..i] + w.inflight[i + 1..] + [], w.stopped);
    assert Deliver(w, i) == Some(w');
    LedgerStep(w, i, w', []);
  }

  /** A Meet reaching the mall with no meetings left: the sender's move becomes the
      Stop it is sent. */
  lemma MeetStopsLedger(w: World, n0: int, i: int)
    requires Inv(w, n0) && Ledger(w) && 0 <= i < |w.inflight|
    requires w.inflight[i].to.MallAddr? && w.inflight[i].msg.Meet?
    requires w.mall.n <= 0
    ensures Deliver(w, i).Some? && Ledger(Deliver(w, i).value)
  {
    var e := w.inflight[i];
    assert WellFormed(w, e);
    var out := [Envelope(e.msg.sender.value, Stop(Some(MallAddr)))];
    var w' := World(w.mall, w.chams, w.inflight[..i] + w.inflight[i + 1..] + out, w.stopped);
    assert Deliver(w, i) == Some(w');
    forall j | 0 <= j < |w.chams|
      ensures Waits(w', j) - Waits(w, j) + Total(out, Holding(j)) - Weight(e, Holding(j)) == 0
    {
      TotalOne(out[0], Holding(j));
    }
    TotalOne(out[0], Reporting);
    TotalOne(out[0], Reported);
    LedgerStep(w, i, w', out);
  }

  /** A MeetingCount reaching the mall moves one report from the messages in flight into
      the mall's `numFaded` and `sumMeetings`; it is never the last report twice. */
  lemma CountToMallLedger(w: World, n0: int, i: int)
    requires Inv(w, n0) && Ledger(w) && 0 <= i < |w.inflight|
    requires w.inflight[i].to.MallAddr? && !w.inflight[i].msg.Meet?
    ensures Deliver(w, i).Some? && Ledger(Deliver(w, i).value)
  {
    var e := w.inflight[i];
    assert Shape(e);
    var r := MallCount(w.mall, e.msg.count);
    var w' := World(r.mall, w.chams, w.inflight[..i] + w.inflight[i + 1..] + [], w.stopped || r.shutdown);
    assert Deliver(w, i) == Some(w');
    TotalAtLeast(w.inflight, Reporting, i);
    FadedBound(w.chams);
    LedgerStep(w, i, w', []);
  }

  /** The ledger carries over a chameneo's step that hands its move on as it should:
      what it sent carries its pending moves and its partner's, it fades only with no
      meetings left, and its fading puts exactly its report in flight. */
  lemma {:induction false} ChameneoStep(w: World, i: int, j0: nat, c: Chameneo, out: seq<Envelope>)
    requires Ledger(w) && 0 <= i < |w.inflight| && w.inflight[i].to == ChameneoAddr(j0) && j0 < |w.chams|
    requires forall k :: 0 <= k < |out| ==> Shape(out[k]) && !out[k].msg.Stop?
    requires Live(c) == 0 ==> w.mall.n <= 0
    requires forall j :: 0 <= j < |w.chams| ==>
      Total(out, Holding(j)) - Weight(w.inflight[i], Holding(j)) == (if j == j0 then Live(c) - Live(w.chams[j0]) else 0)
    requires Total(out, Reporting) == Live(w.chams[j0]) - Live(c)
    requires Total(out, Reported) == FadedMeetings(c) - FadedMeetings(w.chams[j0])
    ensures Ledger(World(w.mall, w.chams[j0 := c], w.inflight[..i] + w.inflight[i + 1..] + out, w.stopped))
  {
    var w' := World(w.mall, w.chams[j0 := c], w.inflight[..i] + w.inflight[i + 1..] + out, w.stopped);
    FadedUpdate(w.chams, j0, c);
    LedgerStep(w, i, w', out);
  }

  /** A Meet reaching a chameneo: its move and its partner's ride on the Change and the
      new Meet it sends, and it stays live. */
  lemma MeetToChameneoLedger(w: World, i: int)
    requires Ledger(w) && 0 <= i < |w.inflight| && WellFormed(w, w.inflight[i])
    requires w.inflight[i].to.ChameneoAddr? && w.inflight[i].msg.Meet?
    requires w.chams[w.inflight[i].to.id].cid == w.inflight[i].to.id
    ensures var j0 := w.inflight[i].to.id;
      var r := ChameneoReceive(w.chams[j0], w.inflight[i].msg);
      r.ChameneoNext? && Ledger(World(w.mall, w.chams[j0 := r.c], w.inflight[..i] + w.inflight[i + 1..] + r.out, w.stopped))
  {
    HolderLive(w, i);
    var e := w.inflight[i];
    assert Shape(e);
    var j0 := e.to.id;
    var r := ChameneoReceive(w.chams[j0], e.msg);
    ComplementFaded(w.chams[j0].color, e.msg.color);
    forall j | 0 <= j < |w.chams|
      ensures Total(r.out, Holding(j)) - Weight(e, Holding(j))
        == (if j == j0 then Live(r.c) - Live(w.chams[j0]) else 0)
    {
      TotalTwo(r.out[0], r.out[1], Holding(j));
    }
    TotalTwo(r.out[0], r.out[1], Reporting);
    TotalTwo(r.out[0], r.out[1], Reported);
    ChameneoStep(w, i, j0, r.c, r.out);
  }

  /** Start or Change reaching a chameneo: its move rides on the Meet it sends, and it
      stays live. */
  lemma MoveOnLedger(w: World, i: int)
    requires Ledger(w) && 0 <= i < |w.inflight| && WellFormed(w, w.inflight[i])
    requires w.inflight[i].to.ChameneoAddr? && (w.inflight[i].msg.Start? || w.inflight[i].msg.Change?)
    requires w.chams[w.inflight[i].to.id].cid == w.inflight[i].to.id
    ensures var j0 := w.inflight[i].to.id;
      var r := ChameneoReceive(w.chams[j0], w.inflight[i].msg);
      r.ChameneoNext? && Ledger(World(w.mall, w.chams[j0 := r.c], w.inflight[..i] + w.inflight[i + 1..] + r.out, w.stopped))
  {
    HolderLive(w, i);
    var e := w.inflight[i];
    assert Shape(e);
    var j0 := e.to.id;
    var r := ChameneoReceive(w.chams[j0], e.msg);
    forall j | 0 <= j < |w.chams|
      ensures Total(r.out, Holding(j)) - Weight(e, Holding(j))
        == (if j == j0 then Live(r.c) - Live(w.chams[j0]) else 0)
    {
      TotalOne(r.out[0], Holding(j));
    }
    TotalOne(r.out[0], Reporting);
    TotalOne(r.out[0], Reported);
    ChameneoStep(w, i, j0, r.c, r.out);
  }

  /** Stop reaching a chameneo: it fades, its move ends, and its report joins the
      messages in flight. */
  lemma StopLedger(w: World, i: int)
    requires Ledger(w) && 0 <= i < |w.inflight| && WellFormed(w, w.inflight[i])
    requires w.inflight[i].to.ChameneoAddr? && w.inflight[i].msg.Stop?
    requires w.chams[w.inflight[i].to.id].cid == w.inflight[i].to.id
    ensures var j0 := w.inflight[i].to.id;
      var r := ChameneoReceive(w.chams[j0], w.inflight[i].msg);
      r.ChameneoNext? && Ledger(World(w.mall, w.chams[j0 := r.c], w.inflight[..i] + w.inflight[i + 1..] + r.out, w.stopped))
  {
    HolderLive(w, i);
    var e := w.inflight[i];
    assert Shape(e);
    var j0 := e.to.id;
    var r := ChameneoReceive(w.chams[j0], e.msg);
    forall j | 0 <= j < |w.chams|
      ensures Total(r.out, Holding(j)) - Weight(e, Holding(j))
        == (if j == j0 then Live(r.c) - Live(w.chams[j0]) else 0)
    {
      TotalOne(r.out[0], Holding(j));
    }
    TotalOne(r.out[0], Reporting);
    TotalOne(r.out[0], Reported);
    ChameneoStep(w, i, j0, r.c, r.out);
  }

  /** Delivering to a chameneo that does not trap replaces it and adds what it sent. */
  lemma DeliverToChameneoIs(w: World, i: int)
    requires 0 <= i < |w.inflight| && w.inflight[i].to.ChameneoAddr? && w.inflight[i].to.id < |w.chams|
    ensures var j0 := w.inflight[i].to.id;
      var r := ChameneoReceive(w.chams[j0], w.inflight[i].msg);
      r.ChameneoNext? ==>
        Deliver(w, i) == Some(World(w.mall, w.chams[j0 := r.c], w.inflight[..i] + w.inflight[i + 1..] + r.out, w.stopped))
  {
  }

  /** Delivering any message in flight keeps the ledger. */
  lemma DeliverKeepsLedger(w: World, n0: int, i: int)
    requires Inv(w, n0) && Ledger(w) && 0 <= i < |w.inflight|
    ensures Deliver(w, i).Some? && Inv(Deliver(w, i).value, n0) && Ledger(Deliver(w, i).value)
  {
    DeliverKeepsInv(w, n0, i);
    var e := w.inflight[i];
    assert WellFormed(w, e);
    assert e.to.ChameneoAddr? ==> w.chams[e.to.id].cid == e.to.id;
    if e.to.ChameneoAddr? {
      DeliverToChameneoIs(w, i);
    }
    if e.to.ChameneoAddr? && e.msg.Meet? {
      MeetToChameneoLedger(w, i);
    } else if e.to.ChameneoAddr? && e.msg.Stop? {
      StopLedger(w, i);
    } else if e.to.ChameneoAddr? {
      assert Shape(e);
      MoveOnLedger(w, i);
    } else if e.msg.Meet? && w.mall.n > 0 && w.mall.waiting.Some? {
      MeetPairsLedger(w, n0, i);
    } else if e.msg.Meet? && w.mall.n > 0 {
      MeetWaitsLedger(w, n0, i);
    } else if e.msg.Meet? {
      MeetStopsLedger(w, n0, i);
    } else {
      CountToMallLedger(w, n0, i);
    }
  }

  /** Every run keeps the ledger, whatever the delivery order. */
  lemma {:induction false} RunKeepsLedger(w: World, n0: int, picks: seq<nat>)
    requires Inv(w, n0) && Ledger(w)
    ensures Run(w, picks).Some? ==> Inv(Run(w, picks).value, n0) && Ledger(Run(w, picks).value)
    decreases |picks|
  {
    if |picks| > 0 && picks[0] < |w.inflight| {
      DeliverKeepsLedger(w, n0, picks[0]);
      RunKeepsLedger(Deliver(w, picks[0]).value, n0, picks[1..]);
    }
  }

  /** A message in flight belongs to a live chameneo or is a report. */
  lemma HeldInFlight(w: World, n0: int)
    requires Inv(w, n0) && Ledger(w)
    ensures |w.inflight| > 0 ==>
      (exists j :: 0 <= j < |w.chams| && w.chams[j].color != Faded) || Total(w.inflight, Reporting) > 0
  {
    if |w.inflight| > 0 {
      var e := w.inflight[0];
      assert Shape(e);
      assert WellFormed(w, w.inflight[0]);
      HolderLive(w, 0);
      if e.to.MallAddr? && e.msg.MeetingCount? {
        TotalAtLeast(w.inflight, Reporting, 0);
      }
    }
  }

  /** Once the system stops, nothing is in flight, every meeting was arranged, and the
      mall's `sumMeetings` is twice the meetings it started with (the comment at line
      132). */
  lemma StoppedMeetings(w: World, n0: int)
    requires Inv(w, n0) && Ledger(w) && w.stopped
    ensures w.inflight == [] && w.mall.n == 0
    ensures w.mall.sumMeetings == SumMeetings(w.chams) == 2 * n0
  {
    FadedBound(w.chams);
    TotalNonneg(w.inflight, Reporting);
    HeldInFlight(w, n0);
    assert w.chams[0].color == Faded;
  }

  /** From the start, every run that reaches shutdown has the mall print twice the
      meetings it was asked to arrange. */
  lemma RunSumMeetings(n: int, numChameneos: nat, picks: seq<nat>)
    requires n >= 0
    ensures var r := Run(Initial(n, numChameneos), picks);
      r.Some? && r.value.stopped ==> r.value.mall.sumMeetings == 2 * n
  {
    var w := Initial(n, numChameneos);
    InitialInv(n, numChameneos);
    InitialLedger(n, numChameneos);
    RunKeepsLedger(w, n, picks);
    if Run(w, picks).Some? && Run(w, picks).value.stopped {
      StoppedMeetings(Run(w, picks).value, n);
    }
  }
}

=== FILE: delivery.dfy ===
/** Sending through a reference (ActorRef.tell and ActorRef.stop, Sources/ActorRef.swift)
    and the cell side of `tell` (ActorCell.tell, Sources/ActorCell.swift).

    The dispatch queue of a cell is abstracted to a FIFO mailbox per cell: `tell`
    appends and returns at once. */
module Delivery {
  import opened Wrappers
  import opened ActorRefs
  import opened Messages

  /** The pending messages of every cell, oldest first. */
  type Mailboxes = map<CellId, seq<Message>>

  /** `ActorCell.tell`: the message joins the end of the cell's queue. */
  function CellTell(boxes: Mailboxes, c: CellId, m: Message): (boxes': Mailboxes)
    ensures boxes'.Keys == boxes.Keys + {c}
    ensures boxes'[c] == (if c in boxes then boxes[c] else []) + [m]
    ensures forall d :: d in boxes && d != c ==> boxes'[d] == boxes[d]
  {
    boxes[c := (if c in boxes then boxes[c] else []) + [m]]
  }

  /** `ActorRef.tell`: a bound reference hands the message to its cell; a reference
      with no cell drops it (only a warning is printed). */
  function Tell(boxes: Mailboxes, r: Ref, m: Message): (boxes': Mailboxes)
    ensures !r.IsBound() ==> boxes' == boxes
    ensures r.IsBound() ==> boxes' == CellTell(boxes, r.cell.value, m)
  {
    match r.cell
    case None => boxes
    case Some(c) => CellTell(boxes, c, m)
  }

  /** `ActorRef.stop(_:)`: a bound reference makes its cell send itself a PoisonPill
      with no sender (ActorCell.stop); an unbound one does nothing. The cell's own
      reference is the bound reference itself. */
  function Stop(boxes: Mailboxes, r: Ref): (boxes': Mailboxes)
    ensures !r.IsBound() ==> boxes' == boxes
  {
    match r.cell
    case None => boxes
    case Some(c) => Tell(boxes, r, NewPoisonPill(None))
  }

  /** A tell through a bound reference adds exactly that message, at the end of that
      cell's mailbox, and touches no other mailbox. */
  lemma TellDeliversOnce(boxes: Mailboxes, r: Ref, m: Message, c: CellId)
    requires r.cell == Some(c)
    ensures var b' := Tell(boxes, r, m);
      && c in b' && |b'[c]| == |(if c in boxes then boxes[c] else [])| + 1
      && b'[c][|b'[c]| - 1] == m
      && b'[c][..|b'[c]| - 1] == (if c in boxes then boxes[c] else [])
      && (forall d :: d != c ==> (d in b' <==> d in boxes) && (d in boxes ==> b'[d] == boxes[d]))
  {
  }

  /** Stopping a bound reference posts exactly one PoisonPill without sender, to the
      reference's own cell. */
  lemma StopSendsOnePoisonPill(boxes: Mailboxes, r: Ref, c: CellId)
    requires r.cell == Some(c)
    ensures var b' := Stop(boxes, r);
      && b'[c] == (if c in boxes then boxes[c] else []) + [PoisonPill(None)]
      && (forall d :: d != c ==> (d in b' <==> d in boxes) && (d in boxes ==> b'[d] == boxes[d]))
  {
  }
}

=== FILE: executors.dfy ===
/** The run-to-completion trampoline (Sources/Executor.swift).

    `putAndRun` enqueues a task; the outermost call (the one that finds `running`
    false) runs queued tasks until the queue is empty, and tasks that call `putAndRun`
    while it runs only enqueue. Tasks are abstract ids and `submits(t)` lists, in order,
    the tasks `t` submits while running; the drain is `Worklists.RunQueue`. */
module Executors {
  import opened Wrappers
  import opened Worklists

  type TaskId = nat

  datatype Executor = Executor(running: bool, queue: seq<TaskId>)

  /** `putAndRun(task:)`. Returns the executor afterwards and the tasks run by this call.
      A reentrant call (while `running`) only enqueues. */
  function PutAndRun(e: Executor, task: TaskId, submits: TaskId -> seq<TaskId>, fuel: nat): (res: Option<(Executor, seq<TaskId>)>)
    ensures e.running ==> res == Some((Executor(true, e.queue + [task]), []))
    ensures !e.running && res.Some? ==> res.value.0 == Executor(false, [])
    ensures !e.running && res.Some? ==> IsRunLog(e.queue + [task], submits, res.value.1)
  {
    var queued := e.queue + [task];
    if e.running then Some((Executor(true, queued), []))
    else
      match RunQueue(queued, submits, fuel)
      case None => None
      case Some(log) => Some((Executor(false, []), log))
  }

  /** The outermost call runs the one complete run of its queue: whenever a complete
      run exists within the fuel, that is what `putAndRun` runs. */
  lemma PutAndRunComplete(e: Executor, task: TaskId, submits: TaskId -> seq<TaskId>, fuel: nat, log: seq<TaskId>)
    requires !e.running && IsRunLog(e.queue + [task], submits, log) && fuel >= |log|
    ensures PutAndRun(e, task, submits, fuel) == Some((Executor(false, []), log))
  {
    RunQueueComplete(e.queue + [task], submits, fuel, log);
  }

  /** Every task run is accounted for: the tasks run are, as a multiset, exactly the
      tasks queued plus everything submitted by the tasks run. So each task put on the
      queue runs exactly once. */
  lemma EachTaskRunsOnce(e: Executor, task: TaskId, submits: TaskId -> seq<TaskId>, fuel: nat)
    requires !e.running && PutAndRun(e, task, submits, fuel).Some?
    ensures var log := PutAndRun(e, task, submits, fuel).value.1;
      multiset(log) == multiset(e.queue) + multiset{task} + multiset(Submitted(log, submits))
  {
  }

  /** The run order is first-in first-out: the tasks already queued run first, in
      order, then the new task. */
  lemma QueuedTasksRunFirst(e: Executor, task: TaskId, submits: TaskId -> seq<TaskId>, fuel: nat)
    requires !e.running && PutAndRun(e, task, submits, fuel).Some?
    ensures var log := PutAndRun(e, task, submits, fuel).value.1;
      |log| >= |e.queue| + 1 && log[..|e.queue| + 1] == e.queue + [task]
  {
    var log := PutAndRun(e, task, submits, fuel).value.1;
    assert log == (e.queue + [task]) + Submitted(log, submits);
  }

  /** When no task submits anything, the outermost call runs exactly the queue. */
  lemma NoSubmissionsRunsQueue(queue: seq<TaskId>, submits: TaskId -> seq<TaskId>, fuel: nat)
    requires forall t :: submits(t) == []
    requires fuel >= |queue|
    ensures RunQueue(queue, submits, fuel) == Some(queue)
    decreases |queue|
  {
    if |queue| > 0 {
      assert queue[1..] + submits(queue[0]) == queue[1..];
      NoSubmissionsRunsQueue(queue[1..], submits, fuel - 1);
      assert [queue[0]] + queue[1..] == queue;
    }
  }
}

=== FILE: hashtable.dfy ===
/** The open-addressing hash table (Sources/Hashtable.swift).

    Four parallel arrays of `tableSize` slots hold keys, values, occupancy flags and,
    per home slot, the list of slots where keys with that home were placed instead
    ("relocated"). A key's home is `hashValue & (tableSize - 1)`; a collision probes
    `home, home+1, home+1+2, ...` (triangular offsets). Removing a key moves a relocated
    key back into the hole, and so on down the chain. Every operation returns the new
    table instead of mutating it, and the hash function is a parameter. */
module Hashtables {
  import opened Wrappers
  import opened ProbeMath

  type Hash<!K> = K -> int

  datatype Table<K, V> = Table(
    size: nat,                      // tableSize
    elementNum: int,                // the stored count
    emptyKey: K,                    // the key `set` refuses and fresh slots hold
    dummyValue: V,                  // the value fresh slots hold
    keys: seq<K>,
    values: seq<V>,
    occupied: seq<bool>,
    relocatedTo: seq<seq<int>>)

  /** The number of `true` flags. */
  function CountTrue(s: seq<bool>): (c: nat)
    ensures c <= |s|
  {
    if |s| == 0 then 0 else CountTrue(s[..|s| - 1]) + (if s[|s| - 1] then 1 else 0)
  }

  /** The shape every table keeps: four arrays of `size` slots, a power-of-two size of
      at least 8, and relocation entries that are slot numbers. */
  ghost predicate Shaped<K, V>(t: Table<K, V>)
  {
    && |t.keys| == t.size && |t.values| == t.size
    && |t.occupied| == t.size && |t.relocatedTo| == t.size
    && IsPow2(t.size) && t.size >= 8
    && (forall g, j :: 0 <= g < t.size && 0 <= j < |t.relocatedTo[g]| ==> 0 <= t.relocatedTo[g][j] < t.size)
  }

  /** `elementNum` counts the occupied slots, and `set` keeps it below `size - 1`. */
  ghost predicate Counted<K, V>(t: Table<K, V>)
  {
    t.elementNum == CountTrue(t.occupied) && t.elementNum < t.size - 1
  }

  /** `key.hashValue & (tableSize - 1)`: for a power-of-two size this is the
      non-negative remainder, also for negative hash values in two's complement. */
  function Home<K>(h: Hash<K>, key: K, n: int): (i: int)
    requires n > 0
    ensures 0 <= i < n
  {
    h(key) % n
  }

  // ---------------------------------------------------------------------------
  // Sizes

  /** `while tableSize < count { tableSize <<= 1 }`: the first doubling of `s` that
      reaches `c`. */
  function GrowTo(s: nat, c: int): (r: nat)
    requires s >= 1
    ensures r >= s && r >= c
    ensures IsPow2(s) ==> IsPow2(r)
    ensures r == s || (r % 2 == 0 && s <= r / 2 < c)
    decreases if c > s then c - s else 0
  {
    if s < c then GrowTo(2 * s, c) else s
  }

  /** A table of `n` fresh slots. */
  function Blank<K, V>(n: nat, emptyKey: K, dummyValue: V): (t: Table<K, V>)
    requires IsPow2(n) && n >= 8
    ensures Shaped(t) && t.size == n && t.elementNum == 0 == CountTrue(t.occupied)
    ensures forall i :: 0 <= i < n ==> !t.occupied[i] && t.relocatedTo[i] == []
    ensures t.emptyKey == emptyKey && t.dummyValue == dummyValue
  {
    CountTrueNone(seq(n, _ => false));
    Table(n, 0, emptyKey, dummyValue, seq(n, _ => emptyKey), seq(n, _ => dummyValue),
      seq(n, _ => false), seq(n, _ => []))
  }

  /** `init(count:emptyKey:dummyValue:)`: the size is the smallest `8 * 2^k` that is
      at least `count`, and no slot is in use. */
  function Init<K, V>(count: int, emptyKey: K, dummyValue: V): (t: Table<K, V>)
    ensures Shaped(t) && t.elementNum == 0 == CountTrue(t.occupied)
    ensures t.emptyKey == emptyKey && t.dummyValue == dummyValue
    ensures t.size >= count && (t.size == 8 || t.size / 2 < count)
    ensures forall i :: 0 <= i < t.size ==> !t.occupied[i] && t.relocatedTo[i] == []
  {
    Blank(GrowTo(8, count), emptyKey, dummyValue)
  }

  /** `count`. */
  function Count<K, V>(t: Table<K, V>): int
  {
    t.elementNum
  }

  /** `isEmpty()`. */
  function IsEmpty<K, V>(t: Table<K, V>): (b: bool)
    ensures b <==> t.elementNum == 0
  {
    t.elementNum == 0
  }

  // ---------------------------------------------------------------------------
  // Probing

  /** Where the probe loop of `set` stops: at a free slot, at a slot holding the key,
      or after `size` probes without either. */
  datatype ProbeResult = Free(index: int, probe: nat) | Found(index: int, probe: nat) | Full

  /** Every slot on the probe sequence from `home`, for probe counts `from <= q < to`,
      is in use by a key other than `key`. */
  ghost predicate ProbedPast<K, V>(t: Table<K, V>, key: K, home: int, from: nat, to: nat)
    requires Shaped(t)
  {
    forall q :: from <= q < to && q < t.size ==>
      t.occupied[ProbeIndex(home, q, t.size)] && t.keys[ProbeIndex(home, q, t.size)] != key
  }

  /** The probe loop of `set` (lines 85-117) from probe count `probe` at `index`. */
  function ProbeSet<K(==), V>(t: Table<K, V>, key: K, home: int, index: int, probe: nat): (r: ProbeResult)
    requires Shaped(t) && 0 <= home < t.size && probe < t.size
    requires index == ProbeIndex(home, probe, t.size)
    ensures r.Free? ==>
      && probe <= r.probe < t.size && r.index == ProbeIndex(home, r.probe, t.size)
      && !t.occupied[r.index] && ProbedPast(t, key, home, probe, r.probe)
    ensures r.Found? ==>
      && probe <= r.probe < t.size && r.index == ProbeIndex(home, r.probe, t.size)
      && t.occupied[r.index] && t.keys[r.index] == key && ProbedPast(t, key, home, probe, r.probe)
    ensures r.Full? ==> ProbedPast(t, key, home, probe, t.size)
    decreases t.size - probe
  {
    if !t.occupied[index] then Free(index, probe)
    else if t.keys[index] == key then Found(index, probe)
    else if probe + 1 >= t.size then Full
    else
      ProbeStep(home, probe, t.size);
      var r := ProbeSet(t, key, home, (index + (probe + 1)) % t.size, probe + 1);
      ProbedPastExtend(t, key, home, probe, if r.Full? then t.size else r.probe);
      r
  }

  /** A slot in use by another key extends a run of such slots one probe back. */
  lemma ProbedPastExtend<K, V>(t: Table<K, V>, key: K, home: int, probe: nat, to: nat)
    requires Shaped(t) && probe < t.size
    requires t.occupied[ProbeIndex(home, probe, t.size)] && t.keys[ProbeIndex(home, probe, t.size)] != key
    requires ProbedPast(t, key, home, probe + 1, to)
    ensures ProbedPast(t, key, home, probe, to)
  {
  }

  /** The probe loop of `enlarge(toSize:)` (lines 251-262): only occupancy is checked.
      The result is the probe count where it stopped, `size` when it found nothing. */
  function ProbeFree<K, V>(t: Table<K, V>, home: int, index: int, probe: nat): (p: nat)
    requires Shaped(t) && 0 <= home < t.size && probe <= t.size
    requires index == ProbeIndex(home, probe, t.size)
    ensures probe <= p <= t.size
    ensures p < t.size ==> !t.occupied[ProbeIndex(home, p, t.size)]
    ensures forall q :: probe <= q < p ==> t.occupied[ProbeIndex(home, q, t.size)]
    decreases t.size - probe
  {
    if probe >= t.size then probe
    else if !t.occupied[index] then probe
    else
      ProbeStep(home, probe, t.size);
      ProbeFree(t, home, (index + (probe + 1)) % t.size, probe + 1)
  }

  /** `set`'s probe from the home slot, before any probing. */
  function SetProbe<K(==), V>(t: Table<K, V>, key: K, home: int): (r: ProbeResult)
    requires Shaped(t) && 0 <= home < t.size
    ensures r == ProbeSet(t, key, home, ProbeIndex(home, 0, t.size), 0)
  {
    ProbeZero(home, t.size);
    ProbeSet(t, key, home, home, 0)
  }

  /** `enlarge`'s probe from the home slot, before any probing. */
  function FreeProbe<K, V>(t: Table<K, V>, home: int): (p: nat)
    requires Shaped(t) && 0 <= home < t.size
    ensures p == ProbeFree(t, home, ProbeIndex(home, 0, t.size), 0)
  {
    ProbeZero(home, t.size);
    ProbeFree(t, home, home, 0)
  }

  /** A free slot anywhere means the probe sequence from any home finds one within
      `size` probes: the triangular offsets reach every slot. */
  lemma FreeSlotReached<K, V>(t: Table<K, V>, home: int, x: int)
    requires Shaped(t) && 0 <= home < t.size && 0 <= x < t.size && !t.occupied[x]
    ensures FreeProbe(t, home) < t.size
  {
    ProbeCovers(home, t.size, x);
    var q :| 0 <= q < t.size && ProbeIndex(home, q, t.size) == x;
    ProbeZero(home, t.size);
  }

  /** With fewer pairs than slots, the probe of `enlarge` stops inside the table. */
  lemma FreeProbeFinds<K, V>(t: Table<K, V>, home: int)
    requires Shaped(t) && 0 <= home < t.size && CountTrue(t.occupied) < t.size
    ensures FreeProbe(t, home) < t.size
  {
    CountTrueHasFalse(t.occupied);
    var x :| 0 <= x < t.size && !t.occupied[x];
    FreeSlotReached(t, home, x);
  }

  /** With fewer pairs than slots, the probe of `set` never runs out. */
  lemma SetProbeNeverFull<K, V>(t: Table<K, V>, key: K, home: int)
    requires Shaped(t) && 0 <= home < t.size && CountTrue(t.occupied) < t.size
    ensures !SetProbe(t, key, home).Full?
  {
    CountTrueHasFalse(t.occupied);
    var x :| 0 <= x < t.size && !t.occupied[x];
    ProbeCovers(home, t.size, x);
  }

  lemma {:induction false} CountTrueHasFalse(s: seq<bool>)
    requires CountTrue(s) < |s|
    ensures exists i :: 0 <= i < |s| && !s[i]
  {
    if s[|s| - 1] {
      CountTrueHasFalse(s[..|s| - 1]);
      var i :| 0 <= i < |s| - 1 && !s[..|s| - 1][i];
      assert !s[i];
    }
  }

  lemma {:induction false} CountTrueNone(s: seq<bool>)
    requires forall i :: 0 <= i < |s| ==> !s[i]
    ensures CountTrue(s) == 0
  {
    if |s| > 0 {
      CountTrueNone(s[..|s| - 1]);
    }
  }

  lemma {:induction false} CountTrueUpdate(s: seq<bool>, i: int, b: bool)
    requires 0 <= i < |s|
    ensures CountTrue(s[i := b]) == CountTrue(s) - (if s[i] then 1 else 0) + (if b then 1 else 0)
  {
    var n := |s|;
    if i < n - 1 {
      CountTrueUpdate(s[..n - 1], i, b);
      assert s[i := b][..n - 1] == s[..n - 1][i := b];
    } else {
      assert s[i := b][..n - 1] == s[..n - 1];
    }
  }

  // ---------------------------------------------------------------------------
  // Insertion

  /** The pair stored at free slot `i`, reached after `p` probes from `home`: slot `i`
      now holds the pair and is in use, the relocation list of `home` gains `i` exactly
      when `p != 0`, the count grows by one, and nothing else changes. */
  ghost predicate StoredAt<K, V>(t: Table<K, V>, t': Table<K, V>, key: K, value: V, home: int, i: int, p: nat)
    requires Shaped(t) && 0 <= home < t.size && 0 <= i < t.size
  {
    && t'.size == t.size && t'.emptyKey == t.emptyKey && t'.dummyValue == t.dummyValue
    && t'.keys == t.keys[i := key] && t'.values == t.values[i := value]
    && t'.occupied == t.occupied[i := true]
    && t'.relocatedTo == (if p != 0 then t.relocatedTo[home := t.relocatedTo[home] + [i]] else t.relocatedTo)
    && t'.elementNum == t.elementNum + 1
  }

  function Place<K, V>(t: Table<K, V>, key: K, value: V, home: int, i: int, p: nat): (t': Table<K, V>)
    requires Shaped(t) && 0 <= home < t.size && 0 <= i < t.size && !t.occupied[i]
    requires t.elementNum == CountTrue(t.occupied)
    ensures Shaped(t') && StoredAt(t, t', key, value, home, i, p)
    ensures t'.elementNum == CountTrue(t'.occupied)
  {
    CountTrueUpdate(t.occupied, i, true);
    t.(keys := t.keys[i := key], values := t.values[i := value],
       occupied := t.occupied[i := true],
       relocatedTo := if p != 0 then t.relocatedTo[home := t.relocatedTo[home] + [i]] else t.relocatedTo,
       elementNum := t.elementNum + 1)
  }

  /** The insertion `enlarge(toSize:)` performs for one pair (lines 251-271): the first
      free slot on the pair's probe sequence. With fewer pairs than slots the probe
      always stops inside the table, so the assertion at line 263 holds. */
  function FreeInsert<K, V>(t: Table<K, V>, h: Hash<K>, key: K, value: V): (t': Table<K, V>)
    requires Shaped(t) && t.elementNum == CountTrue(t.occupied) && t.elementNum < t.size
    ensures Shaped(t') && t'.elementNum == CountTrue(t'.occupied) == t.elementNum + 1
    ensures t'.size == t.size && t'.emptyKey == t.emptyKey && t'.dummyValue == t.dummyValue
    ensures var home := Home(h, key, t.size);
      var p := FreeProbe(t, home);
      p < t.size && StoredAt(t, t', key, value, home, ProbeIndex(home, p, t.size), p)
  {
    var home := Home(h, key, t.size);
    FreeProbeFinds(t, home);
    var p := FreeProbe(t, home);
    Place(t, key, value, home, ProbeIndex(home, p, t.size), p)
  }

  /** Re-inserting the pairs of slots `i ..` of `src` into `nt`, in slot order. */
  function Rehash<K, V>(src: Table<K, V>, h: Hash<K>, nt: Table<K, V>, i: nat): (r: Table<K, V>)
    requires Shaped(src) && src.elementNum == CountTrue(src.occupied) && src.elementNum < src.size
    requires Shaped(nt) && nt.size >= src.size && i <= src.size
    requires nt.elementNum == CountTrue(nt.occupied) == CountTrue(src.occupied[..i])
    requires nt.emptyKey == src.emptyKey && nt.dummyValue == src.dummyValue
    ensures Shaped(r) && r.size == nt.size
    ensures r.elementNum == CountTrue(r.occupied) == src.elementNum
    ensures r.emptyKey == src.emptyKey && r.dummyValue == src.dummyValue
    decreases src.size - i
  {
    if i == src.size then
      assert src.occupied[..i] == src.occupied;
      nt
    else
      Rehash(src, h, RehashSlot(src, h, nt, i), i + 1)
  }

  /** One step of the re-insertion: slot `i` of `src`, if in use, goes into `nt`. */
  function RehashSlot<K, V>(src: Table<K, V>, h: Hash<K>, nt: Table<K, V>, i: nat): (r: Table<K, V>)
    requires Shaped(src) && src.elementNum == CountTrue(src.occupied) && src.elementNum < src.size
    requires Shaped(nt) && nt.size >= src.size && i < src.size
    requires nt.elementNum == CountTrue(nt.occupied) == CountTrue(src.occupied[..i])
    ensures Shaped(r) && r.size == nt.size
    ensures r.elementNum == CountTrue(r.occupied) == CountTrue(src.occupied[..i + 1])
    ensures r.emptyKey == nt.emptyKey && r.dummyValue == nt.dummyValue
  {
    CountPrefixBound(src.occupied, i);
    if src.occupied[i] then FreeInsert(nt, h, src.keys[i], src.values[i]) else nt
  }

  lemma {:induction false} CountPrefixBound(s: seq<bool>, i: nat)
    requires i < |s|
    ensures CountTrue(s[..i]) + (if s[i] then 1 else 0) == CountTrue(s[..i + 1]) <= CountTrue(s)
    decreases |s| - i
  {
    assert s[..i + 1][..i] == s[..i];
    if i + 1 < |s| {
      CountPrefixBound(s, i + 1);
    } else {
      assert s[..i + 1] == s;
    }
  }

  /** `enlarge(toSize:)`: grow the size by doublings until it reaches `toSize`, then
      re-insert every pair into fresh arrays, in slot order. */
  function EnlargeTo<K, V>(t: Table<K, V>, h: Hash<K>, toSize: int): (t': Table<K, V>)
    requires Shaped(t) && t.elementNum == CountTrue(t.occupied) && t.elementNum < t.size
    ensures Shaped(t') && t'.size == GrowTo(t.size, toSize)
    ensures t'.elementNum == t.elementNum == CountTrue(t'.occupied)
    ensures t'.emptyKey == t.emptyKey && t'.dummyValue == t.dummyValue
  {
    var n := GrowTo(t.size, toSize);
    assert t.occupied[..0] == [];
    Rehash(t, h, Blank(n, t.emptyKey, t.dummyValue), 0)
  }

  /** `enlarge()`: four times the size. */
  function Enlarge<K, V>(t: Table<K, V>, h: Hash<K>): (t': Table<K, V>)
    requires Shaped(t) && t.elementNum == CountTrue(t.occupied) && t.elementNum < t.size
    ensures Shaped(t') && t'.size == 4 * t.size
    ensures t'.elementNum == t.elementNum == CountTrue(t'.occupied)
  {
    assert GrowTo(2 * t.size, 4 * t.size) == GrowTo(4 * t.size, 4 * t.size);
    EnlargeTo(t, h, 4 * t.size)
  }

  /** Lines 94-99: after storing a new pair, grow the table when the count reaches
      `size - 1`. */
  function GrowIfFull<K, V>(t: Table<K, V>, h: Hash<K>): (t': Table<K, V>)
    requires Shaped(t) && t.elementNum == CountTrue(t.occupied) && t.elementNum < t.size
    ensures Shaped(t') && Counted(t') && t'.elementNum == t.elementNum
    ensures t.elementNum < t.size - 1 ==> t' == t
  {
    if t.elementNum >= t.size - 1 then Enlarge(t, h) else t
  }

  /** `set(key:value:)` as written. A key equal to `emptyKey` is refused. Otherwise the
      probe sequence from the key's home stops at the first free slot, which receives
      the pair (result true), or at the first slot holding the key, whose value is
      overwritten (result false). The probe never runs out (branch 3a, lines 111-115,
      is unreachable), because `Counted` keeps a slot free. */
  function SetAsWritten<K(==), V>(t: Table<K, V>, h: Hash<K>, key: K, value: V): (res: (Table<K, V>, bool))
    requires Shaped(t) && Counted(t)
    ensures Shaped(res.0) && Counted(res.0)
    ensures key == t.emptyKey ==> res == (t, false)
    ensures key != t.emptyKey ==>
      var home := Home(h, key, t.size);
      var r := SetProbe(t, key, home);
      && !r.Full?
      && (res.1 <==> r.Free?)
      && (r.Free? ==> res.0.elementNum == t.elementNum + 1)
      && (r.Found? ==> res.0 == t.(values := t.values[r.index := value]))
  {
    if key == t.emptyKey then (t, false)
    else
      var home := Home(h, key, t.size);
      SetProbeNeverFull(t, key, home);
      match SetProbe(t, key, home)
      case Free(i, p) =>
        (GrowIfFull(Place(t, key, value, home, i, p), h), true)
      case Found(i, _) =>
        (t.(values := t.values[i := value]), false)
      case Full =>
        assert false;
        (t, false)
  }

  // ---------------------------------------------------------------------------
  // Lookup and removal

  /** The first position `>= from` in `list` whose slot holds `key`, or -1. */
  function FindIn<K(==), V>(t: Table<K, V>, key: K, list: seq<int>, from: nat): (pos: int)
    requires Shaped(t) && forall j :: 0 <= j < |list| ==> 0 <= list[j] < t.size
    ensures pos == -1 ==> forall j :: from <= j < |list| ==> t.keys[list[j]] != key
    ensures pos != -1 ==>
      && from <= pos < |list| && t.keys[list[pos]] == key
      && forall j :: from <= j < pos ==> t.keys[list[j]] != key
    decreases |list| - from
  {
    if from >= |list| then -1
    else if t.keys[list[from]] == key then from
    else FindIn(t, key, list, from + 1)
  }

  /** `s.remove(at: i)`. */
  function RemoveAt(s: seq<int>, i: int): (s': seq<int>)
    requires 0 <= i < |s|
    ensures |s'| == |s| - 1
    ensures forall j :: 0 <= j < i ==> s'[j] == s[j]
    ensures forall j :: i <= j < |s'| ==> s'[j] == s[j + 1]
  {
    s[..i] + s[i + 1..]
  }

  /** `findIndex(key:remove:)`: an empty home slot means absent; the home slot holding
      the key is the answer; otherwise the home's relocation list is scanned in order.
      With `remove`, the matching relocation entry is dropped from the list. The result
      is the slot, or -1, and the table afterwards. */
  function FindIndex<K(==), V>(t: Table<K, V>, h: Hash<K>, key: K, remove: bool): (res: (int, Table<K, V>))
    requires Shaped(t)
    ensures Shaped(res.1)
    ensures res.0 == -1 || (0 <= res.0 < t.size && t.keys[res.0] == key)
    ensures res.1.keys == t.keys && res.1.values == t.values && res.1.occupied == t.occupied
    ensures res.1.size == t.size && res.1.elementNum == t.elementNum
    ensures res.1.emptyKey == t.emptyKey && res.1.dummyValue == t.dummyValue
    ensures !remove || res.0 == -1 ==> res.1 == t
    ensures var home := Home(h, key, t.size);
      && (!t.occupied[home] ==> res.0 == -1)
      && (t.occupied[home] && t.keys[home] == key ==> res.0 == home && res.1 == t)
  {
    var home := Home(h, key, t.size);
    if !t.occupied[home] then (-1, t)
    else if t.keys[home] == key then (home, t)
    else
      var list := t.relocatedTo[home];
      var pos := FindIn(t, key, list, 0);
      if pos == -1 then (-1, t)
      else if remove then (list[pos], t.(relocatedTo := t.relocatedTo[home := RemoveAt(list, pos)]))
      else (list[pos], t)
  }

  /** `get(key:)`. */
  function Get<K(==), V>(t: Table<K, V>, h: Hash<K>, key: K): (r: Option<V>)
    requires Shaped(t)
    ensures r.Some? <==> FindIndex(t, h, key, false).0 != -1
    ensures r.Some? ==> r.value == t.values[FindIndex(t, h, key, false).0]
  {
    var i := FindIndex(t, h, key, false).0;
    if i != -1 then Some(t.values[i]) else None
  }

  /** The total length of the relocation lists: the measure of the hole-filling loop. */
  function RelocTotal(r: seq<seq<int>>): nat
  {
    if |r| == 0 then 0 else RelocTotal(r[..|r| - 1]) + |r[|r| - 1]|
  }

  lemma {:induction false} RelocTotalDrop(r: seq<seq<int>>, g: int)
    requires 0 <= g < |r| && |r[g]| > 0
    ensures RelocTotal(r[g := r[g][..|r[g]| - 1]]) == RelocTotal(r) - 1
  {
    var n := |r|;
    var r' := r[g := r[g][..|r[g]| - 1]];
    if g < n - 1 {
      assert r'[..n - 1] == r[..n - 1][g := r[g][..|r[g]| - 1]];
      RelocTotalDrop(r[..n - 1], g);
    } else {
      assert r'[..n - 1] == r[..n - 1];
    }
  }

  /** The loop of `remove` (lines 183-194): while the hole's relocation list is not
      empty, move its last relocated pair into the hole and continue at the slot it came
      from; finally mark the last hole free. */
  function FillHole<K, V>(t: Table<K, V>, index: int): (t': Table<K, V>)
    requires Shaped(t) && 0 <= index < t.size
    ensures Shaped(t') && t'.size == t.size && t'.elementNum == t.elementNum
    ensures t'.emptyKey == t.emptyKey && t'.dummyValue == t.dummyValue
    decreases RelocTotal(t.relocatedTo)
  {
    var list := t.relocatedTo[index];
    if |list| == 0 then t.(occupied := t.occupied[index := false])
    else
      var j := list[|list| - 1];
      RelocTotalDrop(t.relocatedTo, index);
      FillHole(t.(keys := t.keys[index := t.keys[j]], values := t.values[index := t.values[j]],
                  relocatedTo := t.relocatedTo[index := list[..|list| - 1]]), j)
  }

  /** `remove(key:)`: an absent key leaves the table as it is (result false); a present
      one is taken out of its relocation entry, the count drops by one, and the hole is
      filled (result true). */
  function Remove<K(==), V>(t: Table<K, V>, h: Hash<K>, key: K): (res: (Table<K, V>, bool))
    requires Shaped(t)
    ensures Shaped(res.0) && res.0.size == t.size
    ensures res.1 <==> FindIndex(t, h, key, false).0 != -1
    ensures !res.1 ==> res.0 == t
    ensures res.1 ==> res.0.elementNum == t.elementNum - 1
  {
    var (i, t1) := FindIndex(t, h, key, true);
    if i == -1 then (t, false)
    else (FillHole(t1.(elementNum := t1.elementNum - 1), i), true)
  }

  /** `set(key:value:)` with the lookup done first: a key that `findIndex` finds has its
      value overwritten in place; any other key goes through the code as written. */
  function Set<K(==), V>(t: Table<K, V>, h: Hash<K>, key: K, value: V): (res: (Table<K, V>, bool))
    requires Shaped(t) && Counted(t)
    ensures Shaped(res.0) && Counted(res.0)
    ensures key == t.emptyKey ==> res == (t, false)
    ensures key != t.emptyKey && FindIndex(t, h, key, false).0 != -1 ==>
      res == (t.(values := t.values[FindIndex(t, h, key, false).0 := value]), false)
    ensures key != t.emptyKey && FindIndex(t, h, key, false).0 == -1 ==> res == SetAsWritten(t, h, key, value)
  {
    if key == t.emptyKey then (t, false)
    else
      var i := FindIndex(t, h, key, false).0;
      if i != -1 then (t.(values := t.values[i := value]), false)
      else SetAsWritten(t, h, key, value)
  }

  /** `subscript(key:)` assignment as written: a value goes through `set` as written, nil
      through `remove`. A value for emptyKey is refused; for any other key the count
      stays the same (the probe found the key) or grows by one (a new slot was filled);
      nil changes the table exactly when `findIndex` finds the key, and then the count
      drops by one. */
  function SubscriptSet<K(==), V>(t: Table<K, V>, h: Hash<K>, key: K, newValue: Option<V>): (t': Table<K, V>)
    requires Shaped(t) && Counted(t)
    ensures Shaped(t') && t'.emptyKey == t.emptyKey
    ensures newValue.Some? ==> Counted(t')
    ensures newValue.Some? && key == t.emptyKey ==> t' == t
    ensures newValue.Some? && key != t.emptyKey ==> t.elementNum <= t'.elementNum <= t.elementNum + 1
    ensures newValue.None? ==> (t' == t <==> FindIndex(t, h, key, false).0 == -1)
    ensures newValue.None? && t' != t ==> t'.elementNum == t.elementNum - 1
  {
    match newValue
    case Some(v) => SetAsWritten(t, h, key, v).0
    case None => Remove(t, h, key).0
  }

  /** Subscript assignment with the corrected `set`. */
  function SubscriptSetCorrected<K(==), V>(t: Table<K, V>, h: Hash<K>, key: K, newValue: Option<V>): (t': Table<K, V>)
    requires Shaped(t) && Counted(t)
    ensures Shaped(t') && t'.emptyKey == t.emptyKey
    ensures newValue.Some? ==> Counted(t')
    ensures newValue.Some? && key == t.emptyKey ==> t' == t
    ensures newValue.Some? && key != t.emptyKey && FindIndex(t, h, key, false).0 != -1 ==>
      t'.elementNum == t.elementNum && Get(t', h, key) == newValue
    ensures newValue.None? ==> t' == SubscriptSet(t, h, key, None)
  {
    match newValue
    case Some(v) => Set(t, h, key, v).0
    case None => Remove(t, h, key).0
  }

  /** The number of entries in all relocation lists. */
  function Collisions<K, V>(t: Table<K, V>): nat
  {
    RelocTotal(t.relocatedTo)
  }

  /** `collisionRate()`: relocated entries per hundred stored pairs, truncated. The
      division traps on an empty table. */
  function CollisionRate<K, V>(t: Table<K, V>): (rate: int)
    requires t.elementNum > 0
    ensures rate * t.elementNum <= Collisions(t) * 100 < (rate + 1) * t.elementNum
  {
    Collisions(t) * 100 / t.elementNum
  }
}

=== FILE: hashtable_invariants.dfy ===
/** The representation invariant of the hash table and its abstraction to a map
    (Sources/Hashtable.swift).

    Every stored pair sits at its home slot or in a slot listed in its home's
    relocation list; the lists name only slots in use whose key has that home; no slot
    is listed twice; a non-empty list belongs to a home slot in use; keys are distinct
    and never `emptyKey`. While `remove` moves pairs down a chain, one slot (the
    "hole") is exempt; `-1` means no hole. */
module HashtableInvariants {
  import opened Wrappers
  import opened ProbeMath
  import opened Hashtables

  /** Slot `i` is in use and is not the hole. */
  ghost predicate Live<K, V>(t: Table<K, V>, hole: int, i: int)
    requires Shaped(t) && 0 <= i < t.size
  {
    t.occupied[i] && i != hole
  }

  /** Every live pair is at its home slot or listed in its home's relocation list. */
  ghost predicate SlotsPlaced<K, V>(t: Table<K, V>, h: Hash<K>, hole: int)
    requires Shaped(t)
  {
    forall i :: 0 <= i < t.size && Live(t, hole, i) ==>
      Home(h, t.keys[i], t.size) == i || i in t.relocatedTo[Home(h, t.keys[i], t.size)]
  }

  /** Every relocation entry names a live slot, away from the list's home, whose key
      has that home. */
  ghost predicate EntriesValid<K, V>(t: Table<K, V>, h: Hash<K>, hole: int)
    requires Shaped(t)
  {
    forall g, j :: 0 <= g < t.size && 0 <= j < |t.relocatedTo[g]| ==>
      && Live(t, hole, t.relocatedTo[g][j])
      && t.relocatedTo[g][j] != g
      && Home(h, t.keys[t.relocatedTo[g][j]], t.size) == g
  }

  /** No relocation list names a slot twice. */
  ghost predicate EntriesDistinct<K, V>(t: Table<K, V>)
    requires Shaped(t)
  {
    forall g, a, b :: 0 <= g < t.size && 0 <= a < b < |t.relocatedTo[g]| ==>
      t.relocatedTo[g][a] != t.relocatedTo[g][b]
  }

  /** A home with relocated keys is itself in use. */
  ghost predicate HomesInUse<K, V>(t: Table<K, V>)
    requires Shaped(t)
  {
    forall g :: 0 <= g < t.size && |t.relocatedTo[g]| > 0 ==> t.occupied[g]
  }

  /** Live slots hold distinct keys, none of them `emptyKey`. */
  ghost predicate KeysDistinct<K, V>(t: Table<K, V>, hole: int)
    requires Shaped(t)
  {
    && (forall i, j :: 0 <= i < j < t.size && Live(t, hole, i) && Live(t, hole, j) ==> t.keys[i] != t.keys[j])
    && (forall i :: 0 <= i < t.size && Live(t, hole, i) ==> t.keys[i] != t.emptyKey)
  }

  /** The invariant with slot `hole` exempt. */
  ghost predicate Laid<K, V>(t: Table<K, V>, h: Hash<K>, hole: int)
    requires Shaped(t)
  {
    SlotsPlaced(t, h, hole) && EntriesValid(t, h, hole) && EntriesDistinct(t)
    && HomesInUse(t) && KeysDistinct(t, hole)
  }

  /** The invariant every table keeps between operations, apart from the bound
      `elementNum < size - 1`. */
  ghost predicate Consistent<K, V>(t: Table<K, V>, h: Hash<K>)
  {
    Shaped(t) && t.elementNum == CountTrue(t.occupied) && Laid(t, h, -1)
  }

  /** The full invariant. */
  ghost predicate Valid<K, V>(t: Table<K, V>, h: Hash<K>)
  {
    Consistent(t, h) && Counted(t)
  }

  // ---------------------------------------------------------------------------
  // Abstraction

  /** The pairs of the live slots below `n`. */
  ghost function AbsUpTo<K, V>(t: Table<K, V>, n: nat, hole: int): map<K, V>
    requires Shaped(t) && n <= t.size
  {
    if n == 0 then map[]
    else if Live(t, hole, n - 1) then AbsUpTo(t, n - 1, hole)[t.keys[n - 1] := t.values[n - 1]]
    else AbsUpTo(t, n - 1, hole)
  }

  /** The map a table stands for. */
  ghost function Abs<K, V>(t: Table<K, V>): map<K, V>
    requires Shaped(t)
  {
    AbsUpTo(t, t.size, -1)
  }

  /** The map of the live slots other than the hole. */
  ghost function AbsBut<K, V>(t: Table<K, V>, hole: int): map<K, V>
    requires Shaped(t)
  {
    AbsUpTo(t, t.size, hole)
  }

  /** `key` is held by a live slot below `n`. */
  ghost predicate HeldBelow<K, V>(t: Table<K, V>, hole: int, key: K, n: nat)
    requires Shaped(t) && n <= t.size
  {
    exists i :: 0 <= i < n && Live(t, hole, i) && t.keys[i] == key
  }

  lemma {:induction false} AbsUpToKeys<K, V>(t: Table<K, V>, n: nat, hole: int)
    requires Shaped(t) && n <= t.size
    ensures forall k :: k in AbsUpTo(t, n, hole) <==> HeldBelow(t, hole, k, n)
  {
    if n > 0 {
      AbsUpToKeys(t, n - 1, hole);
      forall k
        ensures k in AbsUpTo(t, n, hole) <==> HeldBelow(t, hole, k, n)
      {
        if HeldBelow(t, hole, k, n) && !HeldBelow(t, hole, k, n - 1) {
          var i :| 0 <= i < n && Live(t, hole, i) && t.keys[i] == k;
          assert i == n - 1;
        }
        if HeldBelow(t, hole, k, n - 1) {
          var i :| 0 <= i < n - 1 && Live(t, hole, i) && t.keys[i] == k;
          assert 0 <= i < n && Live(t, hole, i) && t.keys[i] == k;
        }
      }
    }
  }

  lemma {:induction false} AbsUpToValues<K, V>(t: Table<K, V>, n: nat, hole: int, i: int)
    requires Shaped(t) && n <= t.size && KeysDistinct(t, hole)
    requires 0 <= i < n && Live(t, hole, i)
    ensures t.keys[i] in AbsUpTo(t, n, hole) && AbsUpTo(t, n, hole)[t.keys[i]] == t.values[i]
  {
    if i < n - 1 {
      AbsUpToValues(t, n - 1, hole, i);
      if Live(t, hole, n - 1) {
        assert t.keys[n - 1] != t.keys[i];
      }
    }
  }

  /** The abstraction in one statement: a key is in the map exactly when a live slot
      holds it, and then the map gives that slot's value. */
  lemma AbsButSpec<K, V>(t: Table<K, V>, hole: int)
    requires Shaped(t) && KeysDistinct(t, hole)
    ensures forall k :: k in AbsBut(t, hole) <==> HeldBelow(t, hole, k, t.size)
    ensures forall i :: 0 <= i < t.size && Live(t, hole, i) ==>
      t.keys[i] in AbsBut(t, hole) && AbsBut(t, hole)[t.keys[i]] == t.values[i]
  {
    AbsUpToKeys(t, t.size, hole);
    forall i | 0 <= i < t.size && Live(t, hole, i)
      ensures t.keys[i] in AbsBut(t, hole) && AbsBut(t, hole)[t.keys[i]] == t.values[i]
    {
      AbsUpToValues(t, t.size, hole, i);
    }
  }

  /** A map equals the abstraction when it has exactly the live pairs. */
  lemma AbsButIs<K, V>(t: Table<K, V>, hole: int, m: map<K, V>)
    requires Shaped(t) && KeysDistinct(t, hole)
    requires forall i :: 0 <= i < t.size && Live(t, hole, i) ==> t.keys[i] in m && m[t.keys[i]] == t.values[i]
    requires forall k :: k in m ==> HeldBelow(t, hole, k, t.size)
    ensures AbsBut(t, hole) == m
  {
    AbsButSpec(t, hole);
    var a := AbsBut(t, hole);
    forall k | k in a
      ensures k in m && a[k] == m[k]
    {
      assert HeldBelow(t, hole, k, t.size);
      var i :| 0 <= i < t.size && Live(t, hole, i) && t.keys[i] == k;
    }
    forall k | k in m
      ensures k in a
    {
    }
  }

  /** Tables with the same live pairs, slot by slot, stand for the same map. */
  lemma {:induction false} AbsUpToSame<K, V>(t: Table<K, V>, hole: int, u: Table<K, V>, hole': int, n: nat)
    requires Shaped(t) && Shaped(u) && n <= t.size && n <= u.size
    requires forall i :: 0 <= i < n ==> (Live(t, hole, i) <==> Live(u, hole', i))
    requires forall i :: 0 <= i < n && Live(t, hole, i) ==> t.keys[i] == u.keys[i] && t.values[i] == u.values[i]
    ensures AbsUpTo(t, n, hole) == AbsUpTo(u, n, hole')
  {
    if n > 0 {
      AbsUpToSame(t, hole, u, hole', n - 1);
    }
  }
}

=== FILE: hashtable_noholes.dfy ===
/** Tables built without `remove` (Sources/Hashtable.swift).

    `set` as written stops its probe at the first free slot or the first slot holding
    the key. Only `remove` frees a slot that an earlier probe went past, so as long as
    nothing is removed, every slot the probe visits before a stored key's slot is in
    use, and `set` as written finds a present key instead of storing it a second time.
    This module states that invariant, shows that `init`, `enlarge` and `set` as written
    keep it, and that under it `set` as written is `set` with the lookup first. */
module HashtableNoHoles {
  import opened Wrappers
  import opened ProbeMath
  import opened Hashtables
  import opened HashtableInvariants
  import opened HashtableRefinement

  /** Every slot probed from a stored key's home before the key's own slot is in use. */
  ghost predicate NoHoles<K, V>(t: Table<K, V>, h: Hash<K>)
    requires Shaped(t)
  {
    forall i, q ::
      (0 <= i < t.size && t.occupied[i] && 0 <= q < ProbeCount(Home(h, t.keys[i], t.size), i, t.size)) ==>
      t.occupied[ProbeIndex(Home(h, t.keys[i], t.size), q, t.size)]
  }

  /** A table with no slot in use has no holes. */
  lemma BlankNoHoles<K, V>(t: Table<K, V>, h: Hash<K>)
    requires Shaped(t) && forall i :: 0 <= i < t.size ==> !t.occupied[i]
    ensures NoHoles(t, h)
  {
  }

  /** `init` leaves no holes. */
  lemma InitNoHoles<K, V>(count: int, emptyKey: K, dummyValue: V, h: Hash<K>)
    ensures NoHoles(Init(count, emptyKey, dummyValue), h)
  {
    BlankNoHoles(Init(count, emptyKey, dummyValue), h);
  }

  /** Storing a key at the first probe position that is not in use, with every
      earlier position in use, leaves no holes. */
  lemma StoredAtNoHoles<K, V>(t: Table<K, V>, t': Table<K, V>, h: Hash<K>, key: K, value: V, home: int, j: int, p: nat)
    requires Shaped(t) && Shaped(t') && NoHoles(t, h)
    requires home == Home(h, key, t.size) && p < t.size && j == ProbeIndex(home, p, t.size)
    requires StoredAt(t, t', key, value, home, j, p)
    requires forall q :: 0 <= q < p ==> t.occupied[ProbeIndex(home, q, t.size)]
    ensures NoHoles(t', h)
  {
    forall i, q | 0 <= i < t'.size && t'.occupied[i]
      && 0 <= q < ProbeCount(Home(h, t'.keys[i], t'.size), i, t'.size)
      ensures t'.occupied[ProbeIndex(Home(h, t'.keys[i], t'.size), q, t'.size)]
    {
      if i == j {
        ProbeCountUnique(home, j, t.size, p);
      } else {
        assert t.occupied[i] && t'.keys[i] == t.keys[i];
      }
    }
  }

  /** `enlarge`'s insertion of one pair leaves no holes. */
  lemma FreeInsertNoHoles<K, V>(t: Table<K, V>, h: Hash<K>, key: K, value: V)
    requires Shaped(t) && t.elementNum == CountTrue(t.occupied) && t.elementNum < t.size
    requires NoHoles(t, h)
    ensures NoHoles(FreeInsert(t, h, key, value), h)
  {
    var home := Home(h, key, t.size);
    var p := FreeProbe(t, home);
    StoredAtNoHoles(t, FreeInsert(t, h, key, value), h, key, value, home, ProbeIndex(home, p, t.size), p);
  }

  /** Re-inserting the pairs of slots `i ..` into a table without holes leaves none. */
  lemma {:induction false} RehashNoHoles<K, V>(src: Table<K, V>, h: Hash<K>, nt: Table<K, V>, i: nat)
    requires Shaped(src) && src.elementNum == CountTrue(src.occupied) && src.elementNum < src.size
    requires Shaped(nt) && nt.size >= src.size && i <= src.size
    requires nt.elementNum == CountTrue(nt.occupied) == CountTrue(src.occupied[..i])
    requires nt.emptyKey == src.emptyKey && nt.dummyValue == src.dummyValue
    requires NoHoles(nt, h)
    ensures NoHoles(Rehash(src, h, nt, i), h)
    decreases src.size - i
  {
    if i < src.size {
      CountPrefixBound(src.occupied, i);
      if src.occupied[i] {
        FreeInsertNoHoles(nt, h, src.keys[i], src.values[i]);
      }
      var nt' := RehashSlot(src, h, nt, i);
      assert nt' == if src.occupied[i] then FreeInsert(nt, h, src.keys[i], src.values[i]) else nt;
      RehashNoHoles(src, h, nt', i + 1);
    }
  }

  /** `enlarge(toSize:)` leaves no holes, whatever the table it starts from. */
  lemma EnlargeToNoHoles<K, V>(t: Table<K, V>, h: Hash<K>, toSize: int)
    requires Shaped(t) && t.elementNum == CountTrue(t.occupied) && t.elementNum < t.size
    ensures NoHoles(EnlargeTo(t, h, toSize), h)
  {
    var nt := Blank(GrowTo(t.size, toSize), t.emptyKey, t.dummyValue);
    BlankNoHoles(nt, h);
    assert t.occupied[..0] == [];
    RehashNoHoles(t, h, nt, 0);
  }

  /** The growth step after a store keeps a table without holes. */
  lemma GrowIfFullNoHoles<K, V>(t: Table<K, V>, h: Hash<K>)
    requires Shaped(t) && t.elementNum == CountTrue(t.occupied) && t.elementNum < t.size
    requires NoHoles(t, h)
    ensures NoHoles(GrowIfFull(t, h), h)
  {
    if t.elementNum >= t.size - 1 {
      assert GrowTo(2 * t.size, 4 * t.size) == GrowTo(4 * t.size, 4 * t.size);
      EnlargeToNoHoles(t, h, 4 * t.size);
    }
  }

  /** `set` as written keeps a table without holes: it fills the first free probe
      position, or overwrites a value in place. */
  lemma SetAsWrittenNoHoles<K, V>(t: Table<K, V>, h: Hash<K>, key: K, value: V)
    requires Shaped(t) && Counted(t) && NoHoles(t, h)
    ensures NoHoles(SetAsWritten(t, h, key, value).0, h)
  {
    if key != t.emptyKey {
      var home := Home(h, key, t.size);
      SetProbeNeverFull(t, key, home);
      ProbeZero(home, t.size);
      var r := SetProbe(t, key, home);
      if r.Free? {
        var t1 := Place(t, key, value, home, r.index, r.probe);
        StoredAtNoHoles(t, t1, h, key, value, home, r.index, r.probe);
        GrowIfFullNoHoles(t1, h);
      } else {
        var t1 := t.(values := t.values[r.index := value]);
        assert NoHoles(t1, h) by {
          assert t1.keys == t.keys && t1.occupied == t.occupied;
        }
      }
    }
  }

  /** Without holes, the probe of `set` stops at the slot of a stored key: every
      slot before it is in use by another key. */
  lemma ProbeFindsStored<K, V>(t: Table<K, V>, h: Hash<K>, i: int)
    requires Valid(t, h) && NoHoles(t, h) && 0 <= i < t.size && t.occupied[i]
    ensures var home := Home(h, t.keys[i], t.size);
      SetProbe(t, t.keys[i], home) == Found(i, ProbeCount(home, i, t.size))
  {
    var key := t.keys[i];
    var home := Home(h, key, t.size);
    var p := ProbeCount(home, i, t.size);
    SetProbeNeverFull(t, key, home);
    ProbeZero(home, t.size);
    var r := SetProbe(t, key, home);
    if r.probe < p {
      ProbeInjective(home, t.size, r.probe, p);
      assert false;
    } else if r.probe > p {
      assert false;
    }
  }

  /** Without holes, `set` as written is `set` with the lookup first. */
  lemma SetAsWrittenIsSet<K, V>(t: Table<K, V>, h: Hash<K>, key: K, value: V)
    requires Valid(t, h) && NoHoles(t, h)
    ensures SetAsWritten(t, h, key, value) == Set(t, h, key, value)
  {
    if key != t.emptyKey {
      FindIndexSpec(t, h, key);
      var i := FindIndex(t, h, key, false).0;
      if i != -1 {
        ProbeFindsStored(t, h, i);
      }
    }
  }

  /** `set` as written on a table without holes acts on the map as an update, keeps
      the invariant and leaves no holes; it reports true exactly when the key was new. */
  lemma SetAsWrittenRefines<K, V>(t: Table<K, V>, h: Hash<K>, key: K, value: V)
    requires Valid(t, h) && NoHoles(t, h)
    ensures var res := SetAsWritten(t, h, key, value);
      && Valid(res.0, h) && NoHoles(res.0, h)
      && Abs(res.0) == (if key == t.emptyKey then Abs(t) else Abs(t)[key := value])
      && (res.1 <==> key != t.emptyKey && key !in Abs(t))
  {
    SetAsWrittenIsSet(t, h, key, value);
    SetRefines(t, h, key, value);
    SetAsWrittenNoHoles(t, h, key, value);
  }

  /** On a table without holes, subscript assignment as written updates the map for
      every key (emptyKey refused) or, with nil, removes the key, and keeps the
      invariant; a value leaves no hole. */
  lemma SubscriptNoHolesRefines<K, V>(t: Table<K, V>, h: Hash<K>, key: K, newValue: Option<V>)
    requires Valid(t, h) && NoHoles(t, h)
    ensures var t' := SubscriptSet(t, h, key, newValue);
      && Valid(t', h)
      && Abs(t') == match newValue
        case None => Abs(t) - {key}
        case Some(v) => if key == t.emptyKey then Abs(t) else Abs(t)[key := v]
    ensures newValue.Some? ==> NoHoles(SubscriptSet(t, h, key, newValue), h)
  {
    match newValue
    case Some(v) => SetAsWrittenRefines(t, h, key, v);
    case None => RemoveRefines(t, h, key);
  }
}

=== FILE: hashtable_refinement.dfy ===
/** Each table operation keeps the invariant and acts on the abstract map as a map
    operation would (Sources/Hashtable.swift). */
module HashtableRefinement {
  import opened Wrappers
  import opened ProbeMath
  import opened Hashtables
  import opened HashtableInvariants

  // ---------------------------------------------------------------------------
  // Storing a new pair

  /** A key not in the table stored at the first free slot of its probe sequence. */
  ghost predicate StoreCase<K, V>(t: Table<K, V>, h: Hash<K>, key: K, value: V, home: int, i: int, p: nat, t': Table<K, V>)
  {
    && Consistent(t, h)
    && key != t.emptyKey && !HeldBelow(t, -1, key, t.size)
    && home == Home(h, key, t.size) && 0 <= i < t.size && !t.occupied[i]
    && p < t.size && i == ProbeIndex(home, p, t.size) && (p > 0 ==> t.occupied[home])
    && Shaped(t') && StoredAt(t, t', key, value, home, i, p) && t'.elementNum == CountTrue(t'.occupied)
  }

  lemma StoreNewPlaced<K, V>(t: Table<K, V>, h: Hash<K>, key: K, value: V, home: int, i: int, p: nat, t': Table<K, V>)
    requires StoreCase(t, h, key, value, home, i, p, t')
    ensures SlotsPlaced(t', h, -1)
  {
    ProbeZero(home, t.size);
    forall x | 0 <= x < t'.size && Live(t', -1, x)
      ensures Home(h, t'.keys[x], t'.size) == x || x in t'.relocatedTo[Home(h, t'.keys[x], t'.size)]
    {
      if x != i {
        assert Live(t, -1, x);
        var g := Home(h, t.keys[x], t.size);
        if g != x {
          assert x in t.relocatedTo[g];
        }
      } else if p > 0 {
        assert t'.relocatedTo[home] == t.relocatedTo[home] + [i];
      }
    }
  }

  lemma StoreNewEntries<K, V>(t: Table<K, V>, h: Hash<K>, key: K, value: V, home: int, i: int, p: nat, t': Table<K, V>)
    requires StoreCase(t, h, key, value, home, i, p, t')
    ensures EntriesValid(t', h, -1) && HomesInUse(t')
  {
    ProbeZero(home, t.size);
    if p > 0 {
      ProbeInjective(home, t.size, 0, p);
    }
    forall g, j | 0 <= g < t'.size && 0 <= j < |t'.relocatedTo[g]|
      ensures Live(t', -1, t'.relocatedTo[g][j]) && t'.relocatedTo[g][j] != g
      ensures Home(h, t'.keys[t'.relocatedTo[g][j]], t'.size) == g
    {
      if j < |t.relocatedTo[g]| {
        assert t'.relocatedTo[g][j] == t.relocatedTo[g][j];
        assert Live(t, -1, t.relocatedTo[g][j]);
      }
    }
  }

  lemma StoreNewDistinct<K, V>(t: Table<K, V>, h: Hash<K>, key: K, value: V, home: int, i: int, p: nat, t': Table<K, V>)
    requires StoreCase(t, h, key, value, home, i, p, t')
    ensures EntriesDistinct(t') && KeysDistinct(t', -1)
  {
    forall g, a, b | 0 <= g < t'.size && 0 <= a < b < |t'.relocatedTo[g]|
      ensures t'.relocatedTo[g][a] != t'.relocatedTo[g][b]
    {
      assert t'.relocatedTo[g][a] == t.relocatedTo[g][a];
      assert Live(t, -1, t.relocatedTo[g][a]);
      if b < |t.relocatedTo[g]| {
        assert t'.relocatedTo[g][b] == t.relocatedTo[g][b];
      }
    }
    forall a, b | 0 <= a < b < t'.size && Live(t', -1, a) && Live(t', -1, b)
      ensures t'.keys[a] != t'.keys[b]
    {
      if a != i && b != i {
        assert Live(t, -1, a) && Live(t, -1, b);
      } else if a == i {
        assert Live(t, -1, b);
      } else {
        assert Live(t, -1, a);
      }
    }
    forall x | 0 <= x < t'.size && Live(t', -1, x)
      ensures t'.keys[x] != t'.emptyKey
    {
      if x != i {
        assert Live(t, -1, x);
      }
    }
  }

  lemma StoreNewAbs<K, V>(t: Table<K, V>, h: Hash<K>, key: K, value: V, home: int, i: int, p: nat, t': Table<K, V>)
    requires StoreCase(t, h, key, value, home, i, p, t')
    requires KeysDistinct(t', -1)
    ensures Abs(t') == Abs(t)[key := value]
  {
    AbsButSpec(t, -1);
    var m := Abs(t)[key := value];
    forall x | 0 <= x < t'.size && Live(t', -1, x)
      ensures t'.keys[x] in m && m[t'.keys[x]] == t'.values[x]
    {
      if x != i {
        assert Live(t, -1, x);
      }
    }
    forall k | k in m
      ensures HeldBelow(t', -1, k, t'.size)
    {
      if k == key {
        assert Live(t', -1, i) && t'.keys[i] == key;
      } else {
        assert HeldBelow(t, -1, k, t.size);
        var x :| 0 <= x < t.size && Live(t, -1, x) && t.keys[x] == k;
        assert Live(t', -1, x) && t'.keys[x] == k;
      }
    }
    AbsButIs(t', -1, m);
  }

  /** Storing a key that is not in the table at the first free slot of its probe
      sequence keeps the invariant and adds the pair to the map. */
  lemma StoreNew<K, V>(t: Table<K, V>, h: Hash<K>, key: K, value: V, home: int, i: int, p: nat, t': Table<K, V>)
    requires StoreCase(t, h, key, value, home, i, p, t')
    ensures Consistent(t', h)
    ensures Abs(t') == Abs(t)[key := value]
  {
    StoreNewPlaced(t, h, key, value, home, i, p, t');
    StoreNewEntries(t, h, key, value, home, i, p, t');
    StoreNewDistinct(t, h, key, value, home, i, p, t');
    StoreNewAbs(t, h, key, value, home, i, p, t');
  }

  // ---------------------------------------------------------------------------
  // Fresh tables and enlarging

  /** A table with no slot in use keeps the invariant and stands for the empty map. */
  lemma BlankConsistent<K, V>(t: Table<K, V>, h: Hash<K>)
    requires Shaped(t) && t.elementNum == 0 == CountTrue(t.occupied)
    requires forall i :: 0 <= i < t.size ==> !t.occupied[i] && t.relocatedTo[i] == []
    ensures Consistent(t, h) && Abs(t) == map[]
  {
    AbsButIs(t, -1, map[]);
  }

  /** `init` gives a valid table for the empty map. */
  lemma InitValid<K, V>(count: int, emptyKey: K, dummyValue: V, h: Hash<K>)
    ensures Valid(Init(count, emptyKey, dummyValue), h)
    ensures Abs(Init(count, emptyKey, dummyValue)) == map[]
  {
    BlankConsistent(Init(count, emptyKey, dummyValue), h);
  }

  /** Re-inserting slot `i` of `src` into a table holding the pairs of slots below `i`
      gives a table holding the pairs of slots up to `i`. */
  lemma RehashSlotRefines<K, V>(src: Table<K, V>, h: Hash<K>, nt: Table<K, V>, i: nat)
    requires Consistent(src, h) && src.elementNum < src.size
    requires Consistent(nt, h) && nt.size >= src.size && i < src.size
    requires nt.elementNum == CountTrue(src.occupied[..i])
    requires nt.emptyKey == src.emptyKey
    requires Abs(nt) == AbsUpTo(src, i, -1)
    ensures Consistent(RehashSlot(src, h, nt, i), h)
    ensures Abs(RehashSlot(src, h, nt, i)) == AbsUpTo(src, i + 1, -1)
  {
    CountPrefixBound(src.occupied, i);
    if src.occupied[i] {
      var key, value := src.keys[i], src.values[i];
      var t' := FreeInsert(nt, h, key, value);
      var home := Home(h, key, nt.size);
      var p := FreeProbe(nt, home);
      var x := ProbeIndex(home, p, nt.size);
      assert Live(src, -1, i);
      assert !HeldBelow(nt, -1, key, nt.size) by {
        AbsButSpec(nt, -1);
        AbsUpToKeys(src, i, -1);
      }
      ProbeZero(home, nt.size);
      StoreNew(nt, h, key, value, home, x, p, t');
      assert AbsUpTo(src, i + 1, -1) == AbsUpTo(src, i, -1)[key := value];
      assert RehashSlot(src, h, nt, i) == t';
    } else {
      assert RehashSlot(src, h, nt, i) == nt;
    }
  }

  /** Re-inserting slots `i ..` of `src` into a table holding the pairs of slots below
      `i` ends with a table holding every pair of `src`. */
  lemma {:induction false} RehashRefines<K, V>(src: Table<K, V>, h: Hash<K>, nt: Table<K, V>, i: nat)
    requires Consistent(src, h) && src.elementNum < src.size
    requires Consistent(nt, h) && nt.size >= src.size && i <= src.size
    requires nt.elementNum == CountTrue(src.occupied[..i])
    requires nt.emptyKey == src.emptyKey && nt.dummyValue == src.dummyValue
    requires Abs(nt) == AbsUpTo(src, i, -1)
    ensures Consistent(Rehash(src, h, nt, i), h)
    ensures Abs(Rehash(src, h, nt, i)) == Abs(src)
    decreases src.size - i
  {
    if i < src.size {
      RehashSlotRefines(src, h, nt, i);
      RehashRefines(src, h, RehashSlot(src, h, nt, i), i + 1);
    }
  }

  /** `enlarge(toSize:)` keeps the invariant and the map. */
  lemma EnlargeToRefines<K, V>(t: Table<K, V>, h: Hash<K>, toSize: int)
    requires Consistent(t, h) && t.elementNum < t.size
    ensures Consistent(EnlargeTo(t, h, toSize), h)
    ensures Abs(EnlargeTo(t, h, toSize)) == Abs(t)
    ensures Counted(t) ==> Counted(EnlargeTo(t, h, toSize))
  {
    var n := GrowTo(t.size, toSize);
    var b := Blank(n, t.emptyKey, t.dummyValue);
    BlankConsistent(b, h);
    assert t.occupied[..0] == [];
    RehashRefines(t, h, b, 0);
  }

  /** `enlarge()` keeps the invariant and the map. */
  lemma EnlargeRefines<K, V>(t: Table<K, V>, h: Hash<K>)
    requires Consistent(t, h) && t.elementNum < t.size
    ensures Valid(Enlarge(t, h), h)
    ensures Abs(Enlarge(t, h)) == Abs(t)
  {
    EnlargeToRefines(t, h, 4 * t.size);
  }

  /** Growing after an insertion keeps the invariant and the map. */
  lemma GrowIfFullRefines<K, V>(t: Table<K, V>, h: Hash<K>)
    requires Consistent(t, h) && t.elementNum < t.size
    ensures Valid(GrowIfFull(t, h), h)
    ensures Abs(GrowIfFull(t, h)) == Abs(t)
  {
    if t.elementNum >= t.size - 1 {
      EnlargeRefines(t, h);
    }
  }

  // ---------------------------------------------------------------------------
  // Lookup

  /** `emptyKey` is never a key of the map. */
  lemma EmptyKeyAbsent<K, V>(t: Table<K, V>, h: Hash<K>)
    requires Consistent(t, h)
    ensures t.emptyKey !in Abs(t)
  {
    AbsButSpec(t, -1);
    assert !HeldBelow(t, -1, t.emptyKey, t.size);
  }

  /** `findIndex` finds exactly the keys of the map, at the live slot holding them. */
  lemma FindIndexSpec<K, V>(t: Table<K, V>, h: Hash<K>, key: K)
    requires Consistent(t, h)
    ensures var i := FindIndex(t, h, key, false).0;
      && (i != -1 <==> key in Abs(t))
      && (i != -1 ==> 0 <= i < t.size && Live(t, -1, i) && t.keys[i] == key && Abs(t)[key] == t.values[i])
  {
    AbsButSpec(t, -1);
    var home := Home(h, key, t.size);
    var i := FindIndex(t, h, key, false).0;
    if key in Abs(t) {
      assert HeldBelow(t, -1, key, t.size);
      var s :| 0 <= s < t.size && Live(t, -1, s) && t.keys[s] == key;
      if s != home && !(t.occupied[home] && t.keys[home] == key) {
        var list := t.relocatedTo[home];
        assert s in list;
        var a :| 0 <= a < |list| && list[a] == s;
        assert t.keys[list[a]] == key;
        assert FindIn(t, key, list, 0) != -1;
      }
    }
    if i != -1 && i != home {
      var list := t.relocatedTo[home];
      var pos := FindIn(t, key, list, 0);
      assert i == list[pos];
      assert Live(t, -1, list[pos]);
    }
  }

  /** `get` agrees with the map. */
  lemma GetRefines<K, V>(t: Table<K, V>, h: Hash<K>, key: K)
    requires Consistent(t, h)
    ensures Get(t, h, key) == if key in Abs(t) then Some(Abs(t)[key]) else None
  {
    FindIndexSpec(t, h, key);
  }

  // ---------------------------------------------------------------------------
  // set

  /** Overwriting the value of a live slot changes no key, flag or list, so the map
      changes at that slot's key only. */
  lemma OverwriteAbs<K, V>(t: Table<K, V>, i: int, value: V)
    requires Shaped(t) && KeysDistinct(t, -1) && 0 <= i < t.size && Live(t, -1, i)
    ensures Abs(t.(values := t.values[i := value])) == Abs(t)[t.keys[i] := value]
  {
    var t' := t.(values := t.values[i := value]);
    AbsButSpec(t, -1);
    var m := Abs(t)[t.keys[i] := value];
    forall x | 0 <= x < t'.size && Live(t', -1, x)
      ensures t'.keys[x] in m && m[t'.keys[x]] == t'.values[x]
    {
      if x != i {
        assert t.keys[x] != t.keys[i];
      }
    }
    forall k | k in m
      ensures HeldBelow(t', -1, k, t'.size)
    {
      if k == t.keys[i] {
        assert Live(t', -1, i) && t'.keys[i] == k;
      } else {
        assert HeldBelow(t, -1, k, t.size);
        var x :| 0 <= x < t.size && Live(t, -1, x) && t.keys[x] == k;
        assert Live(t', -1, x) && t'.keys[x] == k;
      }
    }
    AbsButIs(t', -1, m);
  }

  /** Overwriting the value of a live slot keeps the invariant and updates the map. */
  lemma OverwriteRefines<K, V>(t: Table<K, V>, h: Hash<K>, i: int, value: V)
    requires Consistent(t, h) && 0 <= i < t.size && Live(t, -1, i)
    ensures Consistent(t.(values := t.values[i := value]), h)
    ensures Abs(t.(values := t.values[i := value])) == Abs(t)[t.keys[i] := value]
  {
    var t' := t.(values := t.values[i := value]);
    assert Laid(t', h, -1) by {
      assert SlotsPlaced(t', h, -1) == SlotsPlaced(t, h, -1);
      assert EntriesValid(t', h, -1) == EntriesValid(t, h, -1);
      assert KeysDistinct(t', -1) == KeysDistinct(t, -1);
    }
    OverwriteAbs(t, i, value);
  }

  /** `set` as written, for a key that is not in the map: the pair is added and the
      result is true. */
  lemma SetAsWrittenNewKey<K, V>(t: Table<K, V>, h: Hash<K>, key: K, value: V)
    requires Valid(t, h) && key != t.emptyKey && key !in Abs(t)
    ensures var res := SetAsWritten(t, h, key, value);
      && res.1 && Valid(res.0, h) && Abs(res.0) == Abs(t)[key := value]
  {
    AbsButSpec(t, -1);
    var home := Home(h, key, t.size);
    SetProbeNeverFull(t, key, home);
    ProbeZero(home, t.size);
    var r := SetProbe(t, key, home);
    assert !HeldBelow(t, -1, key, t.size);
    var i, p := r.index, r.probe;
    if p > 0 {
      assert t.occupied[ProbeIndex(home, 0, t.size)];
    }
    var t1 := Place(t, key, value, home, i, p);
    StoreNew(t, h, key, value, home, i, p, t1);
    GrowIfFullRefines(t1, h);
  }

  /** `set`, with the lookup first, acts on the map as an update and keeps the
      invariant; it reports true exactly when the key was new. `emptyKey` is refused. */
  lemma SetRefines<K, V>(t: Table<K, V>, h: Hash<K>, key: K, value: V)
    requires Valid(t, h)
    ensures var res := Set(t, h, key, value);
      && Valid(res.0, h)
      && Abs(res.0) == (if key == t.emptyKey then Abs(t) else Abs(t)[key := value])
      && (res.1 <==> key != t.emptyKey && key !in Abs(t))
  {
    if key != t.emptyKey {
      FindIndexSpec(t, h, key);
      var i := FindIndex(t, h, key, false).0;
      if i != -1 {
        OverwriteRefines(t, h, i, value);
      } else {
        SetAsWrittenNewKey(t, h, key, value);
      }
    }
  }

  /** For a key not in the map, `set` as written and `set` with the lookup first
      agree. */
  lemma SetAsWrittenAgreesOnNewKey<K, V>(t: Table<K, V>, h: Hash<K>, key: K, value: V)
    requires Valid(t, h) && key !in Abs(t)
    ensures SetAsWritten(t, h, key, value) == Set(t, h, key, value)
  {
    FindIndexSpec(t, h, key);
  }

  // ---------------------------------------------------------------------------
  // remove

  /** The state inside `remove`'s loop: `hole` is still flagged in use but its pair is
      gone (or is a copy of a pair that lives elsewhere), and the count already
      excludes it. */
  ghost predicate HoleState<K, V>(t: Table<K, V>, h: Hash<K>, hole: int)
  {
    && Shaped(t) && 0 <= hole < t.size && t.occupied[hole]
    && Laid(t, h, hole) && t.elementNum == CountTrue(t.occupied) - 1
  }

  /** One round of the loop: the last pair relocated from the hole's home comes back
      into the hole, and the slot it came from is the new hole. */
  ghost function MoveBack<K, V>(t: Table<K, V>, hole: int): Table<K, V>
    requires Shaped(t) && 0 <= hole < t.size && |t.relocatedTo[hole]| > 0
  {
    var list := t.relocatedTo[hole];
    var j := list[|list| - 1];
    t.(keys := t.keys[hole := t.keys[j]], values := t.values[hole := t.values[j]],
       relocatedTo := t.relocatedTo[hole := list[..|list| - 1]])
  }

  lemma MoveBackPlaced<K, V>(t: Table<K, V>, h: Hash<K>, hole: int)
    requires Shaped(t) && 0 <= hole < t.size && SlotsPlaced(t, h, hole) && EntriesValid(t, h, hole)
    requires |t.relocatedTo[hole]| > 0
    ensures var list := t.relocatedTo[hole];
      var j := list[|list| - 1];
      Shaped(MoveBack(t, hole)) && SlotsPlaced(MoveBack(t, hole), h, j)
  {
    var list := t.relocatedTo[hole];
    var n := |list|;
    var j := list[n - 1];
    var t2 := MoveBack(t, hole);
    assert Live(t, hole, j) && Home(h, t.keys[j], t.size) == hole;
    forall x | 0 <= x < t2.size && Live(t2, j, x)
      ensures Home(h, t2.keys[x], t2.size) == x || x in t2.relocatedTo[Home(h, t2.keys[x], t2.size)]
    {
      if x != hole {
        assert Live(t, hole, x);
        var g := Home(h, t.keys[x], t.size);
        if g != x && g == hole {
          var a :| 0 <= a < n && list[a] == x;
          assert a < n - 1;
          assert t2.relocatedTo[hole][a] == x;
        }
      }
    }
  }

  lemma MoveBackValid<K, V>(t: Table<K, V>, h: Hash<K>, hole: int)
    requires Shaped(t) && 0 <= hole < t.size && EntriesValid(t, h, hole) && EntriesDistinct(t)
    requires |t.relocatedTo[hole]| > 0
    ensures var list := t.relocatedTo[hole];
      var j := list[|list| - 1];
      Shaped(MoveBack(t, hole)) && EntriesValid(MoveBack(t, hole), h, j)
  {
    var list := t.relocatedTo[hole];
    var n := |list|;
    var j := list[n - 1];
    var t2 := MoveBack(t, hole);
    assert Live(t, hole, j) && Home(h, t.keys[j], t.size) == hole;
    forall g, a | 0 <= g < t2.size && 0 <= a < |t2.relocatedTo[g]|
      ensures Live(t2, j, t2.relocatedTo[g][a]) && t2.relocatedTo[g][a] != g
      ensures Home(h, t2.keys[t2.relocatedTo[g][a]], t2.size) == g
    {
      var s := t.relocatedTo[g][a];
      assert t2.relocatedTo[g][a] == s;
      assert Live(t, hole, s) && Home(h, t.keys[s], t.size) == g;
      if g == hole {
        assert a < n - 1;
        assert s != j;
      }
    }
  }

  lemma MoveBackDistinct<K, V>(t: Table<K, V>, hole: int)
    requires Shaped(t) && 0 <= hole < t.size && EntriesDistinct(t) && HomesInUse(t)
    requires |t.relocatedTo[hole]| > 0
    ensures Shaped(MoveBack(t, hole)) && EntriesDistinct(MoveBack(t, hole)) && HomesInUse(MoveBack(t, hole))
  {
    var t2 := MoveBack(t, hole);
    forall g, a, b | 0 <= g < t2.size && 0 <= a < b < |t2.relocatedTo[g]|
      ensures t2.relocatedTo[g][a] != t2.relocatedTo[g][b]
    {
      assert t2.relocatedTo[g][a] == t.relocatedTo[g][a];
      assert t2.relocatedTo[g][b] == t.relocatedTo[g][b];
    }
  }

  lemma MoveBackKeys<K, V>(t: Table<K, V>, h: Hash<K>, hole: int)
    requires Shaped(t) && 0 <= hole < t.size && EntriesValid(t, h, hole) && KeysDistinct(t, hole)
    requires |t.relocatedTo[hole]| > 0
    ensures var list := t.relocatedTo[hole];
      var j := list[|list| - 1];
      && Shaped(MoveBack(t, hole))
      && KeysDistinct(MoveBack(t, hole), j)
  {
    var list := t.relocatedTo[hole];
    var n := |list|;
    var j := list[n - 1];
    var t2 := MoveBack(t, hole);
    assert Live(t, hole, j);
    assert j != hole;
    forall a, b | 0 <= a < b < t2.size && Live(t2, j, a) && Live(t2, j, b)
      ensures t2.keys[a] != t2.keys[b]
    {
      if a == hole {
        assert Live(t, hole, b) && b != j;
      } else if b == hole {
        assert Live(t, hole, a) && a != j;
      } else {
        assert Live(t, hole, a) && Live(t, hole, b);
      }
    }
    forall x | 0 <= x < t2.size && Live(t2, j, x)
      ensures t2.keys[x] != t2.emptyKey
    {
      if x != hole {
        assert Live(t, hole, x);
      }
    }
  }

  lemma MoveBackAbs<K, V>(t: Table<K, V>, hole: int, j: int)
    requires Shaped(t) && 0 <= hole < t.size && t.occupied[hole] && |t.relocatedTo[hole]| > 0
    requires j == t.relocatedTo[hole][|t.relocatedTo[hole]| - 1] && 0 <= j < t.size && Live(t, hole, j)
    requires KeysDistinct(t, hole) && KeysDistinct(MoveBack(t, hole), j)
    ensures AbsBut(MoveBack(t, hole), j) == AbsBut(t, hole)
  {
    var t2 := MoveBack(t, hole);
    AbsButSpec(t, hole);
    var m := AbsBut(t, hole);
    forall x | 0 <= x < t2.size && Live(t2, j, x)
      ensures t2.keys[x] in m && m[t2.keys[x]] == t2.values[x]
    {
      if x != hole {
        assert Live(t, hole, x);
      }
    }
    forall k | k in m
      ensures HeldBelow(t2, j, k, t2.size)
    {
      assert HeldBelow(t, hole, k, t.size);
      var x :| 0 <= x < t.size && Live(t, hole, x) && t.keys[x] == k;
      if x == j {
        assert Live(t2, j, hole) && t2.keys[hole] == k;
      } else {
        assert Live(t2, j, x) && t2.keys[x] == k;
      }
    }
    AbsButIs(t2, j, m);
  }

  /** Freeing the hole leaves every other slot as it was, so the invariant that exempted
      the hole now holds with no exemption. */
  lemma CloseHoleLaid<K, V>(t: Table<K, V>, h: Hash<K>, hole: int)
    requires Shaped(t) && 0 <= hole < t.size && Laid(t, h, hole) && |t.relocatedTo[hole]| == 0
    ensures Laid(t.(occupied := t.occupied[hole := false]), h, -1)
  {
    var t3 := t.(occupied := t.occupied[hole := false]);
    forall x | 0 <= x < t3.size && Live(t3, -1, x)
      ensures Home(h, t3.keys[x], t3.size) == x || x in t3.relocatedTo[Home(h, t3.keys[x], t3.size)]
    {
      assert Live(t, hole, x);
    }
    forall g, a | 0 <= g < t3.size && 0 <= a < |t3.relocatedTo[g]|
      ensures Live(t3, -1, t3.relocatedTo[g][a])
    {
      assert Live(t, hole, t.relocatedTo[g][a]);
    }
    forall a, b | 0 <= a < b < t3.size && Live(t3, -1, a) && Live(t3, -1, b)
      ensures t3.keys[a] != t3.keys[b]
    {
      assert Live(t, hole, a) && Live(t, hole, b);
    }
    forall x | 0 <= x < t3.size && Live(t3, -1, x)
      ensures t3.keys[x] != t3.emptyKey
    {
      assert Live(t, hole, x);
    }
  }

  /** Freeing the last hole, whose relocation list is empty, restores the invariant. */
  lemma CloseHole<K, V>(t: Table<K, V>, h: Hash<K>, hole: int)
    requires HoleState(t, h, hole) && |t.relocatedTo[hole]| == 0
    ensures Consistent(t.(occupied := t.occupied[hole := false]), h)
    ensures Abs(t.(occupied := t.occupied[hole := false])) == AbsBut(t, hole)
  {
    var t3 := t.(occupied := t.occupied[hole := false]);
    CountTrueUpdate(t.occupied, hole, false);
    CloseHoleLaid(t, h, hole);
    AbsUpToSame(t3, -1, t, hole, t.size);
  }

  /** The loop of `remove` ends with a consistent table holding the pairs that were
      live outside the first hole. */
  lemma {:induction false} FillHoleRefines<K, V>(t: Table<K, V>, h: Hash<K>, hole: int)
    requires HoleState(t, h, hole)
    ensures Consistent(FillHole(t, hole), h)
    ensures Abs(FillHole(t, hole)) == AbsBut(t, hole)
    decreases RelocTotal(t.relocatedTo)
  {
    var list := t.relocatedTo[hole];
    if |list| == 0 {
      CloseHole(t, h, hole);
    } else {
      var j := list[|list| - 1];
      var t2 := MoveBack(t, hole);
      MoveBackPlaced(t, h, hole);
      MoveBackValid(t, h, hole);
      MoveBackDistinct(t, hole);
      MoveBackKeys(t, h, hole);
      assert Live(t, hole, j);
      MoveBackAbs(t, hole, j);
      RelocTotalDrop(t.relocatedTo, hole);
      assert FillHole(t, hole) == FillHole(t2, j);
      FillHoleRefines(t2, h, j);
    }
  }

  /** Taking the live slot holding `key` out of the map. */
  lemma AbsButKey<K, V>(t: Table<K, V>, i: int)
    requires Shaped(t) && KeysDistinct(t, -1) && 0 <= i < t.size && Live(t, -1, i)
    ensures AbsBut(t, i) == Abs(t) - {t.keys[i]}
  {
    AbsButSpec(t, -1);
    var m := Abs(t) - {t.keys[i]};
    forall x | 0 <= x < t.size && Live(t, i, x)
      ensures t.keys[x] in m && m[t.keys[x]] == t.values[x]
    {
      assert Live(t, -1, x) && t.keys[x] != t.keys[i];
    }
    forall k | k in m
      ensures HeldBelow(t, i, k, t.size)
    {
      assert HeldBelow(t, -1, k, t.size);
      var x :| 0 <= x < t.size && Live(t, -1, x) && t.keys[x] == k;
      assert Live(t, i, x);
    }
    AbsButIs(t, i, m);
  }

  /** Removing a key found at its home slot starts the loop with the home as hole. */
  lemma RemoveStartAtHome<K, V>(t: Table<K, V>, h: Hash<K>, i: int)
    requires Consistent(t, h) && 0 <= i < t.size && Live(t, -1, i) && Home(h, t.keys[i], t.size) == i
    ensures HoleState(t.(elementNum := t.elementNum - 1), h, i)
  {
    var t2 := t.(elementNum := t.elementNum - 1);
    forall g, a | 0 <= g < t.size && 0 <= a < |t.relocatedTo[g]|
      ensures t.relocatedTo[g][a] != i
    {
      assert Home(h, t.keys[t.relocatedTo[g][a]], t.size) == g != t.relocatedTo[g][a];
    }
    assert Laid(t2, h, i);
  }

  lemma RemoveStartPlaced<K, V>(t: Table<K, V>, h: Hash<K>, home: int, pos: int)
    requires Shaped(t) && SlotsPlaced(t, h, -1) && 0 <= home < t.size && 0 <= pos < |t.relocatedTo[home]|
    ensures var i := t.relocatedTo[home][pos];
      var t1 := t.(relocatedTo := t.relocatedTo[home := RemoveAt(t.relocatedTo[home], pos)]);
      Shaped(t1) && SlotsPlaced(t1, h, i)
  {
    var list := t.relocatedTo[home];
    var i := list[pos];
    var t1 := t.(relocatedTo := t.relocatedTo[home := RemoveAt(list, pos)]);
    forall x | 0 <= x < t1.size && Live(t1, i, x)
      ensures Home(h, t1.keys[x], t1.size) == x || x in t1.relocatedTo[Home(h, t1.keys[x], t1.size)]
    {
      assert Live(t, -1, x);
      var g := Home(h, t.keys[x], t.size);
      if g != x && g == home {
        var a :| 0 <= a < |list| && list[a] == x;
        if a < pos {
          assert t1.relocatedTo[home][a] == x;
        } else {
          assert t1.relocatedTo[home][a - 1] == x;
        }
      }
    }
  }

  lemma RemoveStartValid<K, V>(t: Table<K, V>, h: Hash<K>, home: int, pos: int)
    requires Shaped(t) && EntriesValid(t, h, -1) && EntriesDistinct(t) && 0 <= home < t.size && 0 <= pos < |t.relocatedTo[home]|
    ensures var i := t.relocatedTo[home][pos];
      var t1 := t.(relocatedTo := t.relocatedTo[home := RemoveAt(t.relocatedTo[home], pos)]);
      Shaped(t1) && EntriesValid(t1, h, i)
  {
    var list := t.relocatedTo[home];
    var i := list[pos];
    var t1 := t.(relocatedTo := t.relocatedTo[home := RemoveAt(list, pos)]);
    forall g, a | 0 <= g < t1.size && 0 <= a < |t1.relocatedTo[g]|
      ensures Live(t1, i, t1.relocatedTo[g][a]) && t1.relocatedTo[g][a] != g
      ensures Home(h, t1.keys[t1.relocatedTo[g][a]], t1.size) == g
    {
      if g == home {
        var a' := if a < pos then a else a + 1;
        assert t1.relocatedTo[g][a] == list[a'];
        assert list[a'] != list[pos];
      } else {
        assert t1.relocatedTo[g][a] == t.relocatedTo[g][a];
      }
    }
  }

  lemma RemoveStartDistinct<K, V>(t: Table<K, V>, home: int, pos: int)
    requires Shaped(t) && EntriesDistinct(t) && HomesInUse(t) && 0 <= home < t.size && 0 <= pos < |t.relocatedTo[home]|
    ensures var t1 := t.(relocatedTo := t.relocatedTo[home := RemoveAt(t.relocatedTo[home], pos)]);
      Shaped(t1) && EntriesDistinct(t1) && HomesInUse(t1)
  {
    var list := t.relocatedTo[home];
    var t1 := t.(relocatedTo := t.relocatedTo[home := RemoveAt(list, pos)]);
    forall g, a, b | 0 <= g < t1.size && 0 <= a < b < |t1.relocatedTo[g]|
      ensures t1.relocatedTo[g][a] != t1.relocatedTo[g][b]
    {
      if g == home {
        var a' := if a < pos then a else a + 1;
        var b' := if b < pos then b else b + 1;
        assert t1.relocatedTo[g][a] == list[a'] && t1.relocatedTo[g][b] == list[b'];
      }
    }
  }

  /** Removing a key found in its home's relocation list starts the loop with the slot
      it was relocated to as hole, that slot dropped from the list. */
  lemma RemoveStartRelocated<K, V>(t: Table<K, V>, h: Hash<K>, home: int, pos: int)
    requires Consistent(t, h) && 0 <= home < t.size && 0 <= pos < |t.relocatedTo[home]|
    ensures HoleState(t.(relocatedTo := t.relocatedTo[home := RemoveAt(t.relocatedTo[home], pos)],
                         elementNum := t.elementNum - 1), h, t.relocatedTo[home][pos])
  {
    var i := t.relocatedTo[home][pos];
    var t1 := t.(relocatedTo := t.relocatedTo[home := RemoveAt(t.relocatedTo[home], pos)]);
    RemoveStartPlaced(t, h, home, pos);
    RemoveStartValid(t, h, home, pos);
    RemoveStartDistinct(t, home, pos);
    assert Live(t, -1, i);
    assert KeysDistinct(t1, i);
  }

  /** Past an occupied home slot holding another key, `findIndex` scans the home's
      relocation list and, removing, drops the entry it found. */
  lemma FindIndexRelocated<K, V>(t: Table<K, V>, h: Hash<K>, key: K)
    requires Shaped(t)
    ensures var home := Home(h, key, t.size);
      var list := t.relocatedTo[home];
      var pos := FindIn(t, key, list, 0);
      t.occupied[home] && t.keys[home] != key ==>
        FindIndex(t, h, key, true) ==
          if pos == -1 then (-1, t) else (list[pos], t.(relocatedTo := t.relocatedTo[home := RemoveAt(list, pos)]))
  {
  }

  /** The state `remove` hands to its loop: the slot `findIndex` returned is the hole
      and one pair fewer is counted. */
  lemma RemoveStart<K, V>(t: Table<K, V>, h: Hash<K>, key: K, i: int, t1: Table<K, V>)
    requires Consistent(t, h) && (i, t1) == FindIndex(t, h, key, true)
    requires 0 <= i < t.size && Live(t, -1, i) && t.keys[i] == key
    ensures HoleState(t1.(elementNum := t1.elementNum - 1), h, i)
  {
    var home := Home(h, key, t.size);
    if t.occupied[home] && t.keys[home] == key {
      RemoveStartAtHome(t, h, i);
    } else {
      var list := t.relocatedTo[home];
      var pos := FindIn(t, key, list, 0);
      FindIndexRelocated(t, h, key);
      assert t.occupied[home];
      assert pos != -1;
      var rl := t.relocatedTo[home := RemoveAt(list, pos)];
      assert i == list[pos] && t1 == t.(relocatedTo := rl);
      assert t1.(elementNum := t1.elementNum - 1) == t.(relocatedTo := rl, elementNum := t.elementNum - 1);
      RemoveStartRelocated(t, h, home, pos);
    }
  }

  /** The pairs outside the hole are the map minus the removed key. */
  lemma RemoveStartAbs<K, V>(t: Table<K, V>, t2: Table<K, V>, i: int)
    requires Shaped(t) && KeysDistinct(t, -1) && 0 <= i < t.size && Live(t, -1, i)
    requires Shaped(t2) && t2.size == t.size
    requires t2.keys == t.keys && t2.values == t.values && t2.occupied == t.occupied
    ensures AbsBut(t2, i) == Abs(t) - {t.keys[i]}
  {
    AbsUpToSame(t2, i, t, i, t.size);
    AbsButKey(t, i);
  }

  /** `remove` acts on the map as a removal, keeps the invariant, and reports whether
      the key was there. */
  lemma {:induction false} RemoveRefines<K, V>(t: Table<K, V>, h: Hash<K>, key: K)
    requires Valid(t, h)
    ensures var res := Remove(t, h, key);
      && Valid(res.0, h)
      && Abs(res.0) == Abs(t) - {key}
      && (res.1 <==> key in Abs(t))
  {
    FindIndexSpec(t, h, key);
    if key in Abs(t) {
      RemovePresent(t, h, key);
    } else {
      assert FindIndex(t, h, key, true).0 == FindIndex(t, h, key, false).0;
      assert Abs(t) - {key} == Abs(t);
    }
  }

  /** `remove` of a present key: the hole its slot leaves is filled, and the map loses
      exactly that key. */
  lemma {:induction false} RemovePresent<K, V>(t: Table<K, V>, h: Hash<K>, key: K)
    requires Valid(t, h) && key in Abs(t)
    ensures var res := Remove(t, h, key);
      && Valid(res.0, h) && Abs(res.0) == Abs(t) - {key} && res.1
  {
    FindIndexSpec(t, h, key);
    var r := FindIndex(t, h, key, true);
    var i, t1 := r.0, r.1;
    assert i == FindIndex(t, h, key, false).0;
    var t2 := t1.(elementNum := t1.elementNum - 1);
    RemoveStart(t, h, key, i, t1);
    FillHoleRefines(t2, h, i);
    RemoveStartAbs(t, t2, i);
    assert Remove(t, h, key) == (FillHole(t2, i), true);
  }

  // ---------------------------------------------------------------------------
  // count, isEmpty and the subscript

  /** With distinct keys, the live slots below `n` stand for that many pairs. */
  lemma {:induction false} AbsUpToSize<K, V>(t: Table<K, V>, n: nat)
    requires Shaped(t) && KeysDistinct(t, -1) && n <= t.size
    ensures |AbsUpTo(t, n, -1)| == CountTrue(t.occupied[..n])
  {
    if n > 0 {
      AbsUpToSize(t, n - 1);
      assert t.occupied[..n][..n - 1] == t.occupied[..n - 1];
      if Live(t, -1, n - 1) {
        AbsUpToKeys(t, n - 1, -1);
      }
    }
  }

  /** `count` is the number of pairs in the map. */
  lemma CountRefines<K, V>(t: Table<K, V>, h: Hash<K>)
    requires Consistent(t, h)
    ensures Count(t) == |Abs(t)|
  {
    AbsUpToSize(t, t.size);
    assert t.occupied[..t.size] == t.occupied;
  }

  /** `isEmpty` holds exactly for the empty map. */
  lemma IsEmptyRefines<K, V>(t: Table<K, V>, h: Hash<K>)
    requires Consistent(t, h)
    ensures IsEmpty(t) <==> Abs(t) == map[]
  {
    CountRefines(t, h);
    if Abs(t) != map[] {
      var k :| k in Abs(t);
      assert k in Abs(t).Keys;
    }
  }

  /** Subscript assignment as written: nil removes the key from the map, and a value
      for a key the map does not hold adds the pair (emptyKey refused). Both keep the
      invariant. A value for a key the map already holds is `set` as written on a
      present key, which can store it twice (see `HashtableNoHoles.SubscriptNoHolesRefines`
      for the tables where it cannot). */
  lemma SubscriptRefines<K, V>(t: Table<K, V>, h: Hash<K>, key: K, newValue: Option<V>)
    requires Valid(t, h)
    ensures newValue.None? ==>
      Valid(SubscriptSet(t, h, key, newValue), h) && Abs(SubscriptSet(t, h, key, newValue)) == Abs(t) - {key}
    ensures newValue.Some? && key !in Abs(t) ==>
      && Valid(SubscriptSet(t, h, key, newValue), h)
      && Abs(SubscriptSet(t, h, key, newValue)) == (if key == t.emptyKey then Abs(t) else Abs(t)[key := newValue.value])
  {
    match newValue
    case Some(v) =>
      if key != t.emptyKey && key !in Abs(t) {
        SetAsWrittenNewKey(t, h, key, v);
      }
    case None => RemoveRefines(t, h, key);
  }

  /** Subscript assignment with the corrected `set` updates the map for every key
      (emptyKey refused), nil removes the key, and the invariant is kept. */
  lemma SubscriptCorrectedRefines<K, V>(t: Table<K, V>, h: Hash<K>, key: K, newValue: Option<V>)
    requires Valid(t, h)
    ensures Valid(SubscriptSetCorrected(t, h, key, newValue), h)
    ensures newValue.Some? && key != t.emptyKey ==> Abs(SubscriptSetCorrected(t, h, key, newValue)) == Abs(t)[key := newValue.value]
    ensures newValue.Some? && key == t.emptyKey ==> Abs(SubscriptSetCorrected(t, h, key, newValue)) == Abs(t)
    ensures newValue.None? ==> Abs(SubscriptSetCorrected(t, h, key, newValue)) == Abs(t) - {key}
  {
    match newValue
    case Some(v) => SetRefines(t, h, key, v);
    case None => RemoveRefines(t, h, key);
  }
}

=== FILE: hashtable_scenarios.dfy ===
/** Runs of operations on the hash table (Sources/Hashtable.swift): the map a run
    stands for, runs of `set` alone, the source's `smallTest()`, and the run that shows
    `set` as written storing a key twice. */
module HashtableScenarios {
  import opened Wrappers
  import opened ProbeMath
  import opened Hashtables
  import opened HashtableInvariants
  import opened HashtableRefinement
  import opened HashtableNoHoles

  /** One call on the table: `set(key:value:)` or `remove(key:)`. */
  datatype Op<K, V> = SetOp(key: K, value: V) | RemoveOp(key: K)

  /** What a run of operations does to a map. */
  function MapRun<K, V>(m: map<K, V>, ops: seq<Op<K, V>>): map<K, V>
    decreases |ops|
  {
    if |ops| == 0 then m
    else match ops[0]
      case SetOp(k, v) => MapRun(m[k := v], ops[1..])
      case RemoveOp(k) => MapRun(m - {k}, ops[1..])
  }

  /** Every `set` of the run is given a key that is not `emptyKey` and is not in the
      map at that point: the calls on which `set` as written is a map update. */
  predicate SetsFresh<K, V>(m: map<K, V>, emptyKey: K, ops: seq<Op<K, V>>)
    decreases |ops|
  {
    if |ops| == 0 then true
    else match ops[0]
      case SetOp(k, v) => k != emptyKey && k !in m && SetsFresh(m[k := v], emptyKey, ops[1..])
      case RemoveOp(k) => SetsFresh(m - {k}, emptyKey, ops[1..])
  }

  /** The run on the table, with `set` as written. */
  function Run<K(==), V>(t: Table<K, V>, h: Hash<K>, ops: seq<Op<K, V>>): (r: Table<K, V>)
    requires Valid(t, h) && SetsFresh(Abs(t), t.emptyKey, ops)
    ensures Valid(r, h) && r.emptyKey == t.emptyKey
    ensures Abs(r) == MapRun(Abs(t), ops)
    decreases |ops|
  {
    if |ops| == 0 then t
    else match ops[0]
      case SetOp(k, v) =>
        SetAsWrittenAgreesOnNewKey(t, h, k, v);
        SetRefines(t, h, k, v);
        Run(SetAsWritten(t, h, k, v).0, h, ops[1..])
      case RemoveOp(k) =>
        RemoveRefines(t, h, k);
        Run(Remove(t, h, k).0, h, ops[1..])
  }

  lemma {:induction false} MapRunAppend<K, V>(m: map<K, V>, emptyKey: K, a: seq<Op<K, V>>, b: seq<Op<K, V>>)
    ensures MapRun(m, a + b) == MapRun(MapRun(m, a), b)
    ensures SetsFresh(m, emptyKey, a + b) <==> SetsFresh(m, emptyKey, a) && SetsFresh(MapRun(m, a), emptyKey, b)
    decreases |a|
  {
    if |a| > 0 {
      assert (a + b)[0] == a[0] && (a + b)[1..] == a[1..] + b;
      match a[0]
      case SetOp(k, v) => MapRunAppend(m[k := v], emptyKey, a[1..], b);
      case RemoveOp(k) => MapRunAppend(m - {k}, emptyKey, a[1..], b);
    } else {
      assert a + b == b;
    }
  }

  // ---------------------------------------------------------------------------
  // Runs of `set` alone

  /** Every operation of the run is a `set` of a key other than `emptyKey`. */
  predicate SetsOnly<K(==), V>(emptyKey: K, ops: seq<Op<K, V>>)
  {
    forall j :: 0 <= j < |ops| ==> ops[j].SetOp? && ops[j].key != emptyKey
  }

  /** The value of the last `set` of `k` in the run, if there is one. */
  function LastSet<K(==), V>(ops: seq<Op<K, V>>, k: K): Option<V>
  {
    if |ops| == 0 then None
    else if ops[|ops| - 1].SetOp? && ops[|ops| - 1].key == k then Some(ops[|ops| - 1].value)
    else LastSet(ops[..|ops| - 1], k)
  }

  /** A run of `set`s on the table, with `set` as written, overwrites present keys in
      place: no holes, so no key is stored twice. */
  function SetRun<K(==), V>(t: Table<K, V>, h: Hash<K>, ops: seq<Op<K, V>>): (r: Table<K, V>)
    requires Valid(t, h) && NoHoles(t, h) && SetsOnly(t.emptyKey, ops)
    ensures Valid(r, h) && NoHoles(r, h) && r.emptyKey == t.emptyKey
    ensures Abs(r) == MapRun(Abs(t), ops)
    decreases |ops|
  {
    if |ops| == 0 then t
    else
      var k, v := ops[0].key, ops[0].value;
      SetAsWrittenRefines(t, h, k, v);
      var t' := SetAsWritten(t, h, k, v).0;
      assert SetsOnly(t'.emptyKey, ops[1..]) by {
        assert forall j :: 0 <= j < |ops[1..]| ==> ops[1..][j] == ops[j + 1];
      }
      SetRun(t', h, ops[1..])
  }

  /** The table `init` followed by a run of `set`s builds. */
  function SetOnlyTable<K(==), V>(count: int, emptyKey: K, dummyValue: V, h: Hash<K>, ops: seq<Op<K, V>>): (r: Table<K, V>)
    requires SetsOnly(emptyKey, ops)
    ensures Valid(r, h) && NoHoles(r, h)
    ensures Abs(r) == MapRun(map[], ops)
  {
    InitValid(count, emptyKey, dummyValue, h);
    InitNoHoles(count, emptyKey, dummyValue, h);
    SetRun(Init(count, emptyKey, dummyValue), h, ops)
  }

  /** On a run of `set`s the map holds, for each key, the value of its last `set`, and
      keys never set keep their entry. */
  lemma {:induction false} MapRunLastSet<K, V>(m: map<K, V>, ops: seq<Op<K, V>>, k: K)
    requires forall j :: 0 <= j < |ops| ==> ops[j].SetOp?
    ensures LastSet(ops, k).Some? ==> k in MapRun(m, ops) && MapRun(m, ops)[k] == LastSet(ops, k).value
    ensures LastSet(ops, k).None? ==> (k in MapRun(m, ops) <==> k in m)
    ensures LastSet(ops, k).None? && k in m ==> MapRun(m, ops)[k] == m[k]
    decreases |ops|
  {
    if |ops| > 0 {
      var init, last := ops[..|ops| - 1], ops[|ops| - 1];
      assert ops == init + [last];
      MapRunLastSet(m, init, k);
      MapRunAppend(m, k, init, [last]);
      var m' := MapRun(m, init);
      assert MapRun(m', [last]) == MapRun(m'[last.key := last.value], []);
    }
  }

  /** The promise of the source's test, for tables built by `set` alone: `get(k)` is the
      value of the last `set` of `k`, and nil for a key never set. */
  lemma SetOnlyGetsLast<K, V>(count: int, emptyKey: K, dummyValue: V, h: Hash<K>, ops: seq<Op<K, V>>, k: K)
    requires SetsOnly(emptyKey, ops)
    ensures Get(SetOnlyTable(count, emptyKey, dummyValue, h, ops), h, k) == LastSet(ops, k)
  {
    var t := SetOnlyTable(count, emptyKey, dummyValue, h, ops);
    GetRefines(t, h, k);
    MapRunLastSet(map[], ops, k);
  }

  // ---------------------------------------------------------------------------
  // `smallTest()`

  function Names(): seq<string>
  {
    ["Zero", "One", "Two", "Three", "Four", "Five", "Six", "Seven", "Eight", "Nine",
     "Ten", "Eleven", "Twelve", "Thirteen", "Fourteen", "Fifteen"]
  }

  /** The sixteen names stored with the values 0 .. 15. */
  function Stores(): (ops: seq<Op<string, int>>)
    ensures |ops| == |Names()|
    ensures forall i :: 0 <= i < |ops| ==> ops[i] == SetOp(Names()[i], i)
  {
    seq(|Names()|, i requires 0 <= i < |Names()| => SetOp(Names()[i], i))
  }

  /** The calls after the stores: two removals (one of an absent key) and a store. */
  function Tail(): seq<Op<string, int>>
  {
    [RemoveOp("Sixteen"), RemoveOp("Eight"), SetOp("Sixteen", 16)]
  }

  function FirstPart(): seq<Op<string, int>>
  {
    Stores() + Tail()
  }

  /** Removals of the given keys, in order. */
  function Removals<K, V>(ks: seq<K>): (ops: seq<Op<K, V>>)
    ensures |ops| == |ks| && forall j :: 0 <= j < |ks| ==> ops[j] == RemoveOp(ks[j])
  {
    seq(|ks|, j requires 0 <= j < |ks| => RemoveOp(ks[j]))
  }

  /** The keys the second part of the test removes. */
  function SecondPartKeys(): seq<string>
  {
    ["Five", "Six", "Ten", "Twelve", "Thirteen", "Three", "Fifteen", "Fourteen", "Two", "One", "Zero"]
  }

  function SecondPart(): seq<Op<string, int>>
  {
    Removals(SecondPartKeys())
  }

  /** No operation of the run names `k`. */
  ghost predicate Untouched<K, V>(ops: seq<Op<K, V>>, k: K)
  {
    forall j :: 0 <= j < |ops| ==> ops[j].key != k
  }

  /** A run that never names `k` leaves its entry as it was. */
  lemma {:induction false} MapRunUntouched<K, V>(m: map<K, V>, ops: seq<Op<K, V>>, k: K)
    requires Untouched(ops, k)
    ensures k in MapRun(m, ops) <==> k in m
    ensures k in m ==> MapRun(m, ops)[k] == m[k]
    decreases |ops|
  {
    if |ops| > 0 {
      assert ops[0].key != k;
      assert Untouched(ops[1..], k) by {
        forall j | 0 <= j < |ops[1..]| ensures ops[1..][j].key != k {
          assert ops[1..][j] == ops[j + 1];
        }
      }
      match ops[0]
      case SetOp(k', v) => MapRunUntouched(m[k' := v], ops[1..], k);
      case RemoveOp(k') => MapRunUntouched(m - {k'}, ops[1..], k);
    }
  }

  /** A run of removals has no `set` to check and takes exactly the removed keys out
      of the map. */
  lemma {:induction false} RemovalsRun<K, V>(m: map<K, V>, emptyKey: K, ks: seq<K>)
    ensures SetsFresh(m, emptyKey, Removals<K, V>(ks))
    ensures forall k :: k in MapRun(m, Removals<K, V>(ks)) ==> k in m && k !in ks
    ensures forall k :: k in m && k !in ks ==> k in MapRun(m, Removals<K, V>(ks))
    ensures forall k :: k in MapRun(m, Removals<K, V>(ks)) ==> MapRun(m, Removals<K, V>(ks))[k] == m[k]
    decreases |ks|
  {
    if |ks| > 0 {
      var ops := Removals<K, V>(ks);
      var m' := m - {ks[0]};
      var rest := Removals<K, V>(ks[1..]);
      assert ops[0] == RemoveOp(ks[0]) && ops[1..] == rest;
      RemovalsRun(m', emptyKey, ks[1..]);
      assert MapRun(m, ops) == MapRun(m', rest);
      assert SetsFresh(m, emptyKey, ops) == SetsFresh(m', emptyKey, rest);
      assert forall k :: k in ks <==> k == ks[0] || k in ks[1..];
    }
  }

  /** A run of `set`s of distinct keys, none in the map, stores every pair and leaves
      every other key alone. */
  lemma {:induction false} StoresRun<K, V>(m: map<K, V>, emptyKey: K, ops: seq<Op<K, V>>)
    requires forall j :: 0 <= j < |ops| ==> ops[j].SetOp? && ops[j].key !in m && ops[j].key != emptyKey
    requires forall a, b :: 0 <= a < b < |ops| ==> ops[a].key != ops[b].key
    ensures SetsFresh(m, emptyKey, ops)
    ensures forall j :: 0 <= j < |ops| ==> ops[j].key in MapRun(m, ops) && MapRun(m, ops)[ops[j].key] == ops[j].value
    ensures forall k :: Untouched(ops, k) ==> (k in MapRun(m, ops) <==> k in m)
    decreases |ops|
  {
    if |ops| > 0 {
      var m' := m[ops[0].key := ops[0].value];
      var rest := ops[1..];
      assert forall j :: 0 <= j < |rest| ==> rest[j] == ops[j + 1];
      StoresRun(m', emptyKey, rest);
      forall k | Untouched(ops, k)
        ensures Untouched(rest, k)
      {
        assert forall j :: 0 <= j < |rest| ==> rest[j].key == ops[j + 1].key;
      }
      MapRunUntouched(m', rest, ops[0].key);
    }
  }

  /** The map after the first part of the test: "Five" is 5, "Eight" is gone. */
  lemma NamesDistinct()
    ensures forall a, b :: 0 <= a < b < |Names()| ==> Names()[a] != Names()[b]
    ensures forall j :: 0 <= j < |Names()| ==> Names()[j] != "" && Names()[j] != "Sixteen"
    ensures Names()[4] == "Four" && Names()[5] == "Five" && Names()[8] == "Eight"
  {
  }

  /** The tail of the first part takes "Eight" out and leaves every key other than
      "Eight" and "Sixteen" alone. */
  lemma TailMap(m: map<string, int>, k: string)
    ensures SetsFresh(m, "", Tail())
    ensures "Eight" !in MapRun(m, Tail())
    ensures k != "Sixteen" && k != "Eight" ==>
      && (k in MapRun(m, Tail()) <==> k in m)
      && (k in m ==> MapRun(m, Tail())[k] == m[k])
  {
    var t := Tail();
    assert t[1..] == [RemoveOp("Eight"), SetOp("Sixteen", 16)];
    assert t[1..][1..] == [SetOp("Sixteen", 16)];
    assert t[1..][1..][1..] == [];
    assert MapRun(m, t) == ((m - {"Sixteen"}) - {"Eight"})["Sixteen" := 16];
  }

  /** After the first part of the test "Four" is 4, "Five" is 5 and "Eight" is gone. */
  lemma FirstPartMap(e: map<string, int>)
    requires e == map[]
    ensures SetsFresh(e, "", FirstPart())
    ensures var m := MapRun(e, FirstPart());
      "Four" in m && m["Four"] == 4 && "Five" in m && m["Five"] == 5 && "Eight" !in m
  {
    NamesDistinct();
    var stores := Stores();
    StoresRun(e, "", stores);
    var m := MapRun(e, stores);
    var four, five := Names()[4], Names()[5];
    assert stores[4] == SetOp(four, 4) && stores[5] == SetOp(five, 5);
    assert four in m && m[four] == 4 && five in m && m[five] == 5;
    TailMap(m, four);
    TailMap(m, five);
    MapRunAppend(e, "", stores, Tail());
  }

  /** The second part of the test only removes, and neither "Four" nor anything after
      "Ten" is removed but "Ten" itself. */
  lemma SecondPartMap(m: map<string, int>)
    requires "Four" in m && m["Four"] == 4
    ensures SetsFresh(m, "", SecondPart())
    ensures var m' := MapRun(m, SecondPart());
      "Four" in m' && m'["Four"] == 4 && "Ten" !in m'
  {
    RemovalsRun(m, "", SecondPartKeys());
    assert "Four" !in SecondPartKeys() && "Ten" in SecondPartKeys();
  }

  /** `smallTest()`: starting from `init(count: 8, emptyKey: "", dummyValue: -1)` and
      whatever the hash function, the lookups the test asserts come out as the test
      expects. */
  lemma SmallTest(h: Hash<string>)
    ensures var t0 := Init(8, "", -1);
      Valid(t0, h) && SetsFresh(Abs(t0), "", FirstPart()) &&
      var t1 := Run(t0, h, FirstPart());
      Get(t1, h, "Five") == Some(5) && Get(t1, h, "Eight") == None &&
      SetsFresh(Abs(t1), "", SecondPart()) &&
      var t2 := Run(t1, h, SecondPart());
      Get(t2, h, "Four") == Some(4) && Get(t2, h, "Ten") == None
  {
    var t0 := Init(8, "", -1);
    InitValid(8, "", -1, h);
    FirstPartMap(Abs(t0));
    var t1 := Run(t0, h, FirstPart());
    GetRefines(t1, h, "Five");
    GetRefines(t1, h, "Eight");
    SecondPartMap(Abs(t1));
    var t2 := Run(t1, h, SecondPart());
    GetRefines(t2, h, "Four");
    GetRefines(t2, h, "Ten");
  }

  // ---------------------------------------------------------------------------
  // `set` as written stores a key twice after a removal

  /** Three pairs stored with `set` as written into a fresh table of 8 slots, then
      the second removed. */
  function AfterRemove(h: Hash<int>): Table<int, int>
  {
    var t0 := Init(8, 0, -1);
    var t1 := SetAsWritten(t0, h, 1, 10).0;
    var t2 := SetAsWritten(t1, h, 2, 20).0;
    var t3 := SetAsWritten(t2, h, 3, 30).0;
    Remove(t3, h, 2).0
  }

  /** A fresh key whose probe stops at a free slot is placed there, with no growth
      while two slots are left. */
  lemma StoreFresh<K, V>(t: Table<K, V>, h: Hash<K>, key: K, value: V, home: int, i: int, p: nat)
    requires Valid(t, h) && key != t.emptyKey && key !in Abs(t)
    requires home == Home(h, key, t.size) && SetProbe(t, key, home) == Free(i, p)
    requires t.elementNum + 2 < t.size
    ensures var t' := SetAsWritten(t, h, key, value).0;
      && Valid(t', h) && Abs(t') == Abs(t)[key := value]
      && StoredAt(t, t', key, value, home, i, p)
  {
    SetAsWrittenAgreesOnNewKey(t, h, key, value);
    SetRefines(t, h, key, value);
  }

  /** The first three probes from home 0 in a table of 8 slots visit slots 0, 1 and 3. */
  lemma FirstProbes<K, V>(t: Table<K, V>, key: K)
    requires Shaped(t) && t.size == 8
    ensures !t.occupied[0] ==> SetProbe(t, key, 0) == Free(0, 0)
    ensures t.occupied[0] && t.keys[0] != key && !t.occupied[1] ==> SetProbe(t, key, 0) == Free(1, 1)
    ensures t.occupied[0] && t.keys[0] != key && t.occupied[1] && t.keys[1] != key && !t.occupied[3] ==>
      SetProbe(t, key, 0) == Free(3, 2)
  {
    ProbeZero(0, 8);
    ProbeStep(0, 0, 8);
    ProbeStep(0, 1, 8);
    assert ProbeIndex(0, 1, 8) == 1 && ProbeIndex(0, 2, 8) == 3;
  }

  lemma Store1(h: Hash<int>, t0: Table<int, int>)
    requires h(1) % 8 == 0 && t0 == Init(8, 0, -1)
    ensures var t1 := SetAsWritten(t0, h, 1, 10).0;
      && Valid(t1, h) && t1.emptyKey == 0 && Abs(t1) == map[1 := 10] && t1.size == 8 && t1.elementNum == 1
      && t1.occupied[0] && t1.keys[0] == 1 && !t1.occupied[1] && !t1.occupied[3]
      && t1.relocatedTo[0] == [] && t1.relocatedTo[1] == []
  {
    InitValid(8, 0, -1, h);
    FirstProbes(t0, 1);
    StoreFresh(t0, h, 1, 10, 0, 0, 0);
  }

  lemma Store2(h: Hash<int>, t1: Table<int, int>)
    requires h(2) % 8 == 0
    requires && Valid(t1, h) && t1.emptyKey == 0 && Abs(t1) == map[1 := 10] && t1.size == 8 && t1.elementNum == 1
      && t1.occupied[0] && t1.keys[0] == 1 && !t1.occupied[1] && !t1.occupied[3]
      && t1.relocatedTo[0] == [] && t1.relocatedTo[1] == []
    ensures var t2 := SetAsWritten(t1, h, 2, 20).0;
      && Valid(t2, h) && t2.emptyKey == 0 && Abs(t2) == map[1 := 10, 2 := 20] && t2.size == 8 && t2.elementNum == 2
      && t2.occupied[0] && t2.keys[0] == 1 && t2.occupied[1] && t2.keys[1] == 2 && !t2.occupied[3]
      && t2.relocatedTo[0] == [1] && t2.relocatedTo[1] == []
  {
    assert Home(h, 2, 8) == 0 && 2 !in Abs(t1);
    FirstProbes(t1, 2);
    StoreFresh(t1, h, 2, 20, 0, 1, 1);
  }

  lemma Store3(h: Hash<int>, t2: Table<int, int>)
    requires h(3) % 8 == 0
    requires && Valid(t2, h) && t2.emptyKey == 0 && Abs(t2) == map[1 := 10, 2 := 20] && t2.size == 8 && t2.elementNum == 2
      && t2.occupied[0] && t2.keys[0] == 1 && t2.occupied[1] && t2.keys[1] == 2 && !t2.occupied[3]
      && t2.relocatedTo[0] == [1] && t2.relocatedTo[1] == []
    ensures var t3 := SetAsWritten(t2, h, 3, 30).0;
      && Valid(t3, h) && t3.emptyKey == 0 && Abs(t3) == map[1 := 10, 2 := 20, 3 := 30] && t3.size == 8
      && t3.occupied[0] && t3.keys[0] == 1 && t3.occupied[1] && t3.keys[1] == 2
      && t3.occupied[3] && t3.keys[3] == 3 && t3.values[3] == 30
      && t3.relocatedTo[0] == [1, 3] && t3.relocatedTo[1] == []
  {
    assert Home(h, 3, 8) == 0 && 3 !in Abs(t2);
    FirstProbes(t2, 3);
    StoreFresh(t2, h, 3, 30, 0, 3, 2);
  }

  lemma RemoveSecond(h: Hash<int>, t3: Table<int, int>)
    requires h(2) % 8 == 0
    requires && Valid(t3, h) && t3.emptyKey == 0 && Abs(t3) == map[1 := 10, 2 := 20, 3 := 30] && t3.size == 8
      && t3.occupied[0] && t3.keys[0] == 1 && t3.occupied[1] && t3.keys[1] == 2
      && t3.occupied[3] && t3.keys[3] == 3 && t3.values[3] == 30
      && t3.relocatedTo[0] == [1, 3] && t3.relocatedTo[1] == []
    ensures var t4 := Remove(t3, h, 2).0;
      && Valid(t4, h) && t4.emptyKey == 0 && Abs(t4) == map[1 := 10, 3 := 30] && t4.size == 8
      && t4.occupied[0] && t4.keys[0] == 1 && !t4.occupied[1]
      && t4.occupied[3] && t4.keys[3] == 3 && t4.values[3] == 30
      && t4.relocatedTo[0] == [3]
  {
    RemoveRefines(t3, h, 2);
    assert Home(h, 2, 8) == 0;
    var (i, t) := FindIndex(t3, h, 2, true);
    assert FindIn(t3, 2, [1, 3], 0) == 0;
    assert i == 1 && t.relocatedTo[0] == [3] && t.relocatedTo[1] == [];
    assert (map[1 := 10, 2 := 20, 3 := 30] - {2}) == map[1 := 10, 3 := 30];
  }

  /** With keys 1, 2 and 3 all at home 0 in a table of 8 slots: 1 takes slot 0, 2 slot 1
      and 3 slot 3 (slot 0's relocation list is [1, 3]). Removing 2 frees slot 1.
      Storing 3 again, `set` as written probes slot 0, then slot 1, finds it free and
      stores a second copy of 3 there, appending 1 to the list, which is now [3, 1]. The
      table holds 3 twice, and `get` scans the list in order and still answers the old
      value 30. The corrected `Set` answers the new value. */
  lemma SetAsWrittenStoresTwice(h: Hash<int>)
    requires h(1) % 8 == 0 && h(2) % 8 == 0 && h(3) % 8 == 0
    ensures var t4 := AfterRemove(h);
      Valid(t4, h) && t4.emptyKey == 0 && Abs(t4) == map[1 := 10, 3 := 30] &&
      var t5 := SetAsWritten(t4, h, 3, 40).0;
      && t5.occupied[1] && t5.occupied[3] && t5.keys[1] == 3 == t5.keys[3]
      && !Consistent(t5, h)
      && Get(t5, h, 3) == Some(30)
      && Get(Set(t4, h, 3, 40).0, h, 3) == Some(40)
  {
    var t0 := Init(8, 0, -1);
    Store1(h, t0);
    var t1 := SetAsWritten(t0, h, 1, 10).0;
    Store2(h, t1);
    var t2 := SetAsWritten(t1, h, 2, 20).0;
    Store3(h, t2);
    var t3 := SetAsWritten(t2, h, 3, 30).0;
    RemoveSecond(h, t3);
    var t4 := Remove(t3, h, 2).0;
    assert t4 == AfterRemove(h);
    StoreTwice(h, t4);
  }

  /** The same run through the subscript, as a program writes it: `ht[2] = nil` is the
      remove of `AfterRemove`, and then `ht[3] = 40` leaves `ht[3]` reading 30, while the
      subscript with the corrected `set` reads 40. */
  lemma SubscriptStoresTwice(h: Hash<int>)
    requires h(1) % 8 == 0 && h(2) % 8 == 0 && h(3) % 8 == 0
    ensures var t4 := AfterRemove(h);
      Valid(t4, h) && Abs(t4) == map[1 := 10, 3 := 30] &&
      var t5 := SubscriptSet(t4, h, 3, Some(40));
      && !Consistent(t5, h)
      && Get(t5, h, 3) == Some(30)
      && Get(SubscriptSetCorrected(t4, h, 3, Some(40)), h, 3) == Some(40)
  {
    SetAsWrittenStoresTwice(h);
  }

  lemma StoreTwice(h: Hash<int>, t4: Table<int, int>)
    requires h(3) % 8 == 0
    requires && Valid(t4, h) && t4.emptyKey == 0 && Abs(t4) == map[1 := 10, 3 := 30] && t4.size == 8
      && t4.occupied[0] && t4.keys[0] == 1 && !t4.occupied[1]
      && t4.occupied[3] && t4.keys[3] == 3 && t4.values[3] == 30
      && t4.relocatedTo[0] == [3]
    ensures var t5 := SetAsWritten(t4, h, 3, 40).0;
      && t5.occupied[1] && t5.occupied[3] && t5.keys[1] == 3 == t5.keys[3]
      && !Consistent(t5, h)
      && Get(t5, h, 3) == Some(30)
      && Get(Set(t4, h, 3, 40).0, h, 3) == Some(40)
  {
    assert Home(h, 3, 8) == 0;
    FirstProbes(t4, 3);
    CountRefines(t4, h);
    assert |Abs(t4)| == 2;
    var t5 := SetAsWritten(t4, h, 3, 40).0;
    assert t5 == Place(t4, 3, 40, 0, 1, 1);
    assert t5.relocatedTo[0] == [3, 1];
    assert FindIn(t5, 3, [3, 1], 0) == 0;
    assert Live(t5, -1, 1) && Live(t5, -1, 3) && t5.keys[1] == t5.keys[3];
    assert !KeysDistinct(t5, -1);
    assert FindIn(t4, 3, [3], 0) == 0;
  }
}

=== FILE: messages.dfy ===
/** The message taxonomy (Sources/Message.swift).

    Every message carries the sender slot of the base class (`ActorRef!`, possibly nil).
    The subclasses form a closed set here: plain user messages and the system messages
    the runtime interprets. Errors, reply callbacks and operation ids are opaque
    identities. */
module Messages {
  import opened Wrappers
  import opened ActorRefs

  /** A Swift `Error` value. */
  type ErrorId = nat
  /** A reply callback closure `(Any?) -> Void`. */
  type ActionId = nat

  /** What an answer of type `Any?` can hold: the initial `false` of a cell's reply
      slot, an actor reference (the reply to an `ActorSelect`), or any other value. */
  datatype Value = BoolValue(b: bool) | RefValue(ref: Ref) | OpaqueValue(id: nat)

  datatype Message =
    | UserMessage(sender: Option<Ref>, body: nat)
    | PoisonPill(sender: Option<Ref>)
    | Terminated(sender: Option<Ref>)
    | MessageWithOperationId(sender: Option<Ref>, operationId: nat)
    | ErrorMessage(sender: Option<Ref>, error: ErrorId)
    | DeadLetter(sender: Option<Ref>, message: Message)
    | AskMessage(sender: Option<Ref>, msg: Message, answerAction: ActionId)
    | AnswerMessage(sender: Option<Ref>, answer: Option<Value>, answerAction: ActionId)
    | ActorSelect(sender: Option<Ref>, path: string, answerAction: ActionId)
  {
    /** Every class except the plain `Message` derives from `SystemMessage`. */
    predicate IsSystem()
    {
      !UserMessage?
    }
  }

  /** The shape the initialisers guarantee: errors, answers and selections always have
      a sender, and an ask carries the sender of the message it wraps. */
  ghost predicate WellFormed(m: Message)
  {
    match m
    case ErrorMessage(s, _) => s.Some?
    case AnswerMessage(s, _, _) => s.Some?
    case ActorSelect(s, _, _) => s.Some?
    case AskMessage(s, inner, _) => s == inner.sender && WellFormed(inner)
    case DeadLetter(_, inner) => WellFormed(inner)
    case _ => true
  }

  /** `Message(sender:)` for an application message with payload `body`. */
  function NewMessage(sender: Option<Ref>, body: nat): (m: Message)
    ensures !m.IsSystem() && m.sender == sender && WellFormed(m)
  {
    UserMessage(sender, body)
  }

  function NewPoisonPill(sender: Option<Ref>): (m: Message)
    ensures m.PoisonPill? && m.IsSystem() && m.sender == sender && WellFormed(m)
  {
    PoisonPill(sender)
  }

  function NewTerminated(sender: Option<Ref>): (m: Message)
    ensures m.Terminated? && m.IsSystem() && m.sender == sender && WellFormed(m)
  {
    Terminated(sender)
  }

  function NewMessageWithOperationId(sender: Option<Ref>, operationId: nat): (m: Message)
    ensures m.MessageWithOperationId? && m.IsSystem() && WellFormed(m)
    ensures m.sender == sender && m.operationId == operationId
  {
    MessageWithOperationId(sender, operationId)
  }

  /** `ErrorMessage(_:sender:)` takes a non-optional sender. */
  function NewErrorMessage(e: ErrorId, sender: Ref): (m: Message)
    ensures m.ErrorMessage? && m.IsSystem() && WellFormed(m)
    ensures m.sender == Some(sender) && m.error == e
  {
    ErrorMessage(Some(sender), e)
  }

  /** `DeadLetter(message:sender:)` keeps the undelivered message unchanged. */
  function NewDeadLetter(message: Message, sender: Option<Ref>): (m: Message)
    requires WellFormed(message)
    ensures m.DeadLetter? && m.IsSystem() && WellFormed(m)
    ensures m.message == message && m.sender == sender
  {
    DeadLetter(sender, message)
  }

  /** `AskMessage(_:answerAction:)` takes its sender from the wrapped message. */
  function NewAskMessage(msg: Message, answerAction: ActionId): (m: Message)
    requires WellFormed(msg)
    ensures m.AskMessage? && m.IsSystem() && WellFormed(m)
    ensures m.sender == msg.sender && m.msg == msg && m.answerAction == answerAction
  {
    AskMessage(msg.sender, msg, answerAction)
  }

  /** `AnswerMessage(sender:answer:answerAction:)` carries the answer and the callback
      unchanged. */
  function NewAnswerMessage(sender: Ref, answer: Option<Value>, answerAction: ActionId): (m: Message)
    ensures m.AnswerMessage? && m.IsSystem() && WellFormed(m)
    ensures m.sender == Some(sender) && m.answer == answer && m.answerAction == answerAction
  {
    AnswerMessage(Some(sender), answer, answerAction)
  }

  /** `ActorSelect(path:sender:_:)` must have a sender. */
  function NewActorSelect(path: string, sender: Ref, answerAction: ActionId): (m: Message)
    ensures m.ActorSelect? && m.IsSystem() && WellFormed(m)
    ensures m.sender == Some(sender) && m.path == path && m.answerAction == answerAction
  {
    ActorSelect(Some(sender), path, answerAction)
  }
}

=== FILE: paths.dfy ===
/** Path strings as the cell reads them: a prefix test and `components(separatedBy:)`
    on the separator "/". */
module Paths {

  /** `s.hasPrefix(p)`, character by character. */
  predicate HasPrefix(s: string, p: string)
  {
    |p| <= |s| && s[..|p|] == p
  }

  /** `s.components(separatedBy: "/")`: the pieces between separators, in order. There
      is always at least one piece; an empty string gives one empty piece and every
      separator starts a new piece. */
  function Split(s: string): (parts: seq<string>)
    ensures |parts| >= 1
    ensures forall i :: 0 <= i < |parts| ==> '/' !in parts[i]
    decreases |s|
  {
    if |s| == 0 then [""]
    else
      var rest := Split(s[1..]);
      if s[0] == '/' then [""] + rest
      else [[s[0]] + rest[0]] + rest[1..]
  }

  /** The pieces glued back with "/" between them. */
  function Join(parts: seq<string>): string
    requires |parts| >= 1
    decreases |parts|
  {
    if |parts| == 1 then parts[0] else parts[0] + "/" + Join(parts[1..])
  }

  /** Splitting loses nothing: joining the pieces gives the string back. */
  lemma {:induction false} JoinSplit(s: string)
    ensures Join(Split(s)) == s
    decreases |s|
  {
    if |s| > 0 {
      JoinSplit(s[1..]);
      var rest := Split(s[1..]);
      if s[0] == '/' {
        assert Split(s)[1..] == rest;
      } else {
        if |rest| > 1 {
          assert Split(s)[1..] == rest[1..];
        }
      }
    }
  }

  /** A leading character other than the separator extends the first piece. */
  lemma SplitCons(c: char, x: string)
    requires c != '/'
    ensures Split([c] + x) == [[c] + Split(x)[0]] + Split(x)[1..]
  {
    assert ([c] + x)[1..] == x;
  }

  /** Joining pieces whose first starts with `c` starts with `c`. */
  lemma JoinCons(parts: seq<string>, c: char, tail: seq<string>)
    requires |parts| >= 1 && |parts[0]| > 0 && parts[0][0] == c
    requires tail == [parts[0][1..]] + parts[1..]
    ensures Join(parts) == [c] + Join(tail)
  {
    assert parts[0] == [c] + parts[0][1..];
    if |parts| > 1 {
      assert tail[1..] == parts[1..];
    }
  }

  /** Splitting a join of separator-free pieces gives the pieces back. */
  lemma {:induction false} SplitJoin(parts: seq<string>)
    requires |parts| >= 1
    requires forall i :: 0 <= i < |parts| ==> '/' !in parts[i]
    ensures Split(Join(parts)) == parts
    decreases |parts|, |parts[0]|
  {
    if |parts[0]| == 0 {
      if |parts| > 1 {
        SplitJoin(parts[1..]);
        assert Join(parts) == "/" + Join(parts[1..]);
        assert ("/" + Join(parts[1..]))[1..] == Join(parts[1..]);
        assert parts == [""] + parts[1..];
      }
    } else {
      var c := parts[0][0];
      var p0 := parts[0][1..];
      assert parts[0] == [c] + p0;
      assert c in parts[0];
      var tail := [p0] + parts[1..];
      forall i | 0 <= i < |tail|
        ensures '/' !in tail[i]
      {
        if i == 0 {
          assert forall x :: x in p0 ==> x in parts[0];
        } else {
          assert tail[i] == parts[i];
        }
      }
      SplitJoin(tail);
      JoinCons(parts, c, tail);
      SplitCons(c, Join(tail));
      assert parts == [[c] + tail[0]] + tail[1..];
    }
  }

  /** A string with no separator is one piece. */
  lemma {:induction false} SplitNoSeparator(s: string)
    requires '/' !in s
    ensures Split(s) == [s]
  {
    SplitJoin([s]);
  }
}

=== FILE: probe_math.dfy ===
/** Arithmetic behind the hash table's probe sequence.

    Starting from a home slot `h`, the table visits `h`, then adds 1, then 2, then 3, ...
    (modulo the table size), so after `p` probes it sits at `(h + Tri(p)) % n` where
    `Tri(p) = 0 + 1 + ... + p`. When `n` is a power of two these `n` positions are all
    distinct, so a probe of `n` steps visits every slot exactly once. */
module ProbeMath {

  /** Triangular numbers: the offset from home after `p` probes. */
  function Tri(p: nat): nat
  {
    if p == 0 then 0 else Tri(p - 1) + p
  }

  /** `n` is 1, 2, 4, 8, ... */
  ghost predicate IsPow2(n: int)
    decreases if n > 0 then n else 0
  {
    n == 1 || (n >= 2 && n % 2 == 0 && IsPow2(n / 2))
  }

  /** The slot visited after `p` probes from `home` in a table of `n` slots. */
  function ProbeIndex(home: int, p: nat, n: int): int
    requires n > 0
  {
    (home + Tri(p)) % n
  }

  /** The set of slots `0 .. n-1`. */
  ghost function Range(n: nat): set<int>
  {
    if n == 0 then {} else Range(n - 1) + {n - 1}
  }

  /** The slots visited by the first `k` probes from `home`. */
  ghost function Visited(home: int, k: nat, n: int): set<int>
    requires n > 0
  {
    set q | 0 <= q < k :: ProbeIndex(home, q, n)
  }

  // ---------------------------------------------------------------------------
  // Division and remainder

  lemma MulAtLeast(x: int, n: int)
    requires x >= 1 && n > 0
    ensures x * n >= n
  {
  }

  lemma MulAtMost(x: int, n: int)
    requires x <= -1 && n > 0
    ensures x * n <= -n
  {
  }

  /** Euclidean division is unique. */
  lemma ModUnique(a: int, n: int, q: int, r: int)
    requires n > 0 && 0 <= r < n && a == q * n + r
    ensures a % n == r && a / n == q
  {
    var q0, r0 := a / n, a % n;
    assert a == q0 * n + r0;
    assert (q - q0) * n == r0 - r;
    if q > q0 {
      MulAtLeast(q - q0, n);
    } else if q < q0 {
      MulAtMost(q - q0, n);
    }
  }

  lemma ModAddLeft(a: int, b: int, n: int)
    requires n > 0
    ensures (a % n + b) % n == (a + b) % n
  {
    var q := a / n;
    assert a == q * n + a % n;
    var z := a % n + b;
    var q1, r1 := z / n, z % n;
    assert z == q1 * n + r1;
    assert a + b == (q1 + q) * n + r1;
    ModUnique(a + b, n, q1 + q, r1);
  }

  /** Equal remainders mean the difference is a multiple of `n`. */
  lemma SameModDiff(a: int, b: int, n: int)
    requires n > 0 && a % n == b % n
    ensures b - a == (b / n - a / n) * n
  {
    assert a == (a / n) * n + a % n;
    assert b == (b / n) * n + b % n;
  }

  // ---------------------------------------------------------------------------
  // Powers of two and odd factors

  lemma Pow2Half(n: int)
    requires IsPow2(n) && n != 1
    ensures n >= 2 && n == 2 * (n / 2) && IsPow2(n / 2)
  {
  }

  lemma Pow2Positive(n: int)
    requires IsPow2(n)
    ensures n >= 1
  {
  }

  lemma OddTimesOdd(x: int, y: int)
    requires x % 2 == 1 && y % 2 == 1
    ensures (x * y) % 2 == 1
  {
    var i, j := x / 2, y / 2;
    assert x == 2 * i + 1 && y == 2 * j + 1;
    assert x * y == 2 * (2 * i * j + i + j) + 1;
    ModUnique(x * y, 2, 2 * i * j + i + j, 1);
  }

  /** A power of two `n` never divides `x * y` when `0 < x < n` and `y` is odd. */
  lemma {:induction false} NoPow2DividesOddMultiple(n: int, x: int, y: int, c: int)
    requires IsPow2(n) && 0 < x < n && y % 2 == 1
    ensures x * y != c * n
    decreases n
  {
    if n != 1 {
      Pow2Half(n);
      var m := n / 2;
      if x % 2 == 1 {
        OddTimesOdd(x, y);
        if x * y == 2 * (c * m) {
          ModUnique(x * y, 2, c * m, 0);
        }
      } else {
        var x' := x / 2;
        assert x == 2 * x';
        assert x * y == 2 * (x' * y);
        NoPow2DividesOddMultiple(m, x', y, c);
      }
    }
  }

  // ---------------------------------------------------------------------------
  // Triangular numbers

  lemma {:induction false} TriClosed(p: nat)
    ensures 2 * Tri(p) == p * (p + 1)
  {
    if p > 0 {
      TriClosed(p - 1);
    }
  }

  lemma TriDiff(a: nat, b: nat)
    requires a < b
    ensures 2 * (Tri(b) - Tri(a)) == (b - a) * (a + b + 1)
  {
    TriClosed(a);
    TriClosed(b);
  }

  lemma HalveProduct(d: int, x: int, h: int)
    requires 2 * d == x * (2 * h)
    ensures d == h * x
  {
  }

  /** `2 * d == x * y` with `x + y` odd, `0 < x < n` and `0 < y < 2n`: a power of two
      `n` cannot divide `d`. */
  lemma HalfProductNotMultiple(n: int, x: int, y: int, d: int, c: int)
    requires IsPow2(n) && 0 < x < n && 0 < y < 2 * n && (x + y) % 2 == 1
    requires 2 * d == x * y
    ensures d != c * n
  {
    if x % 2 == 1 {
      var h := y / 2;
      assert y == 2 * h;
      HalveProduct(d, x, h);
      NoPow2DividesOddMultiple(n, h, x, c);
    } else {
      var e := x / 2;
      assert x == 2 * e;
      assert 2 * d == y * (2 * e);
      HalveProduct(d, y, e);
      NoPow2DividesOddMultiple(n, e, y, c);
    }
  }

  /** Two different probe counts below a power of two land on different offsets. */
  lemma TriInjective(n: int, a: nat, b: nat)
    requires IsPow2(n) && a < b < n
    ensures Tri(a) % n != Tri(b) % n
  {
    Pow2Positive(n);
    if Tri(a) % n == Tri(b) % n {
      var d, c := Tri(b) - Tri(a), Tri(b) / n - Tri(a) / n;
      SameModDiff(Tri(a), Tri(b), n);
      assert d == c * n;
      TriDiff(a, b);
      HalfProductNotMultiple(n, b - a, a + b + 1, d, c);
    }
  }

  /** A multiple of `n` strictly between `-n` and `n` is zero. */
  lemma SmallMultipleZero(d: int, k: int, n: int)
    requires n > 0 && -n < d < n && d == k * n
    ensures d == 0
  {
    if k > 0 {
      MulAtLeast(k, n);
    } else if k < 0 {
      MulAtMost(k, n);
    }
  }

  /** Adding the same shift to two remainders keeps them apart modulo `n`. */
  lemma ModShiftInjective(x: int, y: int, s: int, n: int)
    requires n > 0 && 0 <= x < n && 0 <= y < n && (x + s) % n == (y + s) % n
    ensures x == y
  {
    SameModDiff(x + s, y + s, n);
    SmallMultipleZero(y - x, (y + s) / n - (x + s) / n, n);
  }

  /** Probe positions from the same home differ for different probe counts below `n`. */
  lemma ProbeInjective(home: int, n: int, a: nat, b: nat)
    requires IsPow2(n) && a < b < n
    ensures ProbeIndex(home, a, n) != ProbeIndex(home, b, n)
  {
    Pow2Positive(n);
    TriInjective(n, a, b);
    ModAddLeft(Tri(a), home, n);
    ModAddLeft(Tri(b), home, n);
    if ProbeIndex(home, a, n) == ProbeIndex(home, b, n) {
      ModShiftInjective(Tri(a) % n, Tri(b) % n, home, n);
    }
  }

  /** One probe step in the table's own terms: adding the new probe count to the
      current index and reducing modulo `n` lands on the next triangular position. */
  lemma ProbeStep(home: int, p: nat, n: int)
    requires n > 0
    ensures (ProbeIndex(home, p, n) + (p + 1)) % n == ProbeIndex(home, p + 1, n)
  {
    ModAddLeft(home + Tri(p), p + 1, n);
  }

  /** The first probe is the home slot itself. */
  lemma ProbeZero(home: int, n: int)
    requires 0 <= home < n
    ensures ProbeIndex(home, 0, n) == home
  {
    ModUnique(home + Tri(0), n, 0, home);
  }

  // ---------------------------------------------------------------------------
  // Coverage: n injective probes inside n slots reach every slot

  lemma {:induction false} RangeMembers(n: nat)
    ensures forall x :: x in Range(n) <==> 0 <= x < n
  {
    if n > 0 {
      RangeMembers(n - 1);
    }
  }

  lemma {:induction false} RangeSize(n: nat)
    ensures |Range(n)| == n
  {
    if n > 0 {
      RangeSize(n - 1);
      assert n - 1 !in Range(n - 1) by { RangeMembers(n - 1); }
    }
  }

  lemma {:induction false} SubsetSize<T>(a: set<T>, b: set<T>)
    requires a <= b
    ensures |a| <= |b|
    decreases |b|
  {
    if b != {} {
      var y :| y in b;
      SubsetSize(a - {y}, b - {y});
    } else {
      assert a == {};
    }
  }

  lemma {:induction false} VisitedSize(home: int, k: nat, n: int)
    requires IsPow2(n) && k <= n
    ensures |Visited(home, k, n)| == k
  {
    Pow2Positive(n);
    if k > 0 {
      VisitedSize(home, k - 1, n);
      assert Visited(home, k, n) == Visited(home, k - 1, n) + {ProbeIndex(home, k - 1, n)};
      if ProbeIndex(home, k - 1, n) in Visited(home, k - 1, n) {
        var q :| 0 <= q < k - 1 && ProbeIndex(home, q, n) == ProbeIndex(home, k - 1, n);
        ProbeInjective(home, n, q, k - 1);
      }
    }
  }

  /** Every slot of a power-of-two table is visited within `n` probes from any home. */
  lemma ProbeCovers(home: int, n: int, x: int)
    requires IsPow2(n) && 0 <= x < n
    ensures exists q :: 0 <= q < n && ProbeIndex(home, q, n) == x
  {
    Pow2Positive(n);
    VisitedSize(home, n, n);
    RangeSize(n);
    RangeMembers(n);
    if x !in Visited(home, n, n) {
      assert Visited(home, n, n) <= Range(n) - {x};
      SubsetSize(Visited(home, n, n), Range(n) - {x});
    }
  }

  /** The probe count at which the probe sequence from `home` reaches slot `i`: it
      exists by `ProbeCovers` and is unique by `ProbeInjective`. */
  ghost function ProbeCount(home: int, i: int, n: int): (p: nat)
    requires IsPow2(n) && 0 <= i < n
    ensures p < n && ProbeIndex(home, p, n) == i
  {
    ProbeCovers(home, n, i);
    var p: nat :| p < n && ProbeIndex(home, p, n) == i;
    p
  }

  /** Any probe count below `n` that reaches slot `i` is `ProbeCount`. */
  lemma ProbeCountUnique(home: int, i: int, n: int, q: nat)
    requires IsPow2(n) && 0 <= i < n && q < n && ProbeIndex(home, q, n) == i
    ensures q == ProbeCount(home, i, n)
  {
    var p := ProbeCount(home, i, n);
    if q < p {
      ProbeInjective(home, n, q, p);
    } else if p < q {
      ProbeInjective(home, n, p, q);
    }
  }
}

=== FILE: stacks.dfy ===
/** The generic LIFO stack (Sources/Stack.swift), over an array whose last element is
    the top. The class mutates in place; here every operation returns the new stack. */
module Stacks {
  import opened Wrappers

  datatype Stack<A> = Stack(elems: seq<A>)

  /** `init()`: an empty stack. */
  function New<A>(): (s: Stack<A>)
    ensures IsEmpty(s) && Head(s) == None
  {
    Stack([])
  }

  /** `push(element:)`: append at the top. */
  function Push<A>(s: Stack<A>, e: A): (s': Stack<A>)
    ensures |s'.elems| == |s.elems| + 1
    ensures Head(s') == Some(e)
    ensures s'.elems[..|s.elems|] == s.elems
  {
    Stack(s.elems + [e])
  }

  /** `pop()`: remove and return the top, or nil on an empty stack. */
  function Pop<A>(s: Stack<A>): (res: (Option<A>, Stack<A>))
    ensures IsEmpty(s) ==> res.0 == None && res.1 == s
    ensures !IsEmpty(s) ==> res.0 == Head(s) && Push(res.1, res.0.value) == s
  {
    if |s.elems| == 0 then (None, s)
    else (Some(s.elems[|s.elems| - 1]), Stack(s.elems[..|s.elems| - 1]))
  }

  /** `head()`: the top without removing it. */
  function Head<A>(s: Stack<A>): (h: Option<A>)
    ensures h.None? <==> |s.elems| == 0
    ensures h.Some? ==> h.value == s.elems[|s.elems| - 1]
  {
    if |s.elems| == 0 then None else Some(s.elems[|s.elems| - 1])
  }

  /** `isEmpty()`. */
  function IsEmpty<A>(s: Stack<A>): (b: bool)
    ensures b <==> |s.elems| == 0
  {
    |s.elems| == 0
  }

  /** `replaceHead(element:)` is called by Actor.become but its definition is not part of
      this model. ASSUMED contract: replace the top of a non-empty stack, push onto an
      empty one. */
  function ReplaceHead<A>(s: Stack<A>, e: A): (s': Stack<A>)
    ensures Head(s') == Some(e)
    ensures IsEmpty(s) ==> s' == Push(s, e)
    ensures !IsEmpty(s) ==> s' == Push(Pop(s).1, e)
  {
    if |s.elems| == 0 then Stack([e]) else Stack(s.elems[..|s.elems| - 1] + [e])
  }

  /** Popping right after a push returns the pushed element and the earlier stack. */
  lemma PushPop<A>(s: Stack<A>, e: A)
    ensures Pop(Push(s, e)) == (Some(e), s)
  {
    assert (s.elems + [e])[..|s.elems|] == s.elems;
  }

  /** Popping an empty stack yields nil and leaves it empty. */
  lemma PopEmpty<A>()
    ensures Pop(New<A>()) == (None, New<A>())
  {
  }
}

=== FILE: worklists.dfy ===
/** A FIFO work list drained to completion: the loop shared by the executor's
    `putAndRun` (Sources/Executor.swift) and the actor's `processMessage`
    (Sources/Actor.swift). Each item processed may append items to the queue; the loop
    stops when the queue is empty. `FastQueue` is not part of this model; it is taken to
    be a FIFO queue, modelled as a sequence. */
module Worklists {
  import opened Wrappers

  /** The items added, in order, by processing the items of `log` in order. */
  function Submitted<T>(log: seq<T>, submits: T -> seq<T>): seq<T>
    decreases |log|
  {
    if |log| == 0 then [] else submits(log[0]) + Submitted(log[1..], submits)
  }

  /** `log` is a complete run of the drain loop from `queue`: it processes the queue
      and then everything the processed items add, in FIFO order, and each item it
      processes was queued, or added by an item processed before it. */
  ghost predicate IsRunLog<T>(queue: seq<T>, submits: T -> seq<T>, log: seq<T>)
  {
    && log == queue + Submitted(log, submits)
    && forall i :: 0 <= i < |log| ==> i < |queue| + |Submitted(log[..i], submits)|
  }

  /** The drain loop `while let x = queue.dequeue() { process(x) }`, where processing
      `x` appends `submits(x)` to the queue. Returns the items processed, in order, or
      `None` when `fuel` runs out before the queue empties (the source would keep
      running). */
  function RunQueue<T>(queue: seq<T>, submits: T -> seq<T>, fuel: nat): (log: Option<seq<T>>)
    ensures log.Some? ==> IsRunLog(queue, submits, log.value)
    decreases fuel
  {
    if |queue| == 0 then Some([])
    else if fuel == 0 then None
    else
      var t := queue[0];
      match RunQueue(queue[1..] + submits(t), submits, fuel - 1)
      case None => None
      case Some(rest) =>
        RunLogCons(queue, submits, rest);
        Some([t] + rest)
  }

  /** Processing the first queued item, then a complete run from the rest of the queue
      followed by what that item added, is a complete run from the queue. */
  lemma RunLogCons<T>(queue: seq<T>, submits: T -> seq<T>, rest: seq<T>)
    requires |queue| > 0 && IsRunLog(queue[1..] + submits(queue[0]), submits, rest)
    ensures IsRunLog(queue, submits, [queue[0]] + rest)
  {
    var t := queue[0];
    var log := [t] + rest;
    assert log[1..] == rest;
    forall i | 0 <= i < |log|
      ensures i < |queue| + |Submitted(log[..i], submits)|
    {
      if i > 0 {
        assert log[..i] == [t] + rest[..i - 1];
        assert log[..i][1..] == rest[..i - 1];
      }
    }
  }

  lemma {:induction false} SubmittedAppend<T>(a: seq<T>, b: seq<T>, submits: T -> seq<T>)
    ensures Submitted(a + b, submits) == Submitted(a, submits) + Submitted(b, submits)
    decreases |a|
  {
    if |a| == 0 {
      assert a + b == b;
    } else {
      assert (a + b)[0] == a[0] && (a + b)[1..] == a[1..] + b;
      SubmittedAppend(a[1..], b, submits);
    }
  }

  /** The slot `i` of a complete run is fixed by the items processed before it: a
      queued item, or one added by an earlier item. */
  lemma RunLogAt<T>(queue: seq<T>, submits: T -> seq<T>, log: seq<T>, i: int)
    requires IsRunLog(queue, submits, log) && |queue| <= i < |log|
    ensures log[i] == Submitted(log[..i], submits)[i - |queue|]
  {
    assert log == log[..i] + log[i..];
    SubmittedAppend(log[..i], log[i..], submits);
  }

  /** A complete run is not a proper prefix of another: the longer one would process
      an item beyond everything the shorter one queued or added. */
  lemma RunLogPrefix<T>(queue: seq<T>, submits: T -> seq<T>, a: seq<T>, b: seq<T>)
    requires IsRunLog(queue, submits, a) && IsRunLog(queue, submits, b)
    requires |a| <= |b| && a == b[..|a|]
    ensures a == b
  {
  }

  /** A complete run is determined by the queue and what each item adds: the drain
      loop has exactly one outcome. */
  lemma RunLogUnique<T>(queue: seq<T>, submits: T -> seq<T>, a: seq<T>, b: seq<T>)
    requires IsRunLog(queue, submits, a) && IsRunLog(queue, submits, b)
    ensures a == b
  {
    var n := if |a| <= |b| then |a| else |b|;
    var k := 0;
    while k < n
      invariant 0 <= k <= n && a[..k] == b[..k]
    {
      if k >= |queue| {
        RunLogAt(queue, submits, a, k);
        RunLogAt(queue, submits, b, k);
      }
      assert a[..k + 1] == a[..k] + [a[k]] && b[..k + 1] == b[..k] + [b[k]];
      k := k + 1;
    }
    if |a| <= |b| {
      RunLogPrefix(queue, submits, a, b);
    } else {
      RunLogPrefix(queue, submits, b, a);
    }
  }

  /** A complete run from a non-empty queue starts with the first queued item and goes
      on with a complete run from the rest of the queue followed by what it added. */
  lemma RunLogTail<T>(queue: seq<T>, submits: T -> seq<T>, log: seq<T>)
    requires |queue| > 0 && IsRunLog(queue, submits, log)
    ensures |log| > 0 && log[0] == queue[0]
    ensures IsRunLog(queue[1..] + submits(queue[0]), submits, log[1..])
  {
    var t, rest := queue[0], log[1..];
    assert log == [t] + rest;
    forall i | 0 <= i < |rest|
      ensures i < |queue[1..] + submits(t)| + |Submitted(rest[..i], submits)|
    {
      assert log[..i + 1] == [t] + rest[..i];
      assert log[..i + 1][1..] == rest[..i];
    }
  }

  /** From an empty queue nothing is processed. */
  lemma RunLogEmptyQueue<T>(submits: T -> seq<T>, log: seq<T>)
    requires IsRunLog([], submits, log)
    ensures log == []
  {
    assert |log| == 0 || 0 < |Submitted(log[..0], submits)|;
  }

  /** With enough fuel the drain loop finds the complete run whenever there is one, so
      `RunQueue` gives `None` only for runs longer than its fuel. */
  lemma {:induction false} RunQueueComplete<T>(queue: seq<T>, submits: T -> seq<T>, fuel: nat, log: seq<T>)
    requires IsRunLog(queue, submits, log) && fuel >= |log|
    ensures RunQueue(queue, submits, fuel) == Some(log)
    decreases |log|
  {
    if |queue| == 0 {
      RunLogEmptyQueue(submits, log);
    } else {
      RunLogTail(queue, submits, log);
      RunQueueComplete(queue[1..] + submits(queue[0]), submits, fuel - 1, log[1..]);
      assert log == [queue[0]] + log[1..];
    }
  }
}

=== FILE: wrappers.dfy ===
/** The optional value used wherever the runtime returns `nil` or an absent result. */
module Wrappers {

  datatype Option<+T> = None | Some(value: T)
}
